=== FILE: README.md ===
# WeFinance core in Dafny

This project models the rule-based core of WeFinance, a personal-finance assistant. The model covers:

- **Spending-anomaly detection** (`modules/analysis.py`). It takes a population z-score test over the transactions whose merchant is not trusted. Samples of three to nine transactions get a stricter 3.0 cutoff. Below three, detection does not run. When a sample of ten or more flags nothing at the base cutoff, the detector tries the fixed ladder 2.0, then 1.5. The same file's per-category totals are modelled too.
- **Reconciliation of the anomaly list with the user's feedback** (`utils/session.py`). The session state is an explicit record of the four keys it uses: `anomaly_flags`, `anomaly_history`, `anomaly_message` and `trusted_merchants`. Feedback is last-write-wins per transaction id. An anomaly resolved as `confirmed` or `fraud` never comes back. Partial updates leave the fields they do not mention alone. The trusted-merchant list is stripped and free of duplicates.
- **The recommendation rules** (`services/recommendation_service.py`): the risk ladder, the allocation tables, the goal-sentence scanner and the monthly savings hint.
- **The `Transaction`, `LineItem` and `OCRParseResult` records** and their defaults (`models/entities.py`).
- **The chat manager's rule-based parts** (`modules/chat_manager.py`): budget clamping, history, the context window, and the intent routing of `query_transactions`.
- **Structured-file detection, column mapping and row filtering for Excel imports, and manual CSV input** (`pages/bill_upload.py`).
- **Cleanup of the vision model's reply, and the conversion of its entries into transactions** (`services/vision_ocr_service.py`).
- **Dotted-key translation lookup** (`utils/i18n.py`).

Amounts are `real`. The square root is avoided: for `t > 0`, the test `|x - mean| / std >= t` is decided as `(x - mean)^2 >= t^2 * var`, where `var` is the population variance. For `t <= 0` the test always holds. `Analysis.QualifiesIsZScoreTest` proves the two forms equal.

Dates are day numbers. The clock, the file system, the JSON decoder and the language-model calls are outside the model; their results arrive as parameters.

Files:

| file | module | contents |
|---|---|---|
| `wrappers.dfy` | `Wrappers` | `Option`, `Result` |
| `text.dfy` | `Text` | Python string semantics: `strip`, `split`, `in`, `lower`, `str(n)`, `float(s)` |
| `seqs.dfy` | `Sequences` | keeping the present values of a list of options |
| `entities.dfy` | `Entities` | dates, `LineItem`, `Transaction`, `OCRParseResult` |
| `analysis.dfy` | `Analysis` | anomaly detection, category totals |
| `session.dfy` | `Session` | session state, feedback, reconciliation, trusted merchants |
| `recommendation.dfy` | `Recommendation` | risk ladder, allocation, goal parsing, plan |
| `chat.dfy` | `Chat` | chat manager state and `query_transactions` |
| `bill_upload.dfy` | `BillUpload` | file-type detection, Excel import, manual CSV input |
| `vision_ocr.dfy` | `VisionOcr` | reply cleanup, entry conversion |
| `i18n.dfy` | `I18n` | translation lookup, locale switch |

## Model

| member | source | states |
|---|---|---|
| Analysis.SortByDate | modules/analysis.py:30 | The result is ordered by date and is a permutation (same multiset) of the input. |
| Analysis.SortSortedIsIdentity | modules/analysis.py:30 | Sorting a table already in date order leaves it unchanged. |
| Analysis.SortPreservesStatistics | modules/analysis.py:67-73 | The mean and population variance of the sorted frame equal those of the input, whatever its order. |
| Analysis.VarianceZeroIffConstant | modules/analysis.py:73-75 | The standard deviation is zero exactly when every amount equals the first. This is the only case where the early return fires on a non-empty sample. |
| Analysis.SquaredDeviationsZero | modules/analysis.py:73 | The squared deviations from `m` sum to zero iff every amount is `m`. |
| Analysis.QualifiesIsZScoreTest | modules/analysis.py:77-78 | For `std > 0`, the square-free test equals `abs(x - mean) >= t * std`, i.e. `abs(z) >= t`. |
| Analysis.Flag | modules/analysis.py:77-92 | An item copies the transaction's id, date, category, merchant and amount. Its status is `"new"`, and it carries the threshold it was flagged at. Its deviation is the amount minus the mean. Its `zSquared` times the variance is the squared deviation, so it is the square of the source's `z_score` whenever the variance is positive. |
| Analysis.QualifyingRows | modules/analysis.py:78 | `df[np.abs(z) >= t]`: each row is kept as many times as it occurs iff it passes the test, and never otherwise. |
| Analysis.SelectQualifying | modules/analysis.py:78-80 | Both directions: every qualifying row yields its item, and every item comes from a qualifying row. The items are the qualifying rows flagged one by one, in their order, so rows in date order give items in date order. |
| Analysis.FlaggedRows | modules/analysis.py:67-78 | The rows flagged are the qualifying rows of the sample (the same multiset), in date order. |
| Analysis.ZScoreAnomalies | modules/analysis.py:62-94 | An empty sample or zero variance gives no items. Otherwise a row is flagged iff its z-score magnitude reaches the threshold, one item per qualifying row, each the flag of the date-ordered row at its position. Items are in date order. |
| Analysis.LowerThresholdFlagsMore | modules/analysis.py:143-152 | Lowering the threshold only adds items: each item at the higher cutoff reappears, restamped, at the lower one. |
| Analysis.ThresholdAtMostOneFlagsSomething | modules/analysis.py:72-78 | With positive variance, a threshold of at most 1 always flags something, because the squared z-scores average to one. |
| Analysis.NormalizeWhitelist | modules/analysis.py:115-117 | The trusted set holds exactly the stripped, non-blank entries. |
| Analysis.Sample | modules/analysis.py:118-121 | The sample keeps exactly the transactions whose merchant is not a trusted name, each as many times as it occurs. |
| Analysis.AppliedThreshold | modules/analysis.py:135-137 | The first cutoff is the base, or `max(base, 3.0)` below ten transactions. |
| Analysis.Relax | modules/analysis.py:143-152 | The ladder either finds items at the first candidate below the applied cutoff that flags something, or finds nothing iff every candidate is skipped. |
| Analysis.SampleReport | modules/analysis.py:123-162 | Sample size, status and threshold stamping, items drawn from the sample in date order, empty-result defaults, and `reduced` iff 3 <= n < 10. |
| Analysis.ReportSmallSample | modules/analysis.py:121-133 | Below three transactions: no items, threshold `base`, not adaptive, `normal`, and the insufficient-data message. |
| Analysis.ReportReducedSample | modules/analysis.py:135-141 | Three to nine transactions: `reduced`, never adaptive, the reduced-sensitivity message kept, and items taken at `max(base, 3.0)`. |
| Analysis.ReportFullSampleFound | modules/analysis.py:141-158 | Ten or more transactions flagged at the base: those items, threshold `base`, not adaptive, no message. |
| Analysis.ReportFullSampleRelaxed | modules/analysis.py:143-160 | Ten or more transactions with nothing at the base: adaptive iff items are found. The threshold is then the first unskipped candidate, below `base`. Otherwise `base` and the no-anomalies message. |
| Analysis.ComputeReport | modules/analysis.py:97-162 | Items come only from untrusted transactions, stamped `"new"` with the report's threshold, in date order. The sample size counts only untrusted transactions. |
| Analysis.DetectAnomalies | modules/analysis.py:165-177 | The wrapper returns items of untrusted transactions in date order, and nothing below three samples. |
| Analysis.CategoryTotals | modules/analysis.py:34-39 | The keys are exactly the categories present. |
| Analysis.CategoryTotalsAreSums | modules/analysis.py:34-39 | Each category's total is the sum of that category's amounts. |
| Analysis.FirstOfCategory | modules/analysis.py:37-38 | The position where a category first occurs: that transaction has the category and no earlier one does. |
| Analysis.CategoryOrder | modules/analysis.py:34-39 | The dictionary's key order lists every category present, each exactly once, in order of first appearance. |
| Analysis.CategoryOrderStep | modules/analysis.py:37-38 | One more transaction appends its category to the keys when it is new and leaves the order otherwise, and the earlier keys keep their first positions. |
| Analysis.FirstArgMax | modules/chat_manager.py:197 | `max` over the keys in order: a key whose total is at least every listed total, with every earlier key strictly smaller, so ties go to the first. |
| Analysis.TopCategory | modules/chat_manager.py:194-197 | `max(totals, key=totals.get)`: none iff there are no transactions; otherwise a present category whose total is at least every other total, and every category seen before it has a strictly smaller total. |
| Analysis.ArgMaxSeenFirst | modules/chat_manager.py:197 | A category first seen before the first maximal key has a strictly smaller total, so ties go to the category seen first. |
| Session.InitialState | utils/session.py:15-29 | Flags, history and whitelist start empty, and the message starts as `""`. |
| Session.UpdateAnomalyState | utils/session.py:120-132 | Each present argument replaces its field, and absent ones leave it. The whitelist never changes. |
| Session.UpdateNothingIsIdentity | utils/session.py:120-132 | An update with no arguments changes nothing. |
| Session.UpdateTwice | utils/session.py:120-132 | Two updates act as one in which the second's present arguments win. |
| Session.HistoryMap | utils/session.py:155-157 | The map's keys are exactly the ids in the history. |
| Session.HistoryMapIsLastRecord | utils/session.py:155-157 | With duplicate ids, the lookup finds the last record for that id. |
| Session.WithoutId | utils/session.py:140-144 | The records kept are exactly those with another id, in their order. |
| Session.RecordFeedback | utils/session.py:135-146 | The new record, with the given status, is appended last. The other ids' records keep their relative order, and the id's older records are gone. |
| Session.FeedbackLastWriteWins | utils/session.py:135-146 | After feedback, the id looks up the new record, and every other id's lookup is unchanged. |
| Session.HistoryMapOfFiltered | utils/session.py:140-144 | Dropping one id's records does not change any other id's lookup. |
| Session.ReconcileItems | utils/session.py:158-167 | Both directions: exactly the unresolved report items come back, relabelled. The result is a subsequence of the relabelled report items, and its length is the number of unresolved items. So it is the unresolved items themselves, in report order, each as often as in the report. |
| Session.SyncAnomalyState | utils/session.py:149-169 | Stores the active list, keeps history and whitelist, and replaces the message only when the report has one. Nothing resolved returns. The active list is the unresolved relabelled report items in report order: a subsequence of them, as long as their number. |
| Session.SyncKeepsExactlyUnresolved | utils/session.py:159-167 | A report item comes back iff its feedback is neither `confirmed` nor `fraud`. |
| Session.SyncRelabels | utils/session.py:165-167 | An item without feedback comes back unchanged. An item with feedback comes back with that feedback's status. |
| Session.SyncTwice | utils/session.py:149-169 | Syncing the same report twice gives the same state and list as syncing once. |
| Session.ResolvedNeverReturns | utils/session.py:135-146 | After `confirmed` or `fraud` feedback, no later report brings that id back. |
| Session.OtherFeedbackRelabels | utils/session.py:163-167 | Feedback with another label keeps the anomaly visible under that label. |
| Session.StrippedEntries | utils/session.py:81 | Exactly the stripped non-empty entries (a whitespace-only entry becomes `""`). |
| Session.StrippedEntriesInOrder | utils/session.py:81 | The k-th stripped entry is the k-th non-empty entry, stripped: one per non-empty entry, in their order. |
| Session.Dedup | utils/session.py:81 | `dict.fromkeys`: the same members, with no duplicates. |
| Session.DedupFirstOccurrenceOrder | utils/session.py:81 | Entries appear in order of first occurrence. |
| Session.DedupOfDistinct | utils/session.py:81 | A duplicate-free list is its own deduplication. |
| Session.TrustedMerchants | utils/session.py:77-82 | The whitelist as read has no duplicates, holds exactly the stripped non-empty stored entries, and lists them in order of first occurrence. |
| Session.TrustedMerchantsAreStripped | utils/session.py:77-82 | Every entry read is stripped. |
| Session.AddTrustedMerchant | utils/session.py:85-93 | A blank or already-listed name changes nothing. Otherwise the stripped name is appended at the end, and nothing else changes. |
| Session.RemoveTrustedMerchant | utils/session.py:96-99 | Every equal entry is removed and the rest keep their order. |
| Session.AddThenRead | utils/session.py:77-93 | After adding a new name, the list reads back as before, less any `""` entry, plus that name at the end. |
| Session.AddTwice | utils/session.py:85-93 | Adding the same name twice is adding it once. |
| Session.RemoveThenRead | utils/session.py:77-99 | After removal the list reads back without the name (and without any `""` entry). |
| Recommendation.RiskLabelForScore | services/recommendation_service.py:31-36 | Up to 4 is 保守型, 5 to 7 is 稳健型, and 8 and up is 激进型, each as an iff. |
| Recommendation.ConductRiskAssessment | services/recommendation_service.py:29-36 | The label is one of the three, chosen by the sum of the answers. |
| Recommendation.RiskLabelMonotone | services/recommendation_service.py:32-36 | A higher score never gives a more cautious label. |
| Recommendation.RaisingAnAnswerIsBolder | services/recommendation_service.py:29-36 | Raising one answer never gives a more cautious label. |
| Recommendation.AllocationTablesAreComplete | services/recommendation_service.py:15-19 | Each table's weights sum to 1. |
| Recommendation.GenerateAllocation | services/recommendation_service.py:38-40 | A known label gets its table, and an unknown one gets the 稳健型 table. Weights sum to 1. |
| Recommendation.EstimateMetrics | services/recommendation_service.py:21-22 | Expected return and drawdown per label: 4.5/5.0, 6.8/12.0 and 9.5/20.0. |
| Recommendation.MetricsGrowWithBoldness | services/recommendation_service.py:21-22 | Bolder labels promise more return and warn of a deeper drawdown. |
| Recommendation.ScanAmountFrom | services/recommendation_service.py:50-60 | A number is found iff the text has a digit, and the amount is never negative. |
| Recommendation.ScanAmountOfWholeNumber | services/recommendation_service.py:50-60 | After a digit-free start, a whole number is the amount, scaled by the unit after it (directly or after whitespace): 万 by 10000, 千 by 1000, and 元, 块, another character or nothing by 1. |
| Recommendation.ScanAmountOfDecimal | services/recommendation_service.py:50-60 | After a digit-free start, a number with a fraction is read with its fraction and scaled by the unit after it, the same way. |
| Recommendation.ScanHorizonFrom | services/recommendation_service.py:62-67 | `re.search` for `(\d+)\s*(年\|个月\|月)`: nothing iff no position matches; otherwise the value of the leftmost match, twelve months per 年. |
| Recommendation.ScanHorizonOfNumberWithUnit | services/recommendation_service.py:62-67 | With no match earlier, digits followed (after optional whitespace) by 年, 月 or 个月 give that many years times 12, or that many months. |
| Recommendation.GoalWithAmountAndYears | services/recommendation_service.py:42-69 | `"3万 2年"` gives 30000 and 24 months: the 3 has no time unit after it, so the horizon comes from the 2. |
| Recommendation.GoalWithDecimalAmount | services/recommendation_service.py:42-69 | `"1.5万"` gives 15000 and no horizon. |
| Recommendation.NoHorizonWithoutTimeUnit | services/recommendation_service.py:62-67 | A text with neither 年 nor 月 has no horizon. |
| Recommendation.ParseGoal | services/recommendation_service.py:42-69 | A blank goal gives `("未指定", None, None)`. Otherwise the name is the stripped text, the amount and horizon are the two scans of it, and an amount is found iff the text has a digit. |
| Recommendation.Ceil | services/recommendation_service.py:132 | `math.ceil`: the least integer not below `x`. |
| Recommendation.MonthlySavings | services/recommendation_service.py:131-133 | The hint is present iff the target is non-zero and the horizon is positive. It is then `ceil(target / horizon)`, bounded on both sides. |
| Recommendation.Generate | services/recommendation_service.py:136-192 | `risk_level` is the recommendation's label, one of the three. The allocation is that label's table, which sums to 1. Metrics follow the label, and the goal name and monthly savings hint follow the parsed goal. |
| Entities.DaysFromCivilAnchors | models/entities.py:25 | The day numbering: 1970-01-01 is day 0 and 2000-03-01 is day 11017. |
| Entities.DaysFromCivilLeapYears | models/entities.py:25 | February 29 exists in 2024 and not in 2025. |
| Entities.ParseIsoDate | models/entities.py:25 | Only `YYYY-MM-DD` text of a real calendar date parses, and it gives that date's day number. |
| Entities.ParseFormatIsoDate | models/entities.py:25 | Every calendar date written as `YYYY-MM-DD` parses back to itself. |
| Entities.PadDigitsOfValue | models/entities.py:25 | Zero-padding a field's value to its width gives the field's digits back. |
| Entities.NewLineItem | models/entities.py:11-18 | `quantity` defaults to 1.0 and `discount` is absent. |
| Entities.NewTransaction | models/entities.py:21-56 | Currency defaults to `CNY`, line items to empty, and every optional field to absent. |
| Entities.NewOcrParseResult | models/entities.py:82-87 | Transactions default to empty. |
| Chat.NewChat | modules/chat_manager.py:42-46 | A missing history is empty and a missing budget is 0.0. |
| Chat.SetMonthlyBudget | modules/chat_manager.py:76-79 | The budget stored is `max(0, amount)`, and nothing else changes. |
| Chat.SetMonthlyBudgetLastWins | modules/chat_manager.py:76-79 | Setting twice keeps only the second amount. |
| Chat.AddMessage | modules/chat_manager.py:81-83 | Exactly one `{role, content}` entry is appended, and the earlier entries are unchanged. |
| Chat.ContextAsWritten | modules/chat_manager.py:85-87 | `history[-limit:]`: the last `limit` entries for a positive limit, but everything for 0. |
| Chat.ContextAsWrittenZeroLimit | modules/chat_manager.py:85-87 | With a limit of 0 and a non-empty history, the slice returns every message, not none. |
| Chat.Context | modules/chat_manager.py:85-87 | The last `limit` messages, or all of them when there are fewer. |
| Chat.ContextAgreesForPositiveLimits | modules/chat_manager.py:85-87 | For every positive limit, including the default 10, the slice is `Context`. |
| Chat.ContextAfterAddMessage | modules/chat_manager.py:81-87 | After a message is added, any window of at least one ends with it. |
| Chat.SpendMaxHintSimplified | modules/chat_manager.py:176-181 | The top-spending test reduces to 花钱最多, 消费最多, or "spend" and "most". |
| Chat.RecentAverageHintSimplified | modules/chat_manager.py:204-207 | The recent-average test only needs 近. |
| Chat.LatestDay | modules/chat_manager.py:211 | `df["date"].max()`: no transaction is later, and some transaction falls on it. |
| Chat.OnOrAfter | modules/chat_manager.py:212 | The filter keeps each transaction dated on or after the day, as many times as it occurs, and no other. |
| Chat.RecentTransactions | modules/chat_manager.py:208-213 | Exactly the transactions within two days of the latest date, each as many times as it occurs. The window is never empty. |
| Chat.RecentAverageOfEqualAmounts | modules/chat_manager.py:215 | When every recent amount is `c`, the recent average is `c`. |
| Chat.QueryTransactions | modules/chat_manager.py:157-221 | A blank question gets `None`. Each intent answers iff no earlier intent matched, in the order budget, top category, recent average, ETF. The budget reply clamps the remainder at zero. The top category is the first maximal category with its total, and the recent average is the mean of the recent window. |
| Chat.QueryWithoutIntent | modules/chat_manager.py:218-221 | A question with no recognised phrase is answered `None`. |
| Chat.QueryIgnoresSurroundingSpace | modules/chat_manager.py:163-167 | Surrounding whitespace does not change the answer. |
| BillUpload.BaseName | pages/bill_upload.py:28 | `PurePath.name`: the last `/`-separated component that is neither empty nor `.`, or `""` exactly when every component is one of those. |
| BillUpload.BaseNameIgnoresTrailingSeparator | pages/bill_upload.py:25-29 | `name`, `name/` and `name/.` have the same name, so `a.csv/` is structured like `a.csv`. |
| BillUpload.Suffix | pages/bill_upload.py:28 | `PurePath.suffix`: empty, or a proper tail of the name that starts with `.`. |
| BillUpload.IsStructuredFile | pages/bill_upload.py:21-29 | A file is structured iff its name (as `PurePath.name` gives it), ignoring case, ends in `.csv`, `.xlsx` or `.xls` after at least one other character. |
| BillUpload.SuffixMatchesExtension | pages/bill_upload.py:28-29 | The lower-cased suffix equals a dotted extension iff the name ends with it after at least one character. |
| BillUpload.MappedField | pages/bill_upload.py:37-64 | Every recognised spelling maps to one of the five fields. |
| BillUpload.FieldNameTargetsItself | pages/bill_upload.py:37-64 | Each field's own name maps to that field. |
| BillUpload.MapColumns | pages/bill_upload.py:74-84 | The loop gives each column the field that no earlier column has claimed. |
| BillUpload.FieldTakenIffSomeColumnMaps | pages/bill_upload.py:74-87 | A field is mapped iff some header spells it, and then by exactly one column. |
| BillUpload.ClaimedColumnComesFirst | pages/bill_upload.py:101-102 | After renaming, the claiming column carries the field's name, and no column before it does. |
| BillUpload.Lookup | pages/bill_upload.py:105-143 | `row.get(name)`: none iff no column has the name, else that column's cell. |
| BillUpload.ReadsClaimedColumn | pages/bill_upload.py:101-143 | Each field is read from the column mapped to it. |
| BillUpload.ReadRow | pages/bill_upload.py:105-145 | A kept row has a present, non-blank date, non-blank merchant, category and currency, and an amount that is a number above zero or `NaN`. The id is the stripped id cell (empty with no `id` column). The category is the stripped category cell, or `其他` when that is blank. The currency is the stripped currency cell, or `CNY` when it is blank or missing. The payment method is the stripped cell, or none when blank. |
| BillUpload.ReadRowKeptIff | pages/bill_upload.py:107-134 | Both directions: a row is kept iff the date, merchant and amount conditions hold. |
| BillUpload.ReadRowAsMissingAmount | pages/bill_upload.py:127-134 | With empty cells read as missing, every kept amount is a number above zero. |
| BillUpload.RowId | pages/bill_upload.py:138 | The row's stripped id, or the 1-based count of accepted rows. |
| BillUpload.RowTransaction | pages/bill_upload.py:105-146 | The transaction one row builds (empty cells read as missing) has every field fixed by the cells: the parsed date, the stripped merchant, an amount above zero, the row's id or the next position, `其他` for a blank category and `CNY` for a blank or missing currency. |
| BillUpload.Convert | pages/bill_upload.py:136-146 | The transaction carries the row's fields, and it fails iff the date is not a date. |
| BillUpload.RenumberDistinct | pages/bill_upload.py:138 | Without ids of their own, the transactions are numbered 1, 2, 3, ..., all different. |
| BillUpload.ParseExcel | pages/bill_upload.py:66-153 | An empty sheet is an error. The missing-date, missing-merchant and missing-amount errors arise exactly when that column is unmapped and the earlier ones are mapped. It succeeds iff the sheet is non-empty, all three columns are mapped and the row loop on the renamed sheet succeeds. |
| BillUpload.ParseExcelImports | pages/bill_upload.py:88-105 | A non-empty sheet with date, merchant and amount mapped is its renamed rows, imported. |
| BillUpload.ImportRows | pages/bill_upload.py:104-151 | Success has one transaction per kept row. The import fails with the invalid-date error iff some kept row has a bad date, and with the no-valid-rows error iff every row is skipped. |
| BillUpload.ImportRowsKept | pages/bill_upload.py:104-153 | A successful import is the kept rows, each accepted and converted, then numbered. |
| BillUpload.ParseExcelAccepted | pages/bill_upload.py:120-146 | Every imported transaction has an amount above zero and non-blank merchant, category and currency. Each is the transaction some row builds, so blank category and currency cells give `其他` and `CNY`. |
| BillUpload.ParseExcelRowOrigins | pages/bill_upload.py:104-146 | The k-th imported transaction is what a row builds as the k-th accepted row, and those rows come in sheet order. |
| BillUpload.ParseExcelNumbersRows | pages/bill_upload.py:138 | A sheet without an `id` column numbers its transactions 1, 2, 3, ... |
| BillUpload.Renamed | pages/bill_upload.py:77-102 | A column whose spelling maps to a field no earlier column claims is renamed to that field. A column renamed at all was renamed to its own field, unclaimed before it. Every column ends up a field name or its header. |
| BillUpload.FieldNameCollision | pages/bill_upload.py:79-84 | A later column spelled exactly as an already-claimed field keeps that name, so two columns share it. |
| BillUpload.PostingDateCollision | pages/bill_upload.py:40-84 | Headers `posting_date`, `date` rename to `date`, `date`. |
| BillUpload.BlankMerchantAsWritten | pages/bill_upload.py:119-122 | As written, an empty merchant cell keeps the row with merchant `"nan"`. Read as missing, the row is skipped. |
| BillUpload.BlankAmountAsWritten | pages/bill_upload.py:127-134 | As written, an empty amount cell keeps the row with a `NaN` amount. Read as missing, the row is skipped. |
| BillUpload.Record | pages/bill_upload.py:176-177 | A CSV record's keys are exactly the header names. |
| BillUpload.RecordLastColumnWins | pages/bill_upload.py:177 | A repeated header name takes the last column's value, or `None` when the line is short. |
| BillUpload.ManualRow | pages/bill_upload.py:185-194 | The transaction carries the stripped id, date, merchant and category, the parsed amount, and the payment value unless it is empty. The currency is the stripped value, or `CNY` when that is blank or the field is absent. A well-formed record always builds. |
| BillUpload.ParseManual | pages/bill_upload.py:161-198 | Blank text gives `[]`. Text opening with `[` goes to the JSON path. Otherwise there is one transaction per record. CSV text is accepted iff it has a record and every record builds. It fails with the no-rows message iff there is no record, and it fails as raised iff some record does not build. |
| BillUpload.ParseManualRows | pages/bill_upload.py:181-195 | Each data line becomes its record's transaction with a positional id fallback, and no amount filter applies. |
| BillUpload.ParseManualNumbersRows | pages/bill_upload.py:187 | CSV text without an `id` column numbers its transactions 1, 2, 3, ... |
| VisionOcr.CleanReply | services/vision_ocr_service.py:152-159 | The cleaned reply is no longer than the raw one, and has no surrounding whitespace. |
| VisionOcr.CleanUnfencedReply | services/vision_ocr_service.py:152-159 | A reply without fences is only stripped. |
| VisionOcr.CleanFencedReply | services/vision_ocr_service.py:152-159 | A reply wrapped in a triple-backtick fence, tagged `json` or untagged, gives back exactly the body inside the fence. |
| VisionOcr.ReadItems | services/vision_ocr_service.py:169-173 | The line items are read in order: all of them when each is valid; otherwise the first failure decides, raising `TypeError` iff that item is not a mapping. |
| VisionOcr.EntryOutcome | services/vision_ocr_service.py:166-198 | A built transaction has the 1-based position as its id, the entry's fields and line items, and `CNY` when the currency is missing. An entry builds iff it is an object, its line items read, the four keys are present, the amount converts, the date is ISO date text, and merchant, category and any currency are strings; the built date is the parsed date. `AttributeError` arises iff the entry is not an object. `TypeError` arises iff a line item is not a mapping, or the items read and the amount has the wrong type. |
| VisionOcr.ExtractAsWritten | services/vision_ocr_service.py:165-201 | The reply fails iff some entry raises, with the first exception raised. Otherwise the built transactions are returned in order. |
| VisionOcr.Extract | services/vision_ocr_service.py:165-201 | Whenever the loop as written succeeds, this agrees with it. Every entry that builds is kept, whatever the other entries raise, and every kept transaction is one an entry builds. |
| VisionOcr.ExtractIdsArePositions | services/vision_ocr_service.py:166-182 | Each transaction comes from a strictly later entry than the one before, and its id is that entry's position plus one. |
| VisionOcr.ExtractIdsDistinct | services/vision_ocr_service.py:182 | The ids are all different. |
| VisionOcr.ExtractAllBuilt | services/vision_ocr_service.py:165-195 | When every entry builds, there is one transaction per entry, in order. |
| VisionOcr.SkippedEntryLeavesGap | services/vision_ocr_service.py:166-198 | An invalid first entry leaves the next one with id `"2"`. |
| VisionOcr.NullAmountFailsReply | services/vision_ocr_service.py:186-198 | As written, a `null` amount fails the whole reply with `TypeError`. Skipped as intended, the valid entries are kept. |
| VisionOcr.NonObjectFailsReply | services/vision_ocr_service.py:166-198 | As written, an entry that is not an object fails the whole reply with `AttributeError`. Skipped as intended, the valid entries are kept. |
| VisionOcr.FirstItemFailureDecides | services/vision_ocr_service.py:169-173 | A non-mapping item before an invalid one raises `TypeError`; after it, the entry is skipped. |
| I18n.Load | utils/i18n.py:18-30 | A locale's file, or an empty object when it has none. |
| I18n.Walk | utils/i18n.py:36-41 | The walk stops with nothing at a missing segment or a value that is not an object. |
| I18n.T | utils/i18n.py:32-45 | A failed walk shows the key itself. A found string is shown as it is. A found non-string value, such as a subtree, is printed, and only such a value is printed. |
| I18n.SwitchLocale | utils/i18n.py:47-50 | Sets the locale, and replaces the translations with the new locale's file (or empty). |
| I18n.SwitchLocaleForgets | utils/i18n.py:47-50 | After a switch the translator is the one built fresh for that locale. Switching twice is switching once. |
| I18n.WalkConcat | utils/i18n.py:36-41 | Walking `p + q` is walking `p`, then `q`. |
| I18n.MissingLocaleShowsKeys | utils/i18n.py:20-41 | With no file for the locale, every key shows as itself. |
| I18n.MissingSegmentShowsKey | utils/i18n.py:37-41 | A missing segment, or a non-object on the way, shows the key. |
| I18n.WalkPut | utils/i18n.py:36-41 | A value stored under a path is found by walking that path. |
| I18n.TranslatesStoredKey | utils/i18n.py:34-44 | A string stored under dot-free segments is what `t` gives for their dotted key. |
| I18n.OtherKeysUnchanged | utils/i18n.py:34-44 | Storing under one key does not change the translation of a key that diverges from it. |
| Text.SplitJoin | utils/i18n.py:34 | `'.'.join(key.split('.')) == key`. |
| Text.JoinSplit | utils/i18n.py:34 | Splitting a join of separator-free parts gives the parts back. |
| Text.NatToStringRoundTrip | pages/bill_upload.py:138 | `int(str(n)) == n`, so the numbered ids are distinct. |
| Text.ParseDecimal | pages/bill_upload.py:191 | `float(s)` on plain decimals: blank text is not a number. |
| Text.ParseDecimalOfWhole | pages/bill_upload.py:191 | Digits with an optional sign and surrounding whitespace read as their value, negated for `-`. |
| Text.ParseDecimalOfFraction | pages/bill_upload.py:191 | Digits, a `.` and digits (one side may be empty) read as whole part plus fraction, with the sign applied. |
| Text.ParseDecimalOfNat | pages/bill_upload.py:191 | `float(str(n)) == n`. |
| Text.ParseDecimalRejectsStray | pages/bill_upload.py:191 | A character other than a digit or `.` inside the number makes it not a number. |
| Text.ParseDecimalRejectsTwoDots | pages/bill_upload.py:191 | Two `.` in the number make it not a number. |

## Left out

- Analysis.SampleReport: the source writes `threshold_used` only when items are found (modules/analysis.py:154-158). So a sample of three to nine that flags nothing reports `base`, not the `max(base, 3.0)` it applied. The model follows the code.
- Analysis.SortByDate: pandas' `sort_values` is not stable, so the order among transactions of the same date is not defined by the source. The model uses a stable insertion sort. Only "non-decreasing date order" is claimed of the items.
- Analysis.Flag: the `reason` text (one-decimal formatting of `abs(z)`) is not modelled. The item carries the signed deviation and `z^2` instead of `z`, so no square root is needed.
- Floating-point rounding, `inf` and `NaN` arithmetic are not modelled. Amounts are exact reals. An empty spreadsheet amount read as `NaN` is a distinct `Amount` value.
- Python's full Unicode `str.lower()` is not modelled. Only ASCII letters are lowered. Likewise `\d` is taken as ASCII digits. `str.isspace` and `\s` use Python's whitespace set.
- Text.ParseDecimal: `float(s)` on text is read only as a plain decimal: a sign, ASCII digits and at most one `.`. Python also accepts exponents, underscores, `inf` and `nan`, and any Unicode decimal digit: `float("１２") == 12.0`, as a Chinese input method types it into a CSV or Excel amount. All of these are treated as not a number here.
- Entities.ParseIsoDate: pydantic also accepts datetime text whose time part is zero, and numeric timestamps, for a `date` field. Only `YYYY-MM-DD` text is modelled.
- Session: a history record without a `status` key is not representable. The `"review"` default of `history.get("status", "review")` is therefore not modelled.
- Session: a `trusted_merchants` value that is not a list is not representable, so the `isinstance` branch of `get_trusted_merchants` is not modelled. `_serialize_anomaly`'s date-to-ISO conversion and deep copy are JSON plumbing, and records are stored as they are.
- Session: `get_active_anomalies` and `get_anomaly_history` are modelled as plain reads (`Session.ActiveAnomalies`, `Session.AnomalyHistory`). Their contracts only say that.
- The hash-based skip of `_refresh_anomaly_state` in `app.py` is a memoisation and is not modelled.
- Chat: `_current_month_spent` reads the clock, so it is the `spent` parameter of `Chat.QueryTransactions`. `generate_response`, `_summary_fallback` and `_transactions_summary_text` call or feed the language model and are not modelled. Replies are templates without their wording.
- Chat.NewChat: the source stores the caller's history list object itself (modules/chat_manager.py:42). A later append by the caller is therefore seen by the manager, and the reverse. Values are immutable here, so this sharing is not modelled.
- Chat.RecentTransactions: the "recent window is empty" reply cannot be reached, because the window always holds the latest transaction. The lemma proves this, and the reply is not modelled.
- Recommendation: the explanation and summary sentences (`generate_explanation`, string formatting of percentages) are not modelled. The summary is a record of its content. Only the savings hint's value and presence are modelled.
- BillUpload: reading the file bytes (`pd.read_excel`, file-size limits, the page's Excel-then-CSV fallback) is outside the model. The sheet arrives as headers and rows of cells. `str()` of a number or timestamp cell is carried with the cell.
- BillUpload.ParseExcel: empty cells are read as missing. This is the corrected reading of the Findings row for pages/bill_upload.py:119-134. `BillUpload.ImportRows` and `BillUpload.ParseExcelAccepted` state their contracts for that reading. The as-written reading, where an empty cell is `NaN`, is modelled row by row in `BillUpload.ReadRow`.
- BillUpload.ImportRows: its contracts are stated for the corrected reading of empty cells only, where an empty cell is missing rather than `NaN`.
- BillUpload.ParseExcelAccepted: which rows are accepted is stated for the corrected reading of empty cells only.
- BillUpload.ImportRowsKept: the kept rows it names are those of the corrected reading of empty cells. Under the as-written reading, rows with merchant `"nan"` or a `NaN` amount would be kept as well. `BillUpload.BlankMerchantAsWritten` and `BillUpload.BlankAmountAsWritten` show this for single rows.
- BillUpload.Lookup: pandas hands the row loop a whole series when two columns share a name. The model reads the first such column instead, which is the corrected behaviour (see Findings).
- BillUpload.BaseName: paths are POSIX paths with `/` as the only separator. The Windows `PurePath`, which also splits on `\` and knows drive letters, is not modelled.
- BillUpload: the `"Excel文件解析失败: "` prefix every error receives is not modelled. The errors carry their inner message.
- BillUpload: CSV quoting, `\r\n` line ends and field values containing commas are not modelled. A record is a line split on `,`, with extra values beyond the header dropped.
- BillUpload: the JSON branch of `_parse_manual_input` hands the stripped text to the JSON decoder, which is outside the model. The "no header" error of the CSV branch cannot arise from a non-blank stripped text, and is not modelled.
- BillUpload: pydantic's coercions when building a `Transaction` (e.g. a numeric id) are not modelled. A row that fails to build aborts the whole manual input. The exception it raises is not modelled: the model records it as `RowRaised`, which is not a message of the program.
- VisionOcr: the model call and `json.loads` are outside the model. Entries arrive decoded: an entry is an object or `NotObject`, and a line item is a valid item, an invalid mapping or `NotMapping`. `line_items` that is present but not a list, and `receipt_time` values that `fromisoformat` rejects, are not modelled. Receipt times stay text.
- I18n: reading a locale file and `lru_cache` are outside the model. Files arrive as a map from locale to decoded value. `str.format(**kwargs)` is not modelled. A non-string value is shown as `Printed(v)`, not as its `str()` text.
- Rendering code (`app.py`, the `render` functions of the pages, `utils/design_system.py`, `utils/ui_components.py`) is presentation only, and is not modelled. The same goes for the pandas-based trend and insight functions (`calculate_spending_trend`, `generate_insights` and their helpers) and for `services/ocr_service.py`, `services/structuring_service.py` and `services/langchain_agent.py`. These are I/O or language-model calls.

## Findings

| source | as written | input that shows it | evidently intended | confidence | as-written member | corrected member |
|---|---|---|---|---|---|---|
| modules/chat_manager.py:85-87 | `history[-limit:]` with `limit == 0` is `history[0:]`, i.e. the whole history | `get_context(0)` on a one-message history returns that message | the last 0 messages, i.e. none | not executed; medium (the default limit is 10, so only explicit zero calls are affected) | Chat.ContextAsWrittenZeroLimit | Chat.Context |
| pages/bill_upload.py:119-134 | an empty merchant cell is `NaN`, `str(NaN)` is `"nan"`, and that passes the blank test; an empty amount cell is `NaN`, which passes `amount <= 0` | a row `date=2024-01-05, merchant=<empty>, amount=12.5` is kept with merchant `"nan"`; `date=2024-01-05, merchant=Cafe, amount=<empty>` is kept with a `NaN` amount | rows with a missing merchant or amount are skipped, as the comments say | not executed; high | BillUpload.BlankMerchantAsWritten, BillUpload.BlankAmountAsWritten | BillUpload.ReadRowAsMissingAmount, BillUpload.ParseExcelAccepted |
| pages/bill_upload.py:79-102 | a column already named like a field is not renamed when an earlier spelling has claimed that field, so the renamed sheet has two such columns | headers `posting_date, date` rename to `date, date`; `row.get("date")` is then a series, and the emptiness test on it raises, failing the file | the claimed column is the one read, and the other column is ignored | not executed; medium | BillUpload.PostingDateCollision, BillUpload.FieldNameCollision | BillUpload.ReadsClaimedColumn |
| services/vision_ocr_service.py:166-198 | `except (KeyError, ValueError)` does not catch the `TypeError` of `float(None)` or of `LineItem(**li)` on a non-mapping item, nor the `AttributeError` of `item.get` on a non-object entry, so the whole reply fails | a reply `[{"date": "2024-01-05", "merchant": "A", "category": "餐饮", "amount": null}, <a valid entry>]` raises instead of returning the valid entry; so does `[1, <a valid entry>]` | an invalid entry is skipped like the others | not executed; high | VisionOcr.NullAmountFailsReply, VisionOcr.NonObjectFailsReply, VisionOcr.ExtractAsWritten | VisionOcr.Extract |

=== FILE: analysis.dfy ===
/** Spending-anomaly detection: a population z-score test over the
    transactions whose merchant is not trusted, with a stricter cutoff for
    small samples and a fixed relaxation ladder when a full sample yields
    nothing; plus per-category spending totals.

    The z-score test |x - mean| / std >= t is decided without square roots:
    for t <= 0 it always holds, and for t > 0 it is (x - mean)^2 >= t^2 * var
    where var = std^2 is the population variance (divided by N). Every item
    carries the signed deviation x - mean and z^2 = (x - mean)^2 / var. */
module Analysis {
  import opened Wrappers
  import opened Text
  import opened Entities

  /** The status labels a flagged transaction carries: the detector emits
      "new" and the user's feedback records "confirmed" or "fraud". Any
      other text is kept as it is. */
  const StatusNew: string := "new"
  const StatusConfirmed: string := "confirmed"
  const StatusFraud: string := "fraud"

  datatype Sensitivity = Normal | Reduced

  /** One flagged transaction. */
  datatype AnomalyItem = AnomalyItem(
    transactionId: string,
    date: Date,
    category: string,
    merchant: string,
    amount: real,
    deviation: real,
    zSquared: real,
    status: string,
    thresholdUsed: real)

  /** The detector's answer together with how it was reached. */
  datatype Report = Report(
    items: seq<AnomalyItem>,
    thresholdUsed: real,
    adaptive: bool,
    sampleSize: nat,
    sensitivity: Sensitivity,
    message: Option<string>)

  const DefaultThreshold: real := 2.5
  /** Below this many transactions detection is not attempted. */
  const MinSampleSize: nat := 3
  /** Below this many transactions the cutoff is raised to `ReducedThreshold`. */
  const FullSampleSize: nat := 10
  const ReducedThreshold: real := 3.0
  /** The looser cutoffs tried, in order, when a full sample flags nothing. */
  const RelaxedThresholds: seq<real> := [2.0, 1.5]

  const InsufficientDataMessage: string := "数据较少，暂未启用异常检测。"
  const ReducedSensitivityMessage: string := "数据积累中，检测灵敏度已降低以减少误报。"
  const NoAnomaliesMessage: string := "未检测到异常支出。"

  function Max(a: real, b: real): real {
    if a >= b then a else b
  }

  // ---------------------------------------------------------------------
  // Ordering by date
  // ---------------------------------------------------------------------

  predicate SortedByDate(ts: seq<Transaction>) {
    forall i, j :: 0 <= i < j < |ts| ==> ts[i].date.day <= ts[j].date.day
  }

  predicate ItemsSortedByDate(items: seq<AnomalyItem>) {
    forall i, j :: 0 <= i < j < |items| ==> items[i].date.day <= items[j].date.day
  }

  /** Places `t` before the first transaction dated on or after it. */
  function InsertByDate(t: Transaction, ts: seq<Transaction>): (r: seq<Transaction>)
    requires SortedByDate(ts)
    ensures |r| == |ts| + 1
    ensures r[0] == t || (|ts| > 0 && r[0] == ts[0])
    ensures SortedByDate(r)
    ensures multiset(r) == multiset(ts) + multiset{t}
  {
    if |ts| == 0 || t.date.day <= ts[0].date.day then [t] + ts
    else
      var rest := InsertByDate(t, ts[1..]);
      assert ts == [ts[0]] + ts[1..];
      assert ts[0].date.day <= rest[0].date.day;
      [ts[0]] + rest
  }

  /** The transactions in date order, as `sort_values("date")` leaves them.
      pandas does not promise an order among equal dates; this model keeps
      their input order. */
  function SortByDate(ts: seq<Transaction>): (r: seq<Transaction>)
    ensures SortedByDate(r)
    ensures multiset(r) == multiset(ts)
    ensures |r| == |ts|
  {
    if |ts| == 0 then []
    else
      assert ts == [ts[0]] + ts[1..];
      InsertByDate(ts[0], SortByDate(ts[1..]))
  }

  /** Sorting an already ordered list leaves it as it is. */
  lemma {:induction false} SortSortedIsIdentity(ts: seq<Transaction>)
    requires SortedByDate(ts)
    ensures SortByDate(ts) == ts
  {
    if |ts| > 0 {
      assert SortedByDate(ts[1..]);
      SortSortedIsIdentity(ts[1..]);
      assert ts == [ts[0]] + ts[1..];
    }
  }

  // ---------------------------------------------------------------------
  // Population statistics of the amounts
  // ---------------------------------------------------------------------

  function Total(ts: seq<Transaction>): real {
    if |ts| == 0 then 0.0 else ts[0].amount + Total(ts[1..])
  }

  function Mean(ts: seq<Transaction>): real {
    if |ts| == 0 then 0.0 else Total(ts) / (|ts| as real)
  }

  function Square(x: real): (r: real)
    ensures r >= 0.0
  {
    x * x
  }

  /** Sum of the squared deviations of the amounts from `m`. */
  function SquaredDeviations(ts: seq<Transaction>, m: real): (r: real)
    ensures r >= 0.0
  {
    if |ts| == 0 then 0.0 else Square(ts[0].amount - m) + SquaredDeviations(ts[1..], m)
  }

  /** Population variance of the amounts (`std(ddof=0)` squared). */
  function Variance(ts: seq<Transaction>): (r: real)
    ensures r >= 0.0
  {
    if |ts| == 0 then 0.0 else SquaredDeviations(ts, Mean(ts)) / (|ts| as real)
  }

  lemma {:induction false} InsertPreservesSums(t: Transaction, ts: seq<Transaction>, m: real)
    requires SortedByDate(ts)
    ensures Total(InsertByDate(t, ts)) == t.amount + Total(ts)
    ensures SquaredDeviations(InsertByDate(t, ts), m) == Square(t.amount - m) + SquaredDeviations(ts, m)
  {
    var r := InsertByDate(t, ts);
    SquaredDeviationsCons(r, m);
    if |ts| > 0 && t.date.day > ts[0].date.day {
      InsertPreservesSums(t, ts[1..], m);
      assert r[1..] == InsertByDate(t, ts[1..]);
      SquaredDeviationsCons(ts, m);
    } else {
      assert r[1..] == ts;
    }
  }

  /** Sorting does not change the sums the statistics are built from. */
  lemma {:induction false} SortPreservesTotal(ts: seq<Transaction>)
    ensures Total(SortByDate(ts)) == Total(ts)
  {
    if |ts| > 0 {
      var rest := SortByDate(ts[1..]);
      SortPreservesTotal(ts[1..]);
      InsertPreservesSums(ts[0], rest, 0.0);
    }
  }

  lemma {:induction false} SortPreservesSquaredDeviations(ts: seq<Transaction>, m: real)
    ensures SquaredDeviations(SortByDate(ts), m) == SquaredDeviations(ts, m)
  {
    if |ts| > 0 {
      var rest := SortByDate(ts[1..]);
      SortPreservesSquaredDeviations(ts[1..], m);
      InsertPreservesSums(ts[0], rest, m);
      assert SortByDate(ts) == InsertByDate(ts[0], rest);
      SquaredDeviationsCons(ts, m);
    }
  }

  lemma SquaredDeviationsCons(ts: seq<Transaction>, m: real)
    requires |ts| > 0
    ensures SquaredDeviations(ts, m) == Square(ts[0].amount - m) + SquaredDeviations(ts[1..], m)
  {
  }

  /** The mean and the variance do not depend on the order of the sample. */
  lemma SortPreservesStatistics(ts: seq<Transaction>)
    ensures Mean(SortByDate(ts)) == Mean(ts)
    ensures Variance(SortByDate(ts)) == Variance(ts)
  {
    SortPreservesTotal(ts);
    SortPreservesSquaredDeviations(ts, Mean(ts));
  }

  /** Every amount equal to `c`. */
  predicate AllAmountsAre(ts: seq<Transaction>, c: real) {
    forall i :: 0 <= i < |ts| ==> ts[i].amount == c
  }

  lemma {:induction false} TotalOfConstant(ts: seq<Transaction>, c: real)
    requires AllAmountsAre(ts, c)
    ensures Total(ts) == (|ts| as real) * c
  {
    if |ts| > 0 {
      assert AllAmountsAre(ts[1..], c);
      TotalOfConstant(ts[1..], c);
    }
  }

  lemma {:induction false} SquaredDeviationsZero(ts: seq<Transaction>, m: real)
    ensures SquaredDeviations(ts, m) == 0.0 <==> AllAmountsAre(ts, m)
  {
    if |ts| > 0 {
      SquaredDeviationsZero(ts[1..], m);
      var d := ts[0].amount - m;
      if d != 0.0 {
        SquareOfNonzero(d);
      }
      assert AllAmountsAre(ts, m) <==> d == 0.0 && AllAmountsAre(ts[1..], m);
    }
  }

  lemma SquareOfNonzero(d: real)
    requires d != 0.0
    ensures Square(d) > 0.0
  {
    SquareMonotone(0.0, if d > 0.0 then d else -d);
    assert Square(d) == Square(if d > 0.0 then d else -d);
  }

  /** The variance is zero exactly when every amount is the same: the case
      in which `std == 0` and nothing can be flagged. */
  lemma VarianceZeroIffConstant(ts: seq<Transaction>)
    requires |ts| > 0
    ensures Variance(ts) == 0.0 <==> AllAmountsAre(ts, ts[0].amount)
  {
    var n := |ts| as real;
    SquaredDeviationsZero(ts, Mean(ts));
    if AllAmountsAre(ts, ts[0].amount) {
      TotalOfConstant(ts, ts[0].amount);
      assert (n * ts[0].amount) / n == ts[0].amount;
    }
    if Variance(ts) == 0.0 {
      assert SquaredDeviations(ts, Mean(ts)) == 0.0;
      assert AllAmountsAre(ts, Mean(ts));
    }
  }

  // ---------------------------------------------------------------------
  // The z-score test
  // ---------------------------------------------------------------------

  /** Whether an amount `x` lies at least `t` population standard deviations
      from `mean`, for a sample of positive `variance`. */
  predicate Qualifies(x: real, mean: real, variance: real, t: real) {
    t <= 0.0 || Square(x - mean) >= Square(t) * variance
  }

  lemma ProductNonnegative(x: real, y: real)
    requires x >= 0.0 && y >= 0.0
    ensures x * y >= 0.0
    ensures x > 0.0 && y > 0.0 ==> x * y > 0.0
  {
  }

  lemma MulMonotone(a: real, b: real, c: real)
    requires a <= b && c >= 0.0
    ensures a * c <= b * c
    ensures a < b && c > 0.0 ==> a * c < b * c
  {
    var d := b - a;
    ProductNonnegative(d, c);
    assert b * c - a * c == d * c;
  }

  lemma SquareMonotone(a: real, b: real)
    requires 0.0 <= a <= b
    ensures Square(a) <= Square(b)
    ensures a < b ==> Square(a) < Square(b)
  {
    var d := b - a;
    var s := b + a;
    ProductNonnegative(d, s);
    assert Square(b) - Square(a) == d * s;
    if a < b {
      assert d > 0.0 && s > 0.0;
      assert d * s > 0.0;
    }
  }

  /** Squares of non-negative numbers are ordered as the numbers are. */
  lemma SquaresOrder(u: real, w: real)
    requires u >= 0.0 && w >= 0.0
    ensures Square(u) >= Square(w) <==> u >= w
  {
    if u >= w {
      SquareMonotone(w, u);
    } else {
      SquareMonotone(u, w);
    }
  }

  lemma SquareOfScaled(a: real, s: real)
    ensures Square(a * s) == Square(a) * (s * s)
  {
  }

  /** `Qualifies` is the source's test |(x - mean) / std| >= t for a
      standard deviation std > 0 and variance std^2, with both sides
      multiplied by std: the amount lies at least t standard deviations
      from the mean. */
  lemma QualifiesIsZScoreTest(x: real, mean: real, std: real, t: real)
    requires std > 0.0
    ensures Qualifies(x, mean, std * std, t) <==> (if x >= mean then x - mean else mean - x) >= t * std
  {
    var d := x - mean;
    var absD := if d >= 0.0 then d else -d;
    assert Square(d) == Square(absD);
    if t > 0.0 {
      SquareOfScaled(t, std);
      ProductNonnegative(t, std);
      SquaresOrder(absD, t * std);
    }
  }

  /** The item produced for transaction `t` of a sample with the given
      `mean` and `variance`, tested at `threshold`. */
  function Flag(t: Transaction, mean: real, variance: real, threshold: real): (a: AnomalyItem)
    ensures Copies(a, t)
    ensures a.status == StatusNew && a.thresholdUsed == threshold
    ensures a.deviation == t.amount - mean
    ensures variance > 0.0 ==> a.zSquared * variance == Square(a.deviation)
    ensures a.zSquared >= 0.0
  {
    var d := t.amount - mean;
    AnomalyItem(t.id, t.date, t.category, t.merchant, t.amount, d,
                if variance > 0.0 then Square(d) / variance else 0.0, StatusNew, threshold)
  }

  /** `a` carries the identity, date, category, merchant and amount of `t`. */
  predicate Copies(a: AnomalyItem, t: Transaction) {
    && a.transactionId == t.id && a.date == t.date && a.category == t.category
    && a.merchant == t.merchant && a.amount == t.amount
  }

  /** `a` is the item of some row of `rows` that passes the test. */
  predicate FlagOfSome(a: AnomalyItem, rows: seq<Transaction>, mean: real, variance: real, threshold: real) {
    exists x :: x in rows && Qualifies(x.amount, mean, variance, threshold) && a == Flag(x, mean, variance, threshold)
  }

  /** The rows that pass the test, in row order, each as often as it
      occurs in `rows`. */
  function QualifyingRows(rows: seq<Transaction>, mean: real, variance: real, threshold: real): (r: seq<Transaction>)
    ensures |r| <= |rows|
    ensures forall x :: multiset(r)[x] == if Qualifies(x.amount, mean, variance, threshold) then multiset(rows)[x] else 0
  {
    if |rows| == 0 then []
    else
      var rest := QualifyingRows(rows[1..], mean, variance, threshold);
      assert rows == [rows[0]] + rows[1..];
      if Qualifies(rows[0].amount, mean, variance, threshold) then [rows[0]] + rest else rest
  }

  /** Every qualifying row is a row of the table. */
  lemma QualifyingRowsMembers(rows: seq<Transaction>, mean: real, variance: real, threshold: real)
    ensures forall x :: x in QualifyingRows(rows, mean, variance, threshold) ==> x in rows
  {
    var q := QualifyingRows(rows, mean, variance, threshold);
    forall x | x in q ensures x in rows {
      assert multiset(q)[x] > 0;
    }
  }

  /** The qualifying rows of a date-ordered table are in date order. */
  lemma {:induction false} QualifyingRowsSorted(rows: seq<Transaction>, mean: real, variance: real, threshold: real)
    requires SortedByDate(rows)
    ensures SortedByDate(QualifyingRows(rows, mean, variance, threshold))
  {
    if |rows| > 0 {
      var rest := QualifyingRows(rows[1..], mean, variance, threshold);
      assert SortedByDate(rows[1..]);
      QualifyingRowsSorted(rows[1..], mean, variance, threshold);
      if Qualifies(rows[0].amount, mean, variance, threshold) {
        QualifyingRowsMembers(rows[1..], mean, variance, threshold);
        forall x | x in rest ensures rows[0].date.day <= x.date.day {
          var i :| 0 <= i < |rows[1..]| && rows[1..][i] == x;
          assert rows[i + 1] == x;
        }
        ConsSorted(rows[0], rest);
      }
    }
  }

  /** A transaction dated no later than any of a date-ordered list goes in
      front of it. */
  lemma ConsSorted(x: Transaction, rest: seq<Transaction>)
    requires SortedByDate(rest)
    requires forall y :: y in rest ==> x.date.day <= y.date.day
    ensures SortedByDate([x] + rest)
  {
    var r := [x] + rest;
    forall i, j | 0 <= i < j < |r| ensures r[i].date.day <= r[j].date.day {
      assert r[j] == rest[j - 1];
      if i > 0 {
        assert r[i] == rest[i - 1];
      }
    }
  }

  /** Rows with the same rows, counted with repetition, have the same
      qualifying rows. */
  lemma QualifyingSameCounts(a: seq<Transaction>, b: seq<Transaction>, mean: real, variance: real, threshold: real)
    requires multiset(a) == multiset(b)
    ensures multiset(QualifyingRows(a, mean, variance, threshold)) == multiset(QualifyingRows(b, mean, variance, threshold))
  {
    var qa := QualifyingRows(a, mean, variance, threshold);
    var qb := QualifyingRows(b, mean, variance, threshold);
    forall x ensures multiset(qa)[x] == multiset(qb)[x] {
    }
  }

  /** The items of the rows of `rows` that pass the test, in row order:
      one item per qualifying row. */
  function SelectQualifying(rows: seq<Transaction>, mean: real, variance: real, threshold: real): (r: seq<AnomalyItem>)
    ensures |r| <= |rows|
    ensures |r| == |QualifyingRows(rows, mean, variance, threshold)|
    ensures forall k :: 0 <= k < |r| ==> r[k] == Flag(QualifyingRows(rows, mean, variance, threshold)[k], mean, variance, threshold)
    ensures forall a :: a in r ==> FlagOfSome(a, rows, mean, variance, threshold)
    ensures forall x :: x in rows && Qualifies(x.amount, mean, variance, threshold) ==>
      Flag(x, mean, variance, threshold) in r
    ensures SortedByDate(rows) && |r| > 0 ==> rows[0].date.day <= r[0].date.day
    ensures SortedByDate(rows) ==> ItemsSortedByDate(r)
  {
    if |rows| == 0 then []
    else
      var rest := SelectQualifying(rows[1..], mean, variance, threshold);
      var r := if Qualifies(rows[0].amount, mean, variance, threshold)
               then [Flag(rows[0], mean, variance, threshold)] + rest
               else rest;
      SelectStepMembers(rows, mean, variance, threshold, rest, r);
      SelectStepOrder(rows, rest, r);
      SelectStepFlags(rows, mean, variance, threshold, rest, r);
      r
  }

  /** Item by item, the items kept for a row and its successors are the
      flags of the qualifying rows. */
  lemma SelectStepFlags(rows: seq<Transaction>, mean: real, variance: real, threshold: real,
                        rest: seq<AnomalyItem>, r: seq<AnomalyItem>)
    requires |rows| > 0
    requires |rest| == |QualifyingRows(rows[1..], mean, variance, threshold)|
    requires forall k :: 0 <= k < |rest| ==> rest[k] == Flag(QualifyingRows(rows[1..], mean, variance, threshold)[k], mean, variance, threshold)
    requires r == if Qualifies(rows[0].amount, mean, variance, threshold)
                  then [Flag(rows[0], mean, variance, threshold)] + rest else rest
    ensures |r| == |QualifyingRows(rows, mean, variance, threshold)|
    ensures forall k :: 0 <= k < |r| ==> r[k] == Flag(QualifyingRows(rows, mean, variance, threshold)[k], mean, variance, threshold)
  {
    var q := QualifyingRows(rows, mean, variance, threshold);
    var qRest := QualifyingRows(rows[1..], mean, variance, threshold);
    if Qualifies(rows[0].amount, mean, variance, threshold) {
      assert q == [rows[0]] + qRest;
      FlagsOfCons(rows[0], qRest, mean, variance, threshold, rest);
    } else {
      assert q == qRest;
    }
  }

  /** The items kept for a row and its successors are the items of the
      passing rows. */
  lemma SelectStepMembers(rows: seq<Transaction>, mean: real, variance: real, threshold: real,
                          rest: seq<AnomalyItem>, r: seq<AnomalyItem>)
    requires |rows| > 0
    requires forall a :: a in rest ==> FlagOfSome(a, rows[1..], mean, variance, threshold)
    requires forall x :: x in rows[1..] && Qualifies(x.amount, mean, variance, threshold) ==>
      Flag(x, mean, variance, threshold) in rest
    requires r == if Qualifies(rows[0].amount, mean, variance, threshold)
                  then [Flag(rows[0], mean, variance, threshold)] + rest else rest
    ensures forall a :: a in r ==> FlagOfSome(a, rows, mean, variance, threshold)
    ensures forall x :: x in rows && Qualifies(x.amount, mean, variance, threshold) ==>
      Flag(x, mean, variance, threshold) in r
  {
    forall a | a in r
      ensures FlagOfSome(a, rows, mean, variance, threshold)
    {
      if a !in rest {
        assert rows[0] in rows;
      } else {
        var x :| x in rows[1..] && Qualifies(x.amount, mean, variance, threshold) && a == Flag(x, mean, variance, threshold);
        assert x in rows;
      }
    }
    forall x | x in rows && Qualifies(x.amount, mean, variance, threshold)
      ensures Flag(x, mean, variance, threshold) in r
    {
      if x != rows[0] {
        assert x in rows[1..];
      }
    }
  }

  /** Items selected from rows in date order come out in date order, none
      before the first row. */
  lemma SelectStepOrder(rows: seq<Transaction>, rest: seq<AnomalyItem>, r: seq<AnomalyItem>)
    requires |rest| < |rows|
    requires SortedByDate(rows[1..]) && |rest| > 0 ==> rows[1..][0].date.day <= rest[0].date.day
    requires SortedByDate(rows[1..]) ==> ItemsSortedByDate(rest)
    requires r == rest || (|r| > 0 && r[1..] == rest && r[0].date == rows[0].date)
    ensures SortedByDate(rows) && |r| > 0 ==> rows[0].date.day <= r[0].date.day
    ensures SortedByDate(rows) ==> ItemsSortedByDate(r)
  {
    if SortedByDate(rows) {
      assert SortedByDate(rows[1..]);
      if |rest| > 0 {
        assert rows[0].date.day <= rows[1].date.day;
      }
      if r != rest {
        forall i, j | 0 <= i < j < |r|
          ensures r[i].date.day <= r[j].date.day
        {
          if i > 0 {
            assert r[i] == rest[i - 1] && r[j] == rest[j - 1];
          } else {
            assert r[j] == rest[j - 1];
          }
        }
      }
    }
  }

  /** Flags of a row put in front of the flags of `qs`. */
  lemma FlagsOfCons(x: Transaction, qs: seq<Transaction>, mean: real, variance: real, threshold: real, items: seq<AnomalyItem>)
    requires |items| == |qs|
    requires forall k :: 0 <= k < |qs| ==> items[k] == Flag(qs[k], mean, variance, threshold)
    ensures var q, r := [x] + qs, [Flag(x, mean, variance, threshold)] + items;
            |r| == |q| && forall k :: 0 <= k < |r| ==> r[k] == Flag(q[k], mean, variance, threshold)
  {
    var q, r := [x] + qs, [Flag(x, mean, variance, threshold)] + items;
    forall k | 1 <= k < |r| ensures r[k] == Flag(q[k], mean, variance, threshold) {
      assert r[k] == items[k - 1] && q[k] == qs[k - 1];
    }
  }

  /** `_compute_zscore_anomalies`: the transactions whose amount lies at least
      `threshold` population standard deviations from the mean, in date
      order; nothing for an empty sample or one whose amounts are all equal. */
  function ZScoreAnomalies(rows: seq<Transaction>, threshold: real): (r: seq<AnomalyItem>)
    ensures |rows| == 0 || Variance(rows) == 0.0 ==> r == []
    ensures |r| <= |rows|
    ensures Variance(rows) > 0.0 ==> |r| == |QualifyingRows(rows, Mean(rows), Variance(rows), threshold)|
    ensures Variance(rows) > 0.0 ==> forall k :: 0 <= k < |r| ==>
      r[k] == Flag(FlaggedRows(rows, threshold)[k], Mean(rows), Variance(rows), threshold)
    ensures Variance(rows) > 0.0 ==> forall x :: x in rows ==>
      (Flag(x, Mean(rows), Variance(rows), threshold) in r <==>
       Qualifies(x.amount, Mean(rows), Variance(rows), threshold))
    ensures forall a :: a in r ==> FlagOfSome(a, rows, Mean(rows), Variance(rows), threshold)
    ensures ItemsSortedByDate(r)
  {
    var sorted := SortByDate(rows);
    SortPreservesStatistics(rows);
    assert forall x :: x in rows <==> x in sorted by {
      forall x ensures x in rows <==> x in sorted {
        assert x in rows <==> x in multiset(rows);
        assert x in sorted <==> x in multiset(sorted);
      }
    }
    if |sorted| == 0 then []
    else
      var m := Mean(sorted);
      var v := Variance(sorted);
      if v == 0.0 then []
      else
        var flagged := FlaggedRows(rows, threshold);
        assert |flagged| == |QualifyingRows(rows, m, v, threshold)| by {
          assert |flagged| == |multiset(flagged)|;
        }
        SelectQualifying(sorted, m, v, threshold)
  }

  /** The rows flagged at `threshold`, in date order: the qualifying rows of
      the date-sorted table, which are the qualifying rows of `rows`, each
      as often as it occurs there. */
  function FlaggedRows(rows: seq<Transaction>, threshold: real): (r: seq<Transaction>)
    ensures multiset(r) == multiset(QualifyingRows(rows, Mean(rows), Variance(rows), threshold))
    ensures SortedByDate(r)
  {
    var sorted := SortByDate(rows);
    SortPreservesStatistics(rows);
    QualifyingSameCounts(sorted, rows, Mean(rows), Variance(rows), threshold);
    QualifyingRowsSorted(sorted, Mean(rows), Variance(rows), threshold);
    QualifyingRows(sorted, Mean(rows), Variance(rows), threshold)
  }

  /** An amount that passes the test at some threshold passes it at every
      lower one. */
  lemma QualifiesAntitone(x: real, mean: real, variance: real, low: real, high: real)
    requires low <= high && variance >= 0.0
    requires Qualifies(x, mean, variance, high)
    ensures Qualifies(x, mean, variance, low)
  {
    if low > 0.0 {
      SquareMonotone(low, high);
      MulMonotone(Square(low), Square(high), variance);
    }
  }

  /** Lowering the threshold can only add items. */
  lemma LowerThresholdFlagsMore(rows: seq<Transaction>, low: real, high: real)
    requires low <= high
    ensures forall a :: a in ZScoreAnomalies(rows, high) ==>
      a.(thresholdUsed := low) in ZScoreAnomalies(rows, low)
  {
    var flagged := ZScoreAnomalies(rows, high);
    if flagged != [] {
      RelabelFlags(rows, Mean(rows), Variance(rows), low, high, flagged, ZScoreAnomalies(rows, low));
    }
  }

  lemma RelabelFlags(rows: seq<Transaction>, m: real, v: real, low: real, high: real,
                     flagged: seq<AnomalyItem>, lowered: seq<AnomalyItem>)
    requires low <= high && v >= 0.0
    requires forall a :: a in flagged ==> FlagOfSome(a, rows, m, v, high)
    requires forall x :: x in rows && Qualifies(x.amount, m, v, low) ==> Flag(x, m, v, low) in lowered
    ensures forall a :: a in flagged ==> a.(thresholdUsed := low) in lowered
  {
    forall a | a in flagged
      ensures a.(thresholdUsed := low) in lowered
    {
      var x :| x in rows && Qualifies(x.amount, m, v, high) && a == Flag(x, m, v, high);
      QualifiesAntitone(x.amount, m, v, low, high);
      assert a.(thresholdUsed := low) == Flag(x, m, v, low);
    }
  }

  /** Some amount deviates from `m` at least as much as the average. */
  lemma {:induction false} SomeDeviationAtLeast(ts: seq<Transaction>, m: real, bound: real)
    requires |ts| > 0
    requires SquaredDeviations(ts, m) >= (|ts| as real) * bound
    ensures exists i :: 0 <= i < |ts| && Square(ts[i].amount - m) >= bound
  {
    if |ts| > 1 && Square(ts[0].amount - m) < bound {
      SomeDeviationAtLeast(ts[1..], m, bound);
      var i :| 0 <= i < |ts[1..]| && Square(ts[1..][i].amount - m) >= bound;
      assert ts[i + 1] == ts[1..][i];
    }
  }

  /** Since the squared z-scores average to one, a test at a threshold of at
      most one flags something in every sample whose amounts are not all
      equal. */
  lemma ThresholdAtMostOneFlagsSomething(rows: seq<Transaction>, threshold: real)
    requires threshold <= 1.0
    requires Variance(rows) > 0.0
    ensures ZScoreAnomalies(rows, threshold) != []
  {
    var m := Mean(rows);
    var v := Variance(rows);
    var bound := if threshold > 0.0 then Square(threshold) * v else 0.0;
    DeviationsAboveBound(rows, threshold, bound);
    SomeDeviationAtLeast(rows, m, bound);
    var i :| 0 <= i < |rows| && Square(rows[i].amount - m) >= bound;
    assert rows[i] in rows;
    assert Qualifies(rows[i].amount, m, v, threshold);
  }

  /** The squared deviations add up to at least `|rows|` times the square
      of a threshold of at most one times the variance. */
  lemma DeviationsAboveBound(rows: seq<Transaction>, threshold: real, bound: real)
    requires threshold <= 1.0 && |rows| > 0
    requires bound == if threshold > 0.0 then Square(threshold) * Variance(rows) else 0.0
    ensures SquaredDeviations(rows, Mean(rows)) >= (|rows| as real) * bound
  {
    var n := |rows| as real;
    var sd := SquaredDeviations(rows, Mean(rows));
    assert Variance(rows) == sd / n;
    QuotientBound(sd, n, threshold, bound);
  }

  /** `n` times a bound of at most `sd / n` is at most `sd`. */
  lemma QuotientBound(sd: real, n: real, threshold: real, bound: real)
    requires n > 0.0 && sd >= 0.0 && threshold <= 1.0
    requires bound == if threshold > 0.0 then Square(threshold) * (sd / n) else 0.0
    ensures sd >= n * bound
  {
    var v := sd / n;
    TimesQuotient(sd, n);
    BoundAtMostVariance(threshold, v, bound);
    MulMonotone(bound, v, n);
    assert n * bound == bound * n && n * v == v * n;
  }

  lemma TimesQuotient(x: real, n: real)
    requires n > 0.0
    ensures n * (x / n) == x
  {
  }

  lemma BoundAtMostVariance(threshold: real, v: real, bound: real)
    requires threshold <= 1.0 && v >= 0.0
    requires bound == if threshold > 0.0 then Square(threshold) * v else 0.0
    ensures bound <= v
  {
    if threshold > 0.0 {
      SquareMonotone(threshold, 1.0);
      MulMonotone(Square(threshold), 1.0, v);
    }
  }

  // ---------------------------------------------------------------------
  // The report
  // ---------------------------------------------------------------------

  /** The trusted merchants as the detector uses them: stripped, blank
      entries dropped, duplicates merged. */
  function NormalizeWhitelist(whitelist: seq<string>): (r: set<string>)
    ensures forall w :: w in r ==> w != "" && Trim(w) == w
    ensures forall w :: w in whitelist && Trim(w) != "" ==> Trim(w) in r
    ensures forall w :: w in r ==> exists v :: v in whitelist && Trim(v) == w
  {
    var r := set v | v in whitelist && Trim(v) != "" :: Trim(v);
    assert forall w :: w in r ==> Trim(w) == w by {
      forall w | w in r ensures Trim(w) == w {
        var v :| v in whitelist && Trim(v) == w;
        TrimIdempotent(v);
      }
    }
    r
  }

  /** The transactions whose merchant is not exactly a trusted name, in
      their original order. */
  function Sample(ts: seq<Transaction>, trusted: set<string>): (r: seq<Transaction>)
    ensures |r| <= |ts|
    ensures forall t :: t in r <==> t in ts && t.merchant !in trusted
    ensures forall t :: multiset(r)[t] == if t.merchant in trusted then 0 else multiset(ts)[t]
  {
    if |ts| == 0 then []
    else
      var rest := Sample(ts[1..], trusted);
      assert ts == [ts[0]] + ts[1..];
      assert forall t :: t in ts <==> t == ts[0] || t in ts[1..];
      if ts[0].merchant in trusted then rest else [ts[0]] + rest
  }

  /** The outcome of the relaxation ladder. */
  datatype Relaxation = Found(items: seq<AnomalyItem>, threshold: real) | NotFound

  /** A candidate cutoff the ladder passes over: not below the cutoff already
      tried, or flagging nothing. */
  predicate Skipped(sample: seq<Transaction>, applied: real, c: real) {
    c >= applied || ZScoreAnomalies(sample, c) == []
  }

  /** Tries each candidate strictly below `applied`, in order, and stops at the
      first that flags something. */
  function Relax(sample: seq<Transaction>, applied: real, candidates: seq<real>): (r: Relaxation)
    ensures r.Found? ==> r.items == ZScoreAnomalies(sample, r.threshold)
    ensures r.Found? ==> exists k :: FirstUnskipped(sample, applied, candidates, k, r.threshold)
    ensures r.NotFound? <==> forall c :: c in candidates ==> Skipped(sample, applied, c)
  {
    if |candidates| == 0 then NotFound
    else
      var c := candidates[0];
      var later := Relax(sample, applied, candidates[1..]);
      assert forall x :: x in candidates <==> x == c || x in candidates[1..];
      if !Skipped(sample, applied, c) then
        assert FirstUnskipped(sample, applied, candidates, 0, c);
        Found(ZScoreAnomalies(sample, c), c)
      else
        if later.Found? then
          var k :| FirstUnskipped(sample, applied, candidates[1..], k, later.threshold);
          FirstUnskippedLater(sample, applied, candidates, k, later.threshold);
          later
        else later
  }

  /** Behind a skipped first candidate, the first candidate not skipped
      among the rest is the first one overall. */
  lemma FirstUnskippedLater(sample: seq<Transaction>, applied: real, candidates: seq<real>, k: int, c: real)
    requires |candidates| > 0 && Skipped(sample, applied, candidates[0])
    requires FirstUnskipped(sample, applied, candidates[1..], k, c)
    ensures FirstUnskipped(sample, applied, candidates, k + 1, c)
  {
    forall j | 0 <= j < k + 1
      ensures Skipped(sample, applied, candidates[j])
    {
      if j > 0 {
        assert candidates[j] == candidates[1..][j - 1];
      }
    }
  }

  /** `candidates[k]` is `c`, the first candidate the ladder does not skip. */
  predicate FirstUnskipped(sample: seq<Transaction>, applied: real, candidates: seq<real>, k: int, c: real) {
    && 0 <= k < |candidates| && candidates[k] == c && !Skipped(sample, applied, c)
    && forall j :: 0 <= j < k ==> Skipped(sample, applied, candidates[j])
  }

  /** The cutoff the first detection pass uses for a sample of `n`. */
  function AppliedThreshold(n: nat, base: real): (t: real)
    ensures t >= base
    ensures n < FullSampleSize ==> t >= ReducedThreshold
    ensures t == base || t == ReducedThreshold
  {
    if n < FullSampleSize then Max(base, ReducedThreshold) else base
  }

  /** The report for a sample that the whitelist has already filtered. */
  function SampleReport(sample: seq<Transaction>, base: real): (r: Report)
    ensures r.sampleSize == |sample|
    ensures forall a :: a in r.items ==> a.status == StatusNew && a.thresholdUsed == r.thresholdUsed
    ensures forall a :: a in r.items ==> FlagOfSome(a, sample, Mean(sample), Variance(sample), r.thresholdUsed)
    ensures ItemsSortedByDate(r.items)
    ensures r.items != [] ==> r.items == ZScoreAnomalies(sample, r.thresholdUsed)
    ensures r.items == [] ==> r.thresholdUsed == base && !r.adaptive && r.message.Some?
    ensures r.sensitivity == Reduced <==> MinSampleSize <= |sample| < FullSampleSize
    ensures |sample| < MinSampleSize ==> r.items == []
  {
    var n := |sample|;
    if n < MinSampleSize then
      Report([], base, false, n, Normal, Some(InsufficientDataMessage))
    else
      var applied := AppliedThreshold(n, base);
      var sensitivity := if n < FullSampleSize then Reduced else Normal;
      var message := if n < FullSampleSize then Some(ReducedSensitivityMessage) else None;
      var first := ZScoreAnomalies(sample, applied);
      var relaxed := if first == [] && n >= FullSampleSize then Relax(sample, applied, RelaxedThresholds) else NotFound;
      var (items, used, adaptive) :=
        if relaxed.Found? then (relaxed.items, relaxed.threshold, true) else (first, applied, false);
      if items != [] then Report(items, used, adaptive, n, sensitivity, message)
      else Report([], base, false, n, sensitivity, if message.Some? then message else Some(NoAnomaliesMessage))
  }

  /** `compute_anomaly_report`: drops the transactions of trusted merchants
      and runs the detection ladder on the rest. */
  function ComputeReport(ts: seq<Transaction>, base: real, whitelist: seq<string>): (r: Report)
    ensures r.sampleSize == |Sample(ts, NormalizeWhitelist(whitelist))|
    ensures forall a :: a in r.items ==> a.status == StatusNew && a.thresholdUsed == r.thresholdUsed
    ensures forall a :: a in r.items ==> FlagOfUntrusted(a, ts, NormalizeWhitelist(whitelist))
    ensures ItemsSortedByDate(r.items)
  {
    var sample := Sample(ts, NormalizeWhitelist(whitelist));
    var r := SampleReport(sample, base);
    assert forall a :: a in r.items ==> FlagOfUntrusted(a, ts, NormalizeWhitelist(whitelist)) by {
      forall a | a in r.items ensures FlagOfUntrusted(a, ts, NormalizeWhitelist(whitelist)) {
        var x :| x in sample && Qualifies(x.amount, Mean(sample), Variance(sample), r.thresholdUsed)
          && a == Flag(x, Mean(sample), Variance(sample), r.thresholdUsed);
        assert Copies(a, x);
      }
    }
    r
  }

  /** `a` copies a transaction of `ts` whose merchant is not trusted. */
  predicate FlagOfUntrusted(a: AnomalyItem, ts: seq<Transaction>, trusted: set<string>) {
    exists t :: t in ts && t.merchant !in trusted && Copies(a, t)
  }

  /** With fewer than three transactions left, detection is skipped. */
  lemma ReportSmallSample(sample: seq<Transaction>, base: real)
    requires |sample| < MinSampleSize
    ensures SampleReport(sample, base)
      == Report([], base, false, |sample|, Normal, Some(InsufficientDataMessage))
  {
  }

  /** With three to nine transactions, the cutoff is raised to at least 3.0,
      is never relaxed, and the reduced-sensitivity message is kept. */
  lemma ReportReducedSample(sample: seq<Transaction>, base: real)
    requires MinSampleSize <= |sample| < FullSampleSize
    ensures var r := SampleReport(sample, base);
            && r.sensitivity == Reduced && !r.adaptive
            && r.message == Some(ReducedSensitivityMessage)
            && r.items == ZScoreAnomalies(sample, Max(base, ReducedThreshold))
            && (r.items != [] ==> r.thresholdUsed == Max(base, ReducedThreshold))
  {
  }

  /** With ten or more transactions and something flagged at the base
      cutoff, that is the report. */
  lemma ReportFullSampleFound(sample: seq<Transaction>, base: real)
    requires |sample| >= FullSampleSize
    requires ZScoreAnomalies(sample, base) != []
    ensures var r := SampleReport(sample, base);
            && r.items == ZScoreAnomalies(sample, base) && r.thresholdUsed == base
            && !r.adaptive && r.sensitivity == Normal && r.message == None
  {
  }

  /** With ten or more transactions and nothing flagged at the base cutoff,
      the report uses the first of 2.0 and 1.5 that lies below the base and
      flags something; when there is none it reports nothing at the base
      cutoff with the "no anomalies" message. */
  lemma ReportFullSampleRelaxed(sample: seq<Transaction>, base: real)
    requires |sample| >= FullSampleSize
    requires ZScoreAnomalies(sample, base) == []
    ensures var r := SampleReport(sample, base);
            && r.sensitivity == Normal
            && (r.adaptive <==> r.items != [])
            && (r.adaptive ==> FirstUnskipped(sample, base, RelaxedThresholds, 0, r.thresholdUsed)
                               || FirstUnskipped(sample, base, RelaxedThresholds, 1, r.thresholdUsed))
            && (r.adaptive ==> r.thresholdUsed < base && r.message == None)
            && (!r.adaptive ==> r.thresholdUsed == base && r.message == Some(NoAnomaliesMessage)
                                && Skipped(sample, base, 2.0) && Skipped(sample, base, 1.5))
  {
    var relaxed := Relax(sample, base, RelaxedThresholds);
    assert 2.0 in RelaxedThresholds && 1.5 in RelaxedThresholds;
    if relaxed.Found? {
      var k :| FirstUnskipped(sample, base, RelaxedThresholds, k, relaxed.threshold);
    }
  }

  /** `detect_anomalies`: the report's items alone. */
  function DetectAnomalies(ts: seq<Transaction>, threshold: real, whitelist: seq<string>): (r: seq<AnomalyItem>)
    ensures forall a :: a in r ==> a.status == StatusNew && FlagOfUntrusted(a, ts, NormalizeWhitelist(whitelist))
    ensures ItemsSortedByDate(r)
    ensures |Sample(ts, NormalizeWhitelist(whitelist))| < MinSampleSize ==> r == []
  {
    ComputeReport(ts, threshold, whitelist).items
  }

  // ---------------------------------------------------------------------
  // Category totals
  // ---------------------------------------------------------------------

  /** The transactions of one category, in order. */
  function OfCategory(ts: seq<Transaction>, c: string): seq<Transaction> {
    if |ts| == 0 then []
    else
      var init := OfCategory(ts[..|ts| - 1], c);
      if ts[|ts| - 1].category == c then init + [ts[|ts| - 1]] else init
  }

  function Categories(ts: seq<Transaction>): set<string> {
    set t | t in ts :: t.category
  }

  /** `calculate_category_totals`: each category's summed amounts, accumulated
      in input order. */
  function CategoryTotals(ts: seq<Transaction>): (r: map<string, real>)
    ensures r.Keys == Categories(ts)
  {
    if |ts| == 0 then map[]
    else
      var init := CategoryTotals(ts[..|ts| - 1]);
      var t := ts[|ts| - 1];
      assert ts == ts[..|ts| - 1] + [t];
      init[t.category := (if t.category in init then init[t.category] else 0.0) + t.amount]
  }

  lemma {:induction false} TotalAppend(a: seq<Transaction>, b: seq<Transaction>)
    ensures Total(a + b) == Total(a) + Total(b)
  {
    if |a| == 0 {
      assert a + b == b;
    } else {
      assert (a + b)[0] == a[0];
      assert (a + b)[1..] == a[1..] + b;
      TotalAppend(a[1..], b);
    }
  }

  /** Each category's total is the sum of that category's amounts. */
  lemma {:induction false} CategoryTotalsAreSums(ts: seq<Transaction>)
    ensures forall c :: c in CategoryTotals(ts) ==> CategoryTotals(ts)[c] == Total(OfCategory(ts, c))
  {
    if |ts| > 0 {
      var init := ts[..|ts| - 1];
      var t := ts[|ts| - 1];
      CategoryTotalsAreSums(init);
      assert ts == init + [t];
      forall c | c in CategoryTotals(ts)
        ensures CategoryTotals(ts)[c] == Total(OfCategory(ts, c))
      {
        if c == t.category {
          TotalAppend(OfCategory(init, c), [t]);
          if c !in CategoryTotals(init) {
            assert c !in Categories(init);
            OfCategoryAbsent(init, c);
          }
        }
      }
    }
  }

  lemma {:induction false} OfCategoryAbsent(ts: seq<Transaction>, c: string)
    requires c !in Categories(ts)
    ensures OfCategory(ts, c) == []
  {
    if |ts| > 0 {
      assert ts[|ts| - 1] in ts;
      assert Categories(ts[..|ts| - 1]) <= Categories(ts);
      OfCategoryAbsent(ts[..|ts| - 1], c);
    }
  }

  /** Position of the first transaction of category `c`. */
  function FirstOfCategory(ts: seq<Transaction>, c: string): (i: nat)
    requires c in Categories(ts)
    ensures i < |ts| && ts[i].category == c
    ensures forall j :: 0 <= j < i ==> ts[j].category != c
  {
    if ts[0].category == c then 0
    else
      assert c in Categories(ts[1..]) by {
        var t :| t in ts && t.category == c;
        var k :| 0 <= k < |ts| && ts[k] == t;
        assert ts[1..][k - 1] == t;
      }
      var i := FirstOfCategory(ts[1..], c);
      assert forall j :: 1 <= j < i + 1 ==> ts[j] == ts[1..][j - 1];
      i + 1
  }

  /** A category present in the first transactions first appears where it
      first appears among them. */
  lemma FirstOfCategoryPrefix(ts: seq<Transaction>, n: nat, c: string)
    requires n <= |ts| && c in Categories(ts[..n])
    ensures c in Categories(ts)
    ensures FirstOfCategory(ts, c) == FirstOfCategory(ts[..n], c)
  {
    var t :| t in ts[..n] && t.category == c;
    assert t in ts;
    var k := FirstOfCategory(ts[..n], c);
    var j := FirstOfCategory(ts, c);
    assert ts[k] == ts[..n][k];
  }

  /** The categories in order of first appearance: the key order of the
      dictionary `calculate_category_totals` builds. */
  function CategoryOrder(ts: seq<Transaction>): (r: seq<string>)
    ensures forall c :: c in r <==> c in Categories(ts)
    ensures forall i, j :: 0 <= i < j < |r| ==> r[i] != r[j]
    ensures forall i, j :: 0 <= i < j < |r| ==> FirstOfCategory(ts, r[i]) < FirstOfCategory(ts, r[j])
  {
    if |ts| == 0 then []
    else
      var n := |ts| - 1;
      var init := CategoryOrder(ts[..n]);
      var c := ts[n].category;
      CategoryOrderStep(ts, init);
      if c in init then init else init + [c]
  }

  /** One more transaction keeps the key order: its category joins the
      keys at the end when it is new, and the earlier keys keep their
      first positions. */
  lemma CategoryOrderStep(ts: seq<Transaction>, init: seq<string>)
    requires |ts| > 0
    requires forall c :: c in init <==> c in Categories(ts[..|ts| - 1])
    requires forall i, j :: 0 <= i < j < |init| ==> init[i] != init[j]
    requires forall i, j :: 0 <= i < j < |init| ==>
               init[i] in Categories(ts[..|ts| - 1]) && init[j] in Categories(ts[..|ts| - 1])
               && FirstOfCategory(ts[..|ts| - 1], init[i]) < FirstOfCategory(ts[..|ts| - 1], init[j])
    ensures var c := ts[|ts| - 1].category; var r := if c in init then init else init + [c];
            forall d :: d in r <==> d in Categories(ts)
    ensures var c := ts[|ts| - 1].category; var r := if c in init then init else init + [c];
            forall i, j :: 0 <= i < j < |r| ==> r[i] != r[j]
    ensures var c := ts[|ts| - 1].category; var r := if c in init then init else init + [c];
            forall i, j :: 0 <= i < j < |r| ==>
              r[i] in Categories(ts) && r[j] in Categories(ts) && FirstOfCategory(ts, r[i]) < FirstOfCategory(ts, r[j])
  {
    var n := |ts| - 1;
    var c := ts[n].category;
    var r := if c in init then init else init + [c];
    CategoriesOfSnoc(ts);
    forall d | d in init
      ensures d in Categories(ts) && FirstOfCategory(ts, d) == FirstOfCategory(ts[..n], d)
    {
      FirstOfCategoryPrefix(ts, n, d);
    }
    if c !in init {
      NewCategoryLast(ts);
      forall i, j | 0 <= i < j < |r|
        ensures r[i] in Categories(ts) && r[j] in Categories(ts) && FirstOfCategory(ts, r[i]) < FirstOfCategory(ts, r[j])
      {
        assert r[i] == init[i] && r[i] in init;
        if j < |init| {
          assert r[j] == init[j] && r[j] in init;
        } else {
          assert r[j] == c;
        }
      }
    }
  }

  /** The categories of the transactions are those of all but the last,
      and the last one's. */
  lemma CategoriesOfSnoc(ts: seq<Transaction>)
    requires |ts| > 0
    ensures Categories(ts) == Categories(ts[..|ts| - 1]) + {ts[|ts| - 1].category}
  {
    var n := |ts| - 1;
    forall d | d in Categories(ts)
      ensures d in Categories(ts[..n]) + {ts[n].category}
    {
      var t :| t in ts && t.category == d;
      var k :| 0 <= k < |ts| && ts[k] == t;
      if k < n {
        assert ts[..n][k] == t;
      }
    }
    forall d | d in Categories(ts[..n])
      ensures d in Categories(ts)
    {
      var t :| t in ts[..n] && t.category == d;
      assert t in ts;
    }
    assert ts[n] in ts;
  }

  /** A category no earlier transaction has first appears at the last one. */
  lemma NewCategoryLast(ts: seq<Transaction>)
    requires |ts| > 0 && ts[|ts| - 1].category !in Categories(ts[..|ts| - 1])
    ensures ts[|ts| - 1].category in Categories(ts)
    ensures FirstOfCategory(ts, ts[|ts| - 1].category) == |ts| - 1
  {
    var n := |ts| - 1;
    var c := ts[n].category;
    assert ts[n] in ts;
    forall j | 0 <= j < n
      ensures ts[j].category != c
    {
      assert ts[..n][j] == ts[j];
      assert ts[j] in ts[..n];
    }
  }

  /** Position of the first key whose total is maximal: what Python's
      `max(totals, key=totals.get)` returns. */
  function FirstArgMax(keys: seq<string>, totals: map<string, real>): (k: nat)
    requires |keys| > 0
    requires forall c :: c in keys ==> c in totals
    ensures k < |keys|
    ensures forall i :: 0 <= i < |keys| ==> totals[keys[i]] <= totals[keys[k]]
    ensures forall i :: 0 <= i < k ==> totals[keys[i]] < totals[keys[k]]
  {
    if |keys| == 1 then 0
    else
      var init := keys[..|keys| - 1];
      assert forall c :: c in init ==> c in keys;
      var k := FirstArgMax(init, totals);
      if totals[keys[|keys| - 1]] > totals[keys[k]] then |keys| - 1 else k
  }

  /** The category with the largest total, ties going to the one seen first;
      `None` when there are no transactions. */
  function TopCategory(ts: seq<Transaction>): (r: Option<string>)
    ensures r.None? <==> |ts| == 0
    ensures r.Some? ==> r.value in Categories(ts) && r.value in CategoryTotals(ts)
    ensures r.Some? ==> forall c :: c in CategoryTotals(ts) ==> CategoryTotals(ts)[c] <= CategoryTotals(ts)[r.value]
    ensures r.Some? ==> forall c :: c in Categories(ts) && FirstOfCategory(ts, c) < FirstOfCategory(ts, r.value) ==>
      CategoryTotals(ts)[c] < CategoryTotals(ts)[r.value]
  {
    if |ts| == 0 then None
    else
      var keys := CategoryOrder(ts);
      var totals := CategoryTotals(ts);
      assert ts[0] in ts;
      assert ts[0].category in keys;
      var k := FirstArgMax(keys, totals);
      ArgMaxIsMax(keys, totals, k);
      ArgMaxSeenFirst(ts, keys, totals, k);
      Some(keys[k])
  }

  /** A category first seen before the first maximal key has a smaller
      total. */
  lemma ArgMaxSeenFirst(ts: seq<Transaction>, keys: seq<string>, totals: map<string, real>, k: nat)
    requires keys == CategoryOrder(ts) && totals == CategoryTotals(ts) && k < |keys|
    requires forall i :: 0 <= i < k ==> totals[keys[i]] < totals[keys[k]]
    ensures keys[k] in Categories(ts)
    ensures forall c :: c in Categories(ts) && FirstOfCategory(ts, c) < FirstOfCategory(ts, keys[k]) ==> totals[c] < totals[keys[k]]
  {
    forall c | c in Categories(ts) && FirstOfCategory(ts, c) < FirstOfCategory(ts, keys[k])
      ensures totals[c] < totals[keys[k]]
    {
      var i :| 0 <= i < |keys| && keys[i] == c;
      assert i < k;
    }
  }

  /** A key whose total is at least that of every listed key is maximal
      among all keys, when every key is listed. */
  lemma ArgMaxIsMax(keys: seq<string>, totals: map<string, real>, k: nat)
    requires k < |keys| && forall c :: c in totals <==> c in keys
    requires forall i :: 0 <= i < |keys| ==> totals[keys[i]] <= totals[keys[k]]
    ensures forall c :: c in totals ==> totals[c] <= totals[keys[k]]
  {
    forall c | c in totals
      ensures totals[c] <= totals[keys[k]]
    {
      var i :| 0 <= i < |keys| && keys[i] == c;
    }
  }
}

=== FILE: bill_upload.dfy ===
/** The import rules of the bill upload page: which files are read as
    tables, how spreadsheet headers map onto transaction fields, which rows
    become transactions, and how text typed or pasted by hand is read. */
module BillUpload {
  import opened Wrappers
  import opened Text
  import opened Entities
  import opened Sequences

  // ---------------------------------------------------------------------
  // Structured files
  // ---------------------------------------------------------------------

  /** A path component that `PurePath` drops: empty (from a doubled or
      trailing `/`) or `.`. */
  predicate Dropped(part: string) {
    part == "" || part == "."
  }

  /** Every component is one `PurePath` drops. */
  predicate AllDropped(parts: seq<string>) {
    forall k :: 0 <= k < |parts| ==> Dropped(parts[k])
  }

  /** `PurePath.name` of a POSIX path: the last component between `/`s
      that is neither empty nor `.`, or "" when there is none. */
  function BaseName(path: string): (r: string)
    ensures r == "" || (!Dropped(r) && '/' !in r)
    ensures r == "" <==> AllDropped(Split(path, '/'))
    ensures var parts := Split(path, '/');
            r != "" ==> exists k :: 0 <= k < |parts| && parts[k] == r && AllDropped(parts[k + 1..])
    decreases |path|
  {
    if '/' in path then
      var i := IndexOf(path, '/');
      var rest := BaseName(path[i + 1..]);
      assert Split(path, '/') == [path[..i]] + Split(path[i + 1..], '/');
      LastKeptCons(path[..i], Split(path[i + 1..], '/'), rest);
      if rest != "" then rest else if Dropped(path[..i]) then "" else path[..i]
    else
      assert Split(path, '/') == [path] && [path][0] == path;
      if path == "." then "" else path
  }

  /** One more component in front: the last kept component of the rest,
      or the new one when the rest keeps none. */
  lemma LastKeptCons(head: string, tail: seq<string>, rest: string)
    requires rest == "" <==> AllDropped(tail)
    requires rest != "" ==> !Dropped(rest) && exists k :: 0 <= k < |tail| && tail[k] == rest && AllDropped(tail[k + 1..])
    ensures var r := if rest != "" then rest else if Dropped(head) then "" else head;
            var parts := [head] + tail;
            && (r == "" <==> AllDropped(parts))
            && (r != "" ==> exists k :: 0 <= k < |parts| && parts[k] == r && AllDropped(parts[k + 1..]))
  {
    var parts := [head] + tail;
    assert parts[0] == head && parts[1..] == tail;
    assert forall k :: 1 <= k < |parts| ==> parts[k] == tail[k - 1];
    if rest != "" {
      var k :| 0 <= k < |tail| && tail[k] == rest && AllDropped(tail[k + 1..]);
      assert parts[k + 1] == rest && parts[k + 2..] == tail[k + 1..];
    }
  }

  /** Trailing `/` and `/.` do not change the name: "a.csv/" and
      "a.csv/." are named "a.csv". */
  lemma BaseNameIgnoresTrailingSeparator(name: string)
    requires '/' !in name && !Dropped(name)
    ensures BaseName(name) == name
    ensures BaseName(name + "/") == name
    ensures BaseName(name + "/.") == name
    ensures IsStructuredFile(name + "/") == IsStructuredFile(name + "/.") == IsStructuredFile(name)
  {
    assert (name + "/")[..|name|] == name && (name + "/")[|name| + 1..] == "";
    assert (name + "/.")[..|name|] == name && (name + "/.")[|name| + 1..] == ".";
    IndexOfFirst(name + "/", '/', |name|);
    IndexOfFirst(name + "/.", '/', |name|);
  }

  /** Position of the last `c` in `s`. */
  function LastIndexOf(s: string, c: char): (i: nat)
    requires c in s
    ensures i < |s| && s[i] == c && c !in s[i + 1..]
  {
    if s[|s| - 1] == c then |s| - 1
    else
      var init := s[..|s| - 1];
      assert c in init by {
        var k :| 0 <= k < |s| && s[k] == c;
        assert init[k] == c;
      }
      var i := LastIndexOf(init, c);
      assert s[i + 1..] == init[i + 1..] + [s[|s| - 1]];
      i
  }

  /** `PurePath.suffix` of a file name: from the last `.` on, provided that
      dot is neither the first nor the last character. */
  function Suffix(name: string): (r: string)
    ensures r == "" || (|r| < |name| && r == name[|name| - |r|..] && r[0] == '.')
  {
    if '.' in name then
      var i := LastIndexOf(name, '.');
      if 0 < i < |name| - 1 then name[i..] else ""
    else ""
  }

  /** `name`, ignoring letter case, ends with `ext` and has at least one
      character before it. */
  predicate HasExtension(name: string, ext: string) {
    |name| > |ext| && Lower(name[|name| - |ext|..]) == ext
  }

  /** `_is_structured_file`: the lower-cased suffix is `.csv`, `.xlsx` or
      `.xls`. That holds exactly when the file's name, ignoring case, ends
      with one of the three extensions after at least one other character. */
  function IsStructuredFile(filename: string): (b: bool)
    ensures b <==> var name := BaseName(filename);
                   HasExtension(name, ".csv") || HasExtension(name, ".xlsx") || HasExtension(name, ".xls")
  {
    var name := BaseName(filename);
    SuffixMatchesExtension(name, ".csv");
    SuffixMatchesExtension(name, ".xlsx");
    SuffixMatchesExtension(name, ".xls");
    var suffix := Lower(Suffix(name));
    suffix == ".csv" || suffix == ".xlsx" || suffix == ".xls"
  }

  /** The suffix, lower-cased, is an extension that has no dot after its
      first character exactly when the name ends with that extension. */
  lemma SuffixMatchesExtension(name: string, ext: string)
    requires |ext| >= 2 && ext[0] == '.' && '.' !in ext[1..]
    ensures Lower(Suffix(name)) == ext <==> HasExtension(name, ext)
  {
    if Lower(Suffix(name)) == ext {
      var s := Suffix(name);
      assert |s| == |ext|;
    }
    if HasExtension(name, ext) {
      var k := |name| - |ext|;
      var tail := name[k..];
      assert LowerChar(tail[0]) == '.';
      assert name[k] == '.';
      assert '.' !in name[k + 1..] by {
        forall j | k + 1 <= j < |name|
          ensures name[j] != '.'
        {
          assert Lower(tail)[j - k] == ext[j - k];
          assert ext[j - k] in ext[1..];
        }
      }
      assert '.' in name;
      var i := LastIndexOf(name, '.');
      assert i == k;
      assert Suffix(name) == tail;
    }
  }

  // ---------------------------------------------------------------------
  // Spreadsheet headers
  // ---------------------------------------------------------------------

  /** The header spellings recognised (after trimming and lower-casing),
      grouped by the transaction field each one fills; no spelling fills
      two fields. */
  const DateHeaders: seq<string> := ["date", "posting_date", "transaction_date", "clear_date", "document_create_date"]
  const MerchantHeaders: seq<string> := ["merchant", "name_customer", "customer_name", "vendor", "supplier"]
  const CategoryHeaders: seq<string> := ["category", "type", "transaction_type"]
  const AmountHeaders: seq<string> := ["amount", "total_open_amount", "total_amount", "transaction_amount", "value"]
  const CurrencyHeaders: seq<string> := ["currency", "invoice_currency", "transaction_currency"]

  /** The column mapping table: the field a recognised spelling fills. */
  function MappedField(key: string): (r: Option<string>)
    ensures r.Some? ==> IsField(r.value)
  {
    if key in DateHeaders then Some("date")
    else if key in MerchantHeaders then Some("merchant")
    else if key in CategoryHeaders then Some("category")
    else if key in AmountHeaders then Some("amount")
    else if key in CurrencyHeaders then Some("currency")
    else None
  }

  /** The transaction fields a header can name. */
  predicate IsField(f: string) {
    f == "date" || f == "merchant" || f == "category" || f == "amount" || f == "currency"
  }

  function HeaderKey(header: string): string {
    Lower(Trim(header))
  }

  /** The field a header fills, if its spelling is recognised. */
  function Target(header: string): Option<string> {
    MappedField(HeaderKey(header))
  }

  /** The field each header fills, column by column. */
  function Targets(headers: seq<string>): (r: seq<Option<string>>)
    ensures |r| == |headers| && forall p :: 0 <= p < |headers| ==> r[p] == Target(headers[p])
  {
    seq(|headers|, p requires 0 <= p < |headers| => Target(headers[p]))
  }

  /** Column `p` maps to a field no earlier column maps to. */
  predicate Claims(targets: seq<Option<string>>, p: nat)
    requires p < |targets|
  {
    targets[p].Some? && forall q :: 0 <= q < p ==> targets[q] != targets[p]
  }

  /** The field column `p` is renamed to, if any: each field goes to the
      first column that maps to it, and later ones keep their own names. */
  function FieldAt(targets: seq<Option<string>>, p: nat): (r: Option<string>)
    requires p < |targets|
  {
    if Claims(targets, p) then targets[p] else None
  }

  /** The column mapping loop of `_parse_excel_file`, given the field each
      column's header spells: a column is mapped unless its field was
      already taken by an earlier column. */
  method MapColumns(targets: seq<Option<string>>) returns (fields: seq<Option<string>>)
    ensures |fields| == |targets|
    ensures forall p :: 0 <= p < |targets| ==> fields[p] == FieldAt(targets, p)
  {
    fields := [];
    var taken: set<string> := {};
    var p := 0;
    while p < |targets|
      invariant p <= |targets| && |fields| == p
      invariant forall q :: 0 <= q < p ==> fields[q] == FieldAt(targets, q)
      invariant forall f :: f in taken <==> exists q :: 0 <= q < p && targets[q] == Some(f)
    {
      var target := targets[p];
      if target.Some? && target.value !in taken {
        assert Claims(targets, p);
        fields := fields + [target];
        taken := taken + {target.value};
      } else {
        assert !Claims(targets, p);
        fields := fields + [None];
      }
      p := p + 1;
    }
  }

  /** A field is taken when some column maps to it, and then by exactly
      one column. */
  lemma FieldTakenIffSomeColumnMaps(targets: seq<Option<string>>, f: string)
    ensures (exists p :: 0 <= p < |targets| && FieldAt(targets, p) == Some(f))
        <==> (exists p :: 0 <= p < |targets| && targets[p] == Some(f))
    ensures forall p, q :: 0 <= p < |targets| && 0 <= q < |targets| && FieldAt(targets, p) == Some(f) && FieldAt(targets, q) == Some(f) ==> p == q
  {
    if p :| 0 <= p < |targets| && targets[p] == Some(f) {
      var first := FirstClaim(targets, p);
      assert FieldAt(targets, first) == Some(f);
    }
  }

  /** The first column with the same target as column `p`. */
  lemma {:induction false} FirstClaim(targets: seq<Option<string>>, p: nat) returns (first: nat)
    requires p < |targets| && targets[p].Some?
    ensures first <= p && Claims(targets, first) && targets[first] == targets[p]
    decreases p
  {
    if q :| 0 <= q < p && targets[q] == targets[p] {
      first := FirstClaim(targets, q);
    } else {
      first := p;
    }
  }

  /** The headers after `df.rename(columns=column_map)`: a column whose
      header spells a field that no earlier column spells is renamed to that
      field, and every other column keeps its header. */
  function Renamed(headers: seq<string>): (r: seq<string>)
    ensures |r| == |headers|
    ensures forall p :: 0 <= p < |headers| && Target(headers[p]).Some?
                        && (forall q :: 0 <= q < p ==> Target(headers[q]) != Target(headers[p]))
                        ==> r[p] == Target(headers[p]).value
    ensures forall p :: 0 <= p < |headers| && r[p] != headers[p]
                        ==> Target(headers[p]) == Some(r[p]) && forall q :: 0 <= q < p ==> Target(headers[q]) != Some(r[p])
    ensures forall p :: 0 <= p < |headers| ==> r[p] == headers[p] || IsField(r[p])
  {
    var targets := Targets(headers);
    seq(|headers|, p requires 0 <= p < |headers| => if FieldAt(targets, p).Some? then FieldAt(targets, p).value else headers[p])
  }

  predicate FieldMapped(headers: seq<string>, f: string) {
    var targets := Targets(headers);
    exists p :: 0 <= p < |targets| && FieldAt(targets, p) == Some(f)
  }

  /** Text without capitals is its own lower case. */
  lemma LowerOfLower(s: string)
    requires forall i :: 0 <= i < |s| ==> !('A' <= s[i] <= 'Z')
    ensures Lower(s) == s
  {
  }

  /** Each field's own name is one of the spellings that fills it. */
  lemma FieldNameTargetsItself(f: string)
    requires IsField(f)
    ensures Target(f) == Some(f)
  {
    KeyOfPlainName(f);
    MappedFieldOfFieldName(f);
  }

  /** A name without surrounding whitespace or capitals is its own key. */
  lemma KeyOfPlainName(s: string)
    requires Trimmed(s) && forall i :: 0 <= i < |s| ==> !('A' <= s[i] <= 'Z')
    ensures HeaderKey(s) == s
  {
    TrimOfTrimmed(s);
    LowerOfLower(s);
  }

  lemma MappedFieldOfFieldName(f: string)
    requires IsField(f)
    ensures MappedField(f) == Some(f)
  {
    if f == "date" {
      assert DateHeaders[0] == f;
    } else if f == "merchant" {
      assert f !in DateHeaders;
      assert MerchantHeaders[0] == f;
    } else if f == "category" {
      assert f !in DateHeaders && f !in MerchantHeaders;
      assert CategoryHeaders[0] == f;
    } else if f == "amount" {
      assert f !in DateHeaders && f !in MerchantHeaders && f !in CategoryHeaders;
      assert AmountHeaders[0] == f;
    } else {
      assert f !in DateHeaders && f !in MerchantHeaders && f !in CategoryHeaders && f !in AmountHeaders;
      assert CurrencyHeaders[0] == f;
    }
  }

  /** After renaming, the first column carrying a field's name is the one
      mapped to that field: no earlier column is renamed to it, and no
      earlier column already had that name, since it would have claimed it. */
  lemma ClaimedColumnComesFirst(headers: seq<string>, p: nat, f: string)
    requires p < |headers| && FieldAt(Targets(headers), p) == Some(f)
    ensures Renamed(headers)[p] == f && f !in Renamed(headers)[..p]
  {
    var targets := Targets(headers);
    var r := Renamed(headers);
    forall q | 0 <= q < p
      ensures r[q] != f
    {
      if FieldAt(targets, q).None? && headers[q] == f {
        FieldNameTargetsItself(f);
      }
    }
  }

  // ---------------------------------------------------------------------
  // Spreadsheet rows
  // ---------------------------------------------------------------------

  /** One spreadsheet cell as pandas reads it: empty (`NaN`/`NaT`), text, a
      number, or a timestamp; numbers and timestamps carry the text `str()`
      prints for them. */
  datatype Cell = Blank | Text(text: string) | Number(value: real, repr: string) | Stamp(date: Date, repr: string)

  /** What `float()` makes of a cell: a finite number, `NaN`, or an error. */
  datatype Amount = Finite(value: real) | NaN | NotNumber

  /** The cell under the first column with this header, if there is one. */
  function Lookup(header: seq<string>, row: seq<Cell>, name: string): (c: Option<Cell>)
    requires |row| == |header|
    ensures c.None? <==> name !in header
    ensures c.Some? ==> exists p :: 0 <= p < |header| && header[p] == name && row[p] == c.value
  {
    if |header| == 0 then None
    else if header[0] == name then Some(row[0])
    else Lookup(header[1..], row[1..], name)
  }

  /** The first column with a header is the one `Lookup` reads. */
  lemma {:induction false} LookupFirst(header: seq<string>, row: seq<Cell>, name: string, p: nat)
    requires |row| == |header| && p < |header|
    requires header[p] == name && name !in header[..p]
    ensures Lookup(header, row, name) == Some(row[p])
    decreases p
  {
    if p > 0 {
      assert header[0] in header[..p];
      LookupFirst(header[1..], row[1..], name, p - 1);
    }
  }

  /** Each field is read from the column mapped to it. */
  lemma ReadsClaimedColumn(headers: seq<string>, row: seq<Cell>, p: nat, f: string)
    requires |row| == |headers| && p < |headers| && FieldAt(Targets(headers), p) == Some(f)
    ensures Lookup(Renamed(headers), row, f) == Some(row[p])
  {
    ClaimedColumnComesFirst(headers, p, f);
    LookupFirst(Renamed(headers), row, f, p);
  }

  /** `str(row.get(name, default))`, with an empty cell printed as `blank`. */
  function CellText(c: Option<Cell>, default: string, blank: string): string {
    match c
    case None => default
    case Some(Blank) => blank
    case Some(Text(s)) => s
    case Some(Number(_, r)) => r
    case Some(Stamp(_, r)) => r
  }

  /** `float(row.get(name, 0))`, with an empty cell read as `blank`. */
  function CellAmount(c: Option<Cell>, blank: Amount): Amount {
    match c
    case None => Finite(0.0)
    case Some(Blank) => blank
    case Some(Text(s)) => (match ParseDecimal(s) case Some(v) => Finite(v) case None => NotNumber)
    case Some(Number(v, _)) => Finite(v)
    case Some(Stamp(_, _)) => NotNumber
  }

  const DefaultCategory: string := "其他"

  /** How the row loop reads an empty cell in a text or amount field.
      pandas hands the loop `NaN`, which `str()` prints as `"nan"` and
      `float()` keeps as `NaN`; the filters were written for a cell that is
      simply missing. */
  datatype Reading = Reading(blankText: string, blankAmount: Amount)

  /** An empty cell as the loop reads it today. */
  const AsWritten: Reading := Reading("nan", NaN)

  /** An empty cell read as missing, as the filters' comments intend. */
  const AsMissing: Reading := Reading("", NotNumber)

  /** The fields of a row that passed the filters, before numbering. */
  datatype RowFields = RowFields(
    date: Cell,
    id: string,
    merchant: string,
    category: string,
    amount: Amount,
    currency: string,
    payment: Option<string>)

  /** A text field: the trimmed cell text, or `fallback` when that is empty. */
  function TextOr(c: Option<Cell>, default: string, blank: string, fallback: string): (r: string)
    ensures fallback != "" ==> r != ""
    ensures Trim(CellText(c, default, blank)) == "" ==> r == fallback
    ensures Trim(CellText(c, default, blank)) != "" ==> r == Trim(CellText(c, default, blank))
  {
    var t := Trim(CellText(c, default, blank));
    if t == "" then fallback else t
  }

  /** One pass of the row loop up to the point where the transaction is
      built: `None` when the row is skipped, its fields otherwise. A row is
      skipped when its date is missing, empty or blank text, when its
      trimmed merchant is empty, or when its amount is not a number or is
      not above zero. */
  function ReadRow(header: seq<string>, row: seq<Cell>, how: Reading): (r: Option<RowFields>)
    requires |row| == |header|
    ensures r.Some? ==> Lookup(header, row, "date") == Some(r.value.date) && !r.value.date.Blank?
    ensures r.Some? ==> r.value.merchant != "" && r.value.category != "" && r.value.currency != ""
    ensures r.Some? ==> r.value.merchant == Trim(CellText(Lookup(header, row, "merchant"), "", how.blankText))
    ensures r.Some? ==> r.value.amount == CellAmount(Lookup(header, row, "amount"), how.blankAmount)
    ensures r.Some? ==> !r.value.amount.NotNumber? && (r.value.amount.Finite? ==> r.value.amount.value > 0.0)
    ensures r.Some? && "id" !in header ==> r.value.id == ""
    ensures r.Some? ==> r.value.id == Trim(CellText(Lookup(header, row, "id"), "", how.blankText))
    ensures r.Some? && Trim(CellText(Lookup(header, row, "category"), "", how.blankText)) == "" ==> r.value.category == DefaultCategory
    ensures r.Some? && Trim(CellText(Lookup(header, row, "category"), "", how.blankText)) != "" ==>
              r.value.category == Trim(CellText(Lookup(header, row, "category"), "", how.blankText))
    ensures r.Some? && Trim(CellText(Lookup(header, row, "currency"), DefaultCurrency, how.blankText)) == "" ==> r.value.currency == DefaultCurrency
    ensures r.Some? && Trim(CellText(Lookup(header, row, "currency"), DefaultCurrency, how.blankText)) != "" ==>
              r.value.currency == Trim(CellText(Lookup(header, row, "currency"), DefaultCurrency, how.blankText))
    ensures r.Some? && Trim(CellText(Lookup(header, row, "payment_method"), "", how.blankText)) == "" ==> r.value.payment == None
    ensures r.Some? && Trim(CellText(Lookup(header, row, "payment_method"), "", how.blankText)) != "" ==>
              r.value.payment == Some(Trim(CellText(Lookup(header, row, "payment_method"), "", how.blankText)))
  {
    var date := Lookup(header, row, "date");
    if date.None? || date.value.Blank? || AllSpace(CellText(date, "", how.blankText)) then None
    else
      var merchant := Trim(CellText(Lookup(header, row, "merchant"), "", how.blankText));
      if merchant == "" then None
      else
        var amount := CellAmount(Lookup(header, row, "amount"), how.blankAmount);
        if amount.NotNumber? || (amount.Finite? && amount.value <= 0.0) then None
        else
          var payment := Trim(CellText(Lookup(header, row, "payment_method"), "", how.blankText));
          Some(RowFields(
            date.value,
            Trim(CellText(Lookup(header, row, "id"), "", how.blankText)),
            merchant,
            TextOr(Lookup(header, row, "category"), "", how.blankText, DefaultCategory),
            amount,
            TextOr(Lookup(header, row, "currency"), DefaultCurrency, how.blankText, DefaultCurrency),
            if payment == "" then None else Some(payment)))
  }

  /** A row is kept exactly when its date cell is present and not blank,
      its trimmed merchant is not empty, and its amount is a number that is
      not at or below zero. */
  lemma ReadRowKeptIff(header: seq<string>, row: seq<Cell>, how: Reading)
    requires |row| == |header|
    ensures ReadRow(header, row, how).Some? <==>
              && Lookup(header, row, "date").Some?
              && !Lookup(header, row, "date").value.Blank?
              && !AllSpace(CellText(Lookup(header, row, "date"), "", how.blankText))
              && Trim(CellText(Lookup(header, row, "merchant"), "", how.blankText)) != ""
              && !CellAmount(Lookup(header, row, "amount"), how.blankAmount).NotNumber?
              && !(CellAmount(Lookup(header, row, "amount"), how.blankAmount).Finite?
                   && CellAmount(Lookup(header, row, "amount"), how.blankAmount).value <= 0.0)
  {
  }

  /** Read as missing, an empty cell never yields `NaN`: every accepted
      amount is a number above zero. */
  lemma ReadRowAsMissingAmount(header: seq<string>, row: seq<Cell>)
    requires |row| == |header|
    ensures var r := ReadRow(header, row, AsMissing);
            r.Some? ==> r.value.amount.Finite? && r.value.amount.value > 0.0
  {
  }

  /** The date a passing row's date cell denotes: a timestamp's own date, or
      the ISO date its trimmed text spells. */
  function RowDate(c: Cell): Option<Date> {
    match c
    case Blank => None
    case Text(s) => ParseIsoDate(Trim(s))
    case Number(_, r) => ParseIsoDate(Trim(r))
    case Stamp(d, _) => Some(d)
  }

  /** The id of the transaction built from a row when `count` rows have been
      accepted before it: the row's own id, or the next number. */
  function RowId(given: string, count: nat): (r: string)
    ensures r != ""
    ensures Trim(given) != "" ==> r == Trim(given)
    ensures Trim(given) == "" ==> r == NatToString(count + 1)
  {
    if Trim(given) == "" then NatToString(count + 1) else Trim(given)
  }

  /** The transaction the row loop builds from one row, read with empty
      cells missing, when `k` rows were accepted before it: `None` when the
      row is skipped or its date is not a date. Every field is fixed by the
      row's cells, with `其他`, `CNY` and the position as the defaults. */
  function RowTransaction(header: seq<string>, row: seq<Cell>, k: nat): (r: Option<Transaction>)
    requires |row| == |header|
    ensures r.Some? ==> Lookup(header, row, "date").Some? && RowDate(Lookup(header, row, "date").value) == Some(r.value.date)
    ensures r.Some? ==> r.value.merchant == Trim(CellText(Lookup(header, row, "merchant"), "", ""))
    ensures r.Some? ==> CellAmount(Lookup(header, row, "amount"), NotNumber) == Finite(r.value.amount) && r.value.amount > 0.0
    ensures r.Some? ==> r.value.id == RowId(CellText(Lookup(header, row, "id"), "", ""), k)
    ensures r.Some? && Trim(CellText(Lookup(header, row, "category"), "", "")) == "" ==> r.value.category == DefaultCategory
    ensures r.Some? && Trim(CellText(Lookup(header, row, "category"), "", "")) != "" ==>
              r.value.category == Trim(CellText(Lookup(header, row, "category"), "", ""))
    ensures r.Some? && Trim(CellText(Lookup(header, row, "currency"), DefaultCurrency, "")) == "" ==> r.value.currency == DefaultCurrency
    ensures r.Some? && Trim(CellText(Lookup(header, row, "currency"), DefaultCurrency, "")) != "" ==>
              r.value.currency == Trim(CellText(Lookup(header, row, "currency"), DefaultCurrency, ""))
  {
    var read := ReadRow(header, row, AsMissing);
    if read.None? || !read.value.amount.Finite? then None
    else
      var f := read.value;
      var built := Convert(f);
      if built.None? then None
      else
        assert Lookup(header, row, "date") == Some(f.date) && RowDate(f.date) == Some(built.value.date);
        RowTransactionId(CellText(Lookup(header, row, "id"), "", ""), f.id, k);
        Some(built.value.(id := RowId(f.id, k)))
  }

  lemma RowTransactionId(cell: string, id: string, k: nat)
    requires id == Trim(cell)
    ensures RowId(id, k) == RowId(cell, k)
  {
    TrimIdempotent(cell);
  }

  /** The fields of an accepted row: a finite amount above zero and
      non-empty merchant, category and currency. */
  predicate Accepted(f: RowFields) {
    f.amount.Finite? && f.amount.value > 0.0 && f.merchant != "" && f.category != "" && f.currency != ""
  }

  /** The transaction built from an accepted row, still carrying the row's
      own id text, or `None` when its date is not a date, which aborts the
      whole file. */
  function Convert(f: RowFields): (r: Option<Transaction>)
    requires f.amount.Finite?
    ensures r.None? <==> RowDate(f.date).None?
    ensures r.Some? ==> r.value.id == f.id && r.value.date == RowDate(f.date).value
    ensures r.Some? ==> r.value.merchant == f.merchant && r.value.category == f.category
    ensures r.Some? ==> r.value.amount == f.amount.value && r.value.currency == f.currency
    ensures r.Some? ==> r.value.paymentMethod == f.payment && r.value.lineItems == []
  {
    match RowDate(f.date)
    case None => None
    case Some(d) =>
      Some(Transaction(f.id, d, f.merchant, f.category, f.amount.value, f.currency,
                       f.payment, None, [], None, None, None, None, None))
  }

  /** The ids the row loop gives: the `k`-th accepted row has `k`
      transactions before it, so it keeps its own id or gets `k + 1`. */
  function Renumber(ts: seq<Transaction>): (r: seq<Transaction>)
    ensures |r| == |ts|
    ensures forall k :: 0 <= k < |ts| ==> r[k] == ts[k].(id := RowId(ts[k].id, k))
  {
    seq(|ts|, k requires 0 <= k < |ts| => ts[k].(id := RowId(ts[k].id, k)))
  }

  /** Without ids of their own, the transactions are numbered 1, 2, 3, ...
      and so get pairwise different ids. */
  lemma RenumberDistinct(ts: seq<Transaction>)
    requires forall k :: 0 <= k < |ts| ==> AllSpace(ts[k].id)
    ensures forall k :: 0 <= k < |ts| ==> Renumber(ts)[k].id == NatToString(k + 1)
    ensures forall j, k :: 0 <= j < k < |ts| ==> Renumber(ts)[j].id != Renumber(ts)[k].id
  {
    forall j, k | 0 <= j < k < |ts|
      ensures Renumber(ts)[j].id != Renumber(ts)[k].id
    {
      NatToStringInjective(j + 1, k + 1);
    }
  }

  /** The rows' readings, in order. */
  function Readings(header: seq<string>, rows: seq<seq<Cell>>, how: Reading): (r: seq<Option<RowFields>>)
    requires forall k :: 0 <= k < |rows| ==> |rows[k]| == |header|
    ensures |r| == |rows| && forall k :: 0 <= k < |rows| ==> r[k] == ReadRow(header, rows[k], how)
  {
    seq(|rows|, k requires 0 <= k < |rows| => ReadRow(header, rows[k], how))
  }

  /** Read as missing, every row that is not skipped is accepted. */
  lemma ReadingsAccepted(header: seq<string>, rows: seq<seq<Cell>>)
    requires forall k :: 0 <= k < |rows| ==> |rows[k]| == |header|
    ensures AllPresent(Readings(header, rows, AsMissing), Accepted)
  {
    var fs := Readings(header, rows, AsMissing);
    forall k | 0 <= k < |fs| && fs[k].Some?
      ensures Accepted(fs[k].value)
    {
      ReadRowAsMissingAmount(header, rows[k]);
    }
  }

  predicate NoOwnId(f: RowFields) {
    f.id == ""
  }

  /** Without an `id` column no row brings an id of its own. */
  lemma ReadingsWithoutIds(header: seq<string>, rows: seq<seq<Cell>>, how: Reading)
    requires forall k :: 0 <= k < |rows| ==> |rows[k]| == |header|
    requires "id" !in header
    ensures AllPresent(Readings(header, rows, how), NoOwnId)
  {
  }

  /** The rest of the row loop, on the rows that were not skipped: the
      transaction each one builds. */
  function Converted(ps: seq<RowFields>): (r: seq<Option<Transaction>>)
    requires forall k :: 0 <= k < |ps| ==> ps[k].amount.Finite?
    ensures |r| == |ps| && forall k :: 0 <= k < |ps| ==> r[k] == Convert(ps[k])
  {
    seq(|ps|, k requires 0 <= k < |ps| => Convert(ps[k]))
  }

  /** The three cells a row of a `date`, `merchant`, `amount` sheet
      offers the loop. */
  lemma ThreeColumnLookups(row: seq<Cell>)
    requires |row| == 3
    ensures var header := ["date", "merchant", "amount"];
            && Lookup(header, row, "date") == Some(row[0])
            && Lookup(header, row, "merchant") == Some(row[1])
            && Lookup(header, row, "amount") == Some(row[2])
            && Lookup(header, row, "id") == None
            && Lookup(header, row, "category") == None
            && Lookup(header, row, "currency") == None
            && Lookup(header, row, "payment_method") == None
  {
    var header := ["date", "merchant", "amount"];
    assert "id" !in header && "category" !in header && "currency" !in header && "payment_method" !in header;
    assert "merchant" !in header[..1] && "amount" !in header[..2];
    LookupFirst(header, row, "date", 0);
    LookupFirst(header, row, "merchant", 1);
    LookupFirst(header, row, "amount", 2);
  }

  /** As written, an empty merchant cell reads as the text `"nan"`, which
      is not blank, so a row with a date and an amount above zero but no
      merchant is kept with merchant `"nan"`; read as missing, it is
      skipped. */
  lemma BlankMerchantAsWritten(date: string, amount: real, repr: string)
    requires !AllSpace(date) && amount > 0.0
    ensures var row := [Text(date), Blank, Number(amount, repr)];
            && ReadRow(["date", "merchant", "amount"], row, AsWritten).Some?
            && ReadRow(["date", "merchant", "amount"], row, AsWritten).value.merchant == "nan"
            && ReadRow(["date", "merchant", "amount"], row, AsMissing).None?
  {
    BlankMerchantKept(date, amount, repr);
    BlankMerchantSkipped(date, amount, repr);
  }

  lemma BlankMerchantKept(date: string, amount: real, repr: string)
    requires !AllSpace(date) && amount > 0.0
    ensures var row := [Text(date), Blank, Number(amount, repr)];
            && ReadRow(["date", "merchant", "amount"], row, AsWritten).Some?
            && ReadRow(["date", "merchant", "amount"], row, AsWritten).value.merchant == "nan"
  {
    assert Trimmed(AsWritten.blankText) && AsWritten.blankText != "";
    BlankTextKept(date, amount, repr, AsWritten);
  }

  /** An empty merchant cell keeps a row whenever an empty cell reads as
      text that strips to itself and is not empty. */
  lemma BlankTextKept(date: string, amount: real, repr: string, how: Reading)
    requires !AllSpace(date) && amount > 0.0
    requires Trimmed(how.blankText) && how.blankText != ""
    ensures var row := [Text(date), Blank, Number(amount, repr)];
            && ReadRow(["date", "merchant", "amount"], row, how).Some?
            && ReadRow(["date", "merchant", "amount"], row, how).value.merchant == how.blankText
  {
    var header := ["date", "merchant", "amount"];
    var row := [Text(date), Blank, Number(amount, repr)];
    ThreeColumnLookups(row);
    TrimOfTrimmed(how.blankText);
    ReadRowKeptIff(header, row, how);
  }

  lemma BlankMerchantSkipped(date: string, amount: real, repr: string)
    ensures ReadRow(["date", "merchant", "amount"], [Text(date), Blank, Number(amount, repr)], AsMissing).None?
  {
    var header := ["date", "merchant", "amount"];
    var row := [Text(date), Blank, Number(amount, repr)];
    ThreeColumnLookups(row);
    assert CellText(Some(Blank), "", "") == "";
    assert Trim("") == "";
  }

  /** As written, an empty amount cell reads as `NaN`, which is not `<= 0`,
      so a row with a date and a merchant but no amount is kept with a
      `NaN` amount; read as missing, it is skipped. */
  lemma BlankAmountAsWritten(date: string, merchant: string)
    requires !AllSpace(date) && !AllSpace(merchant)
    ensures var row := [Text(date), Text(merchant), Blank];
            && ReadRow(["date", "merchant", "amount"], row, AsWritten).Some?
            && ReadRow(["date", "merchant", "amount"], row, AsWritten).value.amount == NaN
            && ReadRow(["date", "merchant", "amount"], row, AsMissing).None?
  {
    BlankAmountKept(date, merchant);
    BlankAmountSkipped(date, merchant);
  }

  lemma BlankAmountKept(date: string, merchant: string)
    requires !AllSpace(date) && !AllSpace(merchant)
    ensures var row := [Text(date), Text(merchant), Blank];
            && ReadRow(["date", "merchant", "amount"], row, AsWritten).Some?
            && ReadRow(["date", "merchant", "amount"], row, AsWritten).value.amount == NaN
  {
    ThreeColumnLookups([Text(date), Text(merchant), Blank]);
    ReadRowKeptIff(["date", "merchant", "amount"], [Text(date), Text(merchant), Blank], AsWritten);
  }

  lemma BlankAmountSkipped(date: string, merchant: string)
    ensures ReadRow(["date", "merchant", "amount"], [Text(date), Text(merchant), Blank], AsMissing).None?
  {
    ThreeColumnLookups([Text(date), Text(merchant), Blank]);
    assert CellAmount(Some(Blank), NotNumber) == NotNumber;
  }

  /** As written, a column spelled exactly like a field keeps its name
      when an earlier column already claimed that field, so the renamed
      sheet has two columns of that name; pandas then hands the loop both
      cells at once, and for `date` the emptiness test on them raises and
      fails the whole file. */
  lemma FieldNameCollision(headers: seq<string>, p: nat, q: nat, f: string)
    requires p < q < |headers| && FieldAt(Targets(headers), p) == Some(f) && headers[q] == f
    ensures Renamed(headers)[p] == f && Renamed(headers)[q] == f
  {
    var targets := Targets(headers);
    FieldNameTargetsItself(f);
    assert targets[q] == targets[p];
    assert FieldAt(targets, q) == None;
  }

  /** The smallest sheet that shows it: a column that spells the date
      some other way, followed by a column named `date`. */
  lemma DateColumnCollision(h: string)
    requires Target(h) == Some("date")
    ensures Renamed([h, "date"]) == ["date", "date"]
  {
    var headers := [h, "date"];
    var targets := Targets(headers);
    assert targets[0] == Target(headers[0]);
    assert Claims(targets, 0);
    FieldNameCollision(headers, 0, 1, "date");
  }

  /** `posting_date` is such a spelling. */
  lemma PostingDateCollision()
    ensures Renamed(["posting_date", "date"]) == ["date", "date"]
  {
    KeyOfPlainName("posting_date");
    assert DateHeaders[1] == "posting_date";
    assert MappedField("posting_date") == Some("date");
    assert Target("posting_date") == Some("date");
    DateColumnCollision("posting_date");
  }

  const EmptySheetMessage: string := "bill_upload.manual_error_no_rows"
  const MissingDateMessage: string := "缺少日期列。Excel文件必须包含以下列之一: posting_date, date, transaction_date, clear_date"
  const MissingMerchantMessage: string := "缺少商户列。Excel文件必须包含以下列之一: merchant, name_customer, customer_name, vendor"
  const MissingAmountMessage: string := "缺少金额列。Excel文件必须包含以下列之一: amount, total_open_amount, total_amount"
  const NoValidRowsMessage: string := "Excel文件中没有有效的交易记录。请确保数据行包含有效的日期、商户和金额。"
  const InvalidDateMessage: string := "date"

  /** `_parse_excel_file` on a sheet already read into headers and rows,
      with empty cells read as missing. */
  function ParseExcel(headers: seq<string>, rows: seq<seq<Cell>>): (r: Result<seq<Transaction>>)
    requires forall k :: 0 <= k < |rows| ==> |rows[k]| == |headers|
    ensures |rows| == 0 || |headers| == 0 ==> r == Err(EmptySheetMessage)
    ensures r.Ok? ==> |r.value| > 0 && FieldMapped(headers, "date") && FieldMapped(headers, "merchant") && FieldMapped(headers, "amount")
    ensures |rows| > 0 && |headers| > 0 ==> (r == Err(MissingDateMessage) <==> !FieldMapped(headers, "date"))
    ensures |rows| > 0 && |headers| > 0 && FieldMapped(headers, "date") ==>
              (r == Err(MissingMerchantMessage) <==> !FieldMapped(headers, "merchant"))
    ensures |rows| > 0 && |headers| > 0 && FieldMapped(headers, "date") && FieldMapped(headers, "merchant") ==>
              (r == Err(MissingAmountMessage) <==> !FieldMapped(headers, "amount"))
    ensures r.Ok? <==> && |rows| > 0 && |headers| > 0
                       && FieldMapped(headers, "date") && FieldMapped(headers, "merchant") && FieldMapped(headers, "amount")
                       && ImportRows(Renamed(headers), rows).Ok?
  {
    if |rows| == 0 || |headers| == 0 then Err(EmptySheetMessage)
    else if !FieldMapped(headers, "date") then Err(MissingDateMessage)
    else if !FieldMapped(headers, "merchant") then Err(MissingMerchantMessage)
    else if !FieldMapped(headers, "amount") then Err(MissingAmountMessage)
    else ImportRows(Renamed(headers), rows)
  }

  /** A row the loop keeps whose date is not a date: building its
      transaction fails, and with it the whole file. */
  predicate KeptWithBadDate(header: seq<string>, row: seq<Cell>)
    requires |row| == |header|
  {
    var f := ReadRow(header, row, AsMissing);
    f.Some? && RowDate(f.value.date).None?
  }

  /** The row loop of `_parse_excel_file` on the renamed sheet, and the
      check that it kept something: one transaction per kept row, unless a
      kept row's date is not a date, or no row is kept at all. */
  function ImportRows(header: seq<string>, rows: seq<seq<Cell>>): (r: Result<seq<Transaction>>)
    requires forall k :: 0 <= k < |rows| ==> |rows[k]| == |header|
    ensures r.Ok? ==> |r.value| > 0
    ensures r.Ok? ==> |r.value| == |Present(Readings(header, rows, AsMissing))|
    ensures r.Err? ==> r.message == InvalidDateMessage || r.message == NoValidRowsMessage
    ensures r == Err(InvalidDateMessage) <==> exists k :: 0 <= k < |rows| && KeptWithBadDate(header, rows[k])
    ensures r == Err(NoValidRowsMessage) <==> forall k :: 0 <= k < |rows| ==> ReadRow(header, rows[k], AsMissing).None?
  {
    var ps := Present(Readings(header, rows, AsMissing));
    KeptRowsConvert(header, rows);
    match AllOf(Converted(ps))
    case None => Err(InvalidDateMessage)
    case Some(ts) => if |ts| == 0 then Err(NoValidRowsMessage) else Ok(Renumber(ts))
  }

  /** The kept rows are accepted; converting them fails exactly when a row
      is kept with a bad date, and succeeds with one transaction each; none
      are kept exactly when every row is skipped. */
  lemma KeptRowsConvert(header: seq<string>, rows: seq<seq<Cell>>)
    requires forall k :: 0 <= k < |rows| ==> |rows[k]| == |header|
    ensures var ps := Present(Readings(header, rows, AsMissing));
            forall k :: 0 <= k < |ps| ==> Accepted(ps[k])
    ensures var ps := Present(Readings(header, rows, AsMissing));
            AllOf(Converted(ps)).None? <==> exists k :: 0 <= k < |rows| && KeptWithBadDate(header, rows[k])
    ensures var ps := Present(Readings(header, rows, AsMissing));
            AllOf(Converted(ps)).Some? ==> |AllOf(Converted(ps)).value| == |ps|
    ensures var ps := Present(Readings(header, rows, AsMissing));
            |ps| == 0 <==> forall k :: 0 <= k < |rows| ==> ReadRow(header, rows[k], AsMissing).None?
  {
    var fs := Readings(header, rows, AsMissing);
    ReadingsAccepted(header, rows);
    PresentAll(fs, Accepted);
    var ps := Present(fs);
    var built := Converted(ps);
    AllOfSucceedsIffEveryValue(built);
    assert AllOf(built).None? <==> exists j :: 0 <= j < |ps| && RowDate(ps[j].date).None? by {
      assert forall j :: 0 <= j < |ps| ==> (built[j].None? <==> RowDate(ps[j].date).None?);
    }
    BadDateKept(header, rows);
    PresentEmptyIffNone(fs);
  }

  /** Some kept row has a bad date exactly when some row of the sheet is
      kept with a bad date. */
  lemma BadDateKept(header: seq<string>, rows: seq<seq<Cell>>)
    requires forall k :: 0 <= k < |rows| ==> |rows[k]| == |header|
    ensures var ps := Present(Readings(header, rows, AsMissing));
            (exists j :: 0 <= j < |ps| && RowDate(ps[j].date).None?)
            <==> exists k :: 0 <= k < |rows| && KeptWithBadDate(header, rows[k])
  {
    var ps := Present(Readings(header, rows, AsMissing));
    if j :| 0 <= j < |ps| && RowDate(ps[j].date).None? {
      BadDateFromKept(header, rows, j);
    }
    if k :| 0 <= k < |rows| && KeptWithBadDate(header, rows[k]) {
      BadDateToKept(header, rows, k);
    }
  }

  lemma BadDateFromKept(header: seq<string>, rows: seq<seq<Cell>>, j: nat)
    requires forall k :: 0 <= k < |rows| ==> |rows[k]| == |header|
    requires var ps := Present(Readings(header, rows, AsMissing));
             j < |ps| && RowDate(ps[j].date).None?
    ensures exists k :: 0 <= k < |rows| && KeptWithBadDate(header, rows[k])
  {
    var fs := Readings(header, rows, AsMissing);
    var ps := Present(fs);
    var at := PresentOrigins(fs);
    var k := at[j];
    assert fs[k] == Some(ps[j]);
    assert KeptWithBadDate(header, rows[k]);
  }

  lemma BadDateToKept(header: seq<string>, rows: seq<seq<Cell>>, k: nat)
    requires forall k :: 0 <= k < |rows| ==> |rows[k]| == |header|
    requires k < |rows| && KeptWithBadDate(header, rows[k])
    ensures var ps := Present(Readings(header, rows, AsMissing));
            exists j :: 0 <= j < |ps| && RowDate(ps[j].date).None?
  {
    var fs := Readings(header, rows, AsMissing);
    var ps := Present(fs);
    PresentKeeps(fs, k);
    var j :| 0 <= j < |ps| && ps[j] == fs[k].value;
    assert RowDate(ps[j].date).None?;
  }

  /** A successful import: the rows kept, all accepted, and the
      transactions built from them, before the ids are given. */
  lemma ImportRowsKept(header: seq<string>, rows: seq<seq<Cell>>) returns (ps: seq<RowFields>, ts: seq<Transaction>)
    requires forall k :: 0 <= k < |rows| ==> |rows[k]| == |header|
    requires ImportRows(header, rows).Ok?
    ensures ps == Present(Readings(header, rows, AsMissing))
    ensures forall k :: 0 <= k < |ps| ==> Accepted(ps[k])
    ensures |ts| == |ps| && forall k :: 0 <= k < |ps| ==> ps[k].amount.Finite? && Convert(ps[k]) == Some(ts[k])
    ensures ImportRows(header, rows).value == Renumber(ts)
  {
    var fs := Readings(header, rows, AsMissing);
    ReadingsAccepted(header, rows);
    PresentAll(fs, Accepted);
    ps := Present(fs);
    var built := Converted(ps);
    AllOfSucceedsIffEveryValue(built);
    ts := AllOf(built).value;
  }

  /** Every transaction of a successful import has an amount above zero and
      a merchant, a category and a currency, and is the transaction some
      row of the sheet builds: so its category is `其他` when that row's
      category cell is blank and its currency `CNY` when its currency cell
      is blank or missing. */
  lemma ParseExcelAccepted(headers: seq<string>, rows: seq<seq<Cell>>)
    requires forall k :: 0 <= k < |rows| ==> |rows[k]| == |headers|
    requires ParseExcel(headers, rows).Ok?
    ensures var ts := ParseExcel(headers, rows).value;
            forall k :: 0 <= k < |ts| ==> ts[k].amount > 0.0 && ts[k].merchant != "" && ts[k].category != "" && ts[k].currency != ""
    ensures var ts := ParseExcel(headers, rows).value;
            forall k :: 0 <= k < |ts| ==> exists j :: 0 <= j < |rows| && RowTransaction(Renamed(headers), rows[j], k) == Some(ts[k])
  {
    var at := ParseExcelRowOrigins(headers, rows);
    var ps, ts := ImportRowsKept(Renamed(headers), rows);
    var r := Renumber(ts);
    assert ParseExcel(headers, rows).value == r;
    forall k | 0 <= k < |r|
      ensures r[k].amount > 0.0 && r[k].merchant != "" && r[k].category != "" && r[k].currency != ""
    {
      assert Accepted(ps[k]) && Convert(ps[k]) == Some(ts[k]);
      assert r[k] == ts[k].(id := RowId(ts[k].id, k));
    }
  }

  /** The transactions of a successful import come from the sheet's rows in
      order: the `k`-th is what row `at[k]` builds as the `k`-th accepted
      row, and the rows `at` names strictly increase. */
  lemma ParseExcelRowOrigins(headers: seq<string>, rows: seq<seq<Cell>>) returns (at: seq<nat>)
    requires forall k :: 0 <= k < |rows| ==> |rows[k]| == |headers|
    requires ParseExcel(headers, rows).Ok?
    ensures var ts := ParseExcel(headers, rows).value;
            && |at| == |ts|
            && (forall k :: 0 <= k < |ts| ==> at[k] < |rows| && RowTransaction(Renamed(headers), rows[at[k]], k) == Some(ts[k]))
            && (forall j, k :: 0 <= j < k < |ts| ==> at[j] < at[k])
  {
    var h := Renamed(headers);
    ParseExcelImports(headers, rows);
    var ps, ts := ImportRowsKept(h, rows);
    var fs := Readings(h, rows, AsMissing);
    at := PresentOrigins(fs);
    var r := Renumber(ts);
    forall k | 0 <= k < |r|
      ensures at[k] < |rows| && RowTransaction(h, rows[at[k]], k) == Some(r[k])
    {
      assert fs[at[k]] == Some(ps[k]);
      assert ReadRow(h, rows[at[k]], AsMissing) == Some(ps[k]);
      assert Convert(ps[k]) == Some(ts[k]) && ts[k].id == ps[k].id;
      assert r[k] == ts[k].(id := RowId(ps[k].id, k));
    }
  }

  /** A sheet without an `id` column numbers its transactions 1, 2, 3, ...
      in the order their rows come. */
  lemma ParseExcelNumbersRows(headers: seq<string>, rows: seq<seq<Cell>>)
    requires forall k :: 0 <= k < |rows| ==> |rows[k]| == |headers|
    requires "id" !in headers && ParseExcel(headers, rows).Ok?
    ensures var ts := ParseExcel(headers, rows).value;
            forall k :: 0 <= k < |ts| ==> ts[k].id == NatToString(k + 1)
  {
    ParseExcelImports(headers, rows);
    NoIdAfterRenaming(headers);
    ImportRowsNumbersRows(Renamed(headers), rows);
  }

  /** An accepted sheet is its renamed rows, imported. */
  lemma ParseExcelImports(headers: seq<string>, rows: seq<seq<Cell>>)
    requires forall k :: 0 <= k < |rows| ==> |rows[k]| == |headers|
    requires |rows| > 0 && |headers| > 0
    requires FieldMapped(headers, "date") && FieldMapped(headers, "merchant") && FieldMapped(headers, "amount")
    ensures ParseExcel(headers, rows) == ImportRows(Renamed(headers), rows)
  {
  }

  /** Renaming never produces an `id` column. */
  lemma NoIdAfterRenaming(headers: seq<string>)
    requires "id" !in headers
    ensures "id" !in Renamed(headers)
  {
  }

  /** Rows without an `id` column are numbered 1, 2, 3, ... */
  lemma ImportRowsNumbersRows(header: seq<string>, rows: seq<seq<Cell>>)
    requires forall k :: 0 <= k < |rows| ==> |rows[k]| == |header|
    requires "id" !in header && ImportRows(header, rows).Ok?
    ensures var ts := ImportRows(header, rows).value;
            forall k :: 0 <= k < |ts| ==> ts[k].id == NatToString(k + 1)
  {
    var ps, ts := ImportRowsKept(header, rows);
    var fs := Readings(header, rows, AsMissing);
    ReadingsWithoutIds(header, rows, AsMissing);
    PresentAll(fs, NoOwnId);
    forall k | 0 <= k < |ts|
      ensures AllSpace(ts[k].id)
    {
      assert Convert(ps[k]) == Some(ts[k]) && NoOwnId(ps[k]);
    }
    RenumberDistinct(ts);
  }

  // ---------------------------------------------------------------------
  // Text typed or pasted by hand
  // ---------------------------------------------------------------------

  /** What `_parse_manual_input` does with a text: the transactions it
      reads, the text it hands to the JSON decoder (a list of transaction
      objects, decoded outside this model), or the failure it raises. */
  datatype Manual = Parsed(ts: seq<Transaction>) | Json(text: string) | Failed(message: string)

  const ManualNoRowsMessage: string := "bill_upload.manual_error_no_rows"
  /** Not a message of the program, which has none for this case: building
      a row's transaction raises (`AttributeError` when a field it strips is
      `None` because the line is too short, `ValueError` when the amount is
      not a number, a validation error when the date is not a date), and
      nothing catches it. The model records only that the input failed. */
  const RowRaised: string := "row raised"

  /** One CSV record as `csv.DictReader` yields it: each field name maps to
      the value in its column, or to `None` when the line is too short; of
      repeated names the last column wins. */
  function Record(names: seq<string>, values: seq<string>): (r: map<string, Option<string>>)
    ensures forall n :: n in r <==> n in names
    decreases |names|
  {
    if |names| == 0 then map[]
    else
      var p := |names| - 1;
      Record(names[..p], values)[names[p] := if p < |values| then Some(values[p]) else None]
  }

  /** The value a name gets is the one in the last column of that name. */
  lemma {:induction false} RecordLastColumnWins(names: seq<string>, values: seq<string>, p: nat)
    requires p < |names| && names[p] !in names[p + 1..]
    ensures Record(names, values)[names[p]] == if p < |values| then Some(values[p]) else None
    decreases |names|
  {
    var last := |names| - 1;
    if p < last {
      assert names[last] in names[p + 1..];
      assert names[..last][p + 1..] == names[p + 1..last];
      RecordLastColumnWins(names[..last], values, p);
    }
  }

  /** `row.get(key, default)`: the value under `key`, which may be `None`,
      or `default` when the record has no such field. */
  function Get(record: map<string, Option<string>>, key: string, default: string): (r: Option<string>)
    ensures key !in record ==> r == Some(default)
    ensures key in record ==> r == record[key]
  {
    if key in record then record[key] else Some(default)
  }

  /** `float(row.get("amount", 0))`: zero without an amount field, nothing
      when the value is `None` or not a number. */
  function RecordAmount(record: map<string, Option<string>>): (r: Option<real>)
    ensures "amount" !in record ==> r == Some(0.0)
  {
    if "amount" !in record then Some(0.0)
    else match record["amount"]
      case None => None
      case Some(s) => ParseDecimal(s)
  }

  /** `row.get("payment_method") or None`: the value as it stands, or
      nothing when it is missing or empty. */
  function RecordPayment(record: map<string, Option<string>>): (r: Option<string>)
    ensures r.Some? ==> r.value != "" && "payment_method" in record && record["payment_method"] == r
  {
    if "payment_method" in record && record["payment_method"].Some? && record["payment_method"].value != ""
    then record["payment_method"]
    else None
  }

  /** The transaction one CSV record describes, still carrying its own id
      text, or `None` when building it raises: a needed field is `None`,
      the date is not a date, or the amount is not a number. No amount is
      filtered out. */
  function ManualRow(record: map<string, Option<string>>): (r: Option<Transaction>)
    ensures r.Some? ==> Get(record, "date", "").Some? && ParseIsoDate(Trim(Get(record, "date", "").value)) == Some(r.value.date)
    ensures r.Some? ==> RecordAmount(record) == Some(r.value.amount)
    ensures r.Some? ==> Get(record, "merchant", "").Some? && r.value.merchant == Trim(Get(record, "merchant", "").value)
    ensures r.Some? ==> Get(record, "category", "").Some? && r.value.category == Trim(Get(record, "category", "").value)
    ensures r.Some? ==> r.value.currency != "" && r.value.paymentMethod == RecordPayment(record)
    ensures r.Some? && "id" !in record ==> r.value.id == ""
    ensures r.Some? ==> Get(record, "id", "").Some? && r.value.id == Trim(Get(record, "id", "").value)
    ensures r.Some? ==> Get(record, "currency", DefaultCurrency).Some?
    ensures r.Some? && Trim(Get(record, "currency", DefaultCurrency).value) == "" ==> r.value.currency == DefaultCurrency
    ensures r.Some? && Trim(Get(record, "currency", DefaultCurrency).value) != "" ==>
              r.value.currency == Trim(Get(record, "currency", DefaultCurrency).value)
    ensures "amount" in record && record["amount"].Some? && ParseDecimal(record["amount"].value).Some?
            && (forall key :: key in ["id", "date", "merchant", "category", "currency"] && key in record ==> record[key].Some?)
            && ParseIsoDate(Trim(Get(record, "date", "").value)).Some?
            ==> r.Some?
  {
    var id := Get(record, "id", "");
    var date := Get(record, "date", "");
    var merchant := Get(record, "merchant", "");
    var category := Get(record, "category", "");
    var currency := Get(record, "currency", DefaultCurrency);
    if id.None? || date.None? || merchant.None? || category.None? || currency.None? then None
    else
      match ParseIsoDate(Trim(date.value))
      case None => None
      case Some(d) =>
        match RecordAmount(record)
        case None => None
        case Some(amount) =>
          var cur := Trim(currency.value);
          Some(Transaction(Trim(id.value), d, Trim(merchant.value), Trim(category.value), amount,
                           if cur == "" then DefaultCurrency else cur, RecordPayment(record),
                           None, [], None, None, None, None, None))
  }

  /** The transactions the records describe, one per record. */
  function ManualRows(records: seq<map<string, Option<string>>>): (r: seq<Option<Transaction>>)
    ensures |r| == |records| && forall k :: 0 <= k < |records| ==> r[k] == ManualRow(records[k])
  {
    seq(|records|, k requires 0 <= k < |records| => ManualRow(records[k]))
  }

  /** The non-empty lines after the header line: `csv.DictReader` skips
      empty lines. */
  function DataLines(lines: seq<string>): (r: seq<string>)
    ensures |r| <= |lines|
    ensures forall k :: 0 <= k < |r| ==> r[k] != "" && r[k] in lines
  {
    if |lines| == 0 then []
    else (if lines[0] == "" then [] else [lines[0]]) + DataLines(lines[1..])
  }

  /** The records of a CSV text whose first line holds the field names. */
  function Records(text: string): (r: seq<map<string, Option<string>>>)
    ensures var lines := Split(text, '\n');
            var names := Split(lines[0], ',');
            |r| == |DataLines(lines[1..])|
            && forall k :: 0 <= k < |r| ==> r[k] == Record(names, Split(DataLines(lines[1..])[k], ','))
  {
    var lines := Split(text, '\n');
    var names := Split(lines[0], ',');
    var data := DataLines(lines[1..]);
    seq(|data|, k requires 0 <= k < |data| => Record(names, Split(data[k], ',')))
  }

  /** `_parse_manual_input`: blank text gives no transactions, text opening
      with `[` goes to the JSON decoder, anything else is read as CSV with
      a header line; every data line becomes a transaction, numbered from 1
      when it has no id of its own, and a text without data lines fails. */
  function ParseManual(raw: string): (r: Manual)
    ensures AllSpace(raw) <==> r == Parsed([])
    ensures r.Json? <==> Trim(raw) != "" && Trim(raw)[0] == '['
    ensures r.Json? ==> r.text == Trim(raw)
    ensures r.Parsed? && r.ts != [] ==> |r.ts| == |Records(Trim(raw))|
    ensures Trim(raw) != "" && Trim(raw)[0] != '[' ==>
              (r.Parsed? <==> Records(Trim(raw)) != [] && forall k :: 0 <= k < |Records(Trim(raw))| ==> ManualRow(Records(Trim(raw))[k]).Some?)
    ensures Trim(raw) != "" && Trim(raw)[0] != '[' ==> (r == Failed(ManualNoRowsMessage) <==> Records(Trim(raw)) == [])
    ensures Trim(raw) != "" && Trim(raw)[0] != '[' ==>
              (r == Failed(RowRaised) <==> exists k :: 0 <= k < |Records(Trim(raw))| && ManualRow(Records(Trim(raw))[k]).None?)
  {
    var text := Trim(raw);
    if text == "" then Parsed([])
    else if text[0] == '[' then Json(text)
    else
      var rows := ManualRows(Records(text));
      AllOfSucceedsIffEveryValue(rows);
      match AllOf(rows)
      case None => Failed(RowRaised)
      case Some(ts) => if |ts| == 0 then Failed(ManualNoRowsMessage) else Parsed(Renumber(ts))
  }

  /** Every data line of an accepted CSV text becomes the transaction its
      record describes, whatever its amount, with the ids numbered by
      position. */
  lemma ParseManualRows(raw: string)
    requires ParseManual(raw).Parsed? && ParseManual(raw).ts != []
    ensures var records := Records(Trim(raw));
            var ts := ParseManual(raw).ts;
            |ts| == |records|
            && forall k :: 0 <= k < |ts| ==>
                 (ManualRow(records[k]).Some? && ts[k] == ManualRow(records[k]).value.(id := RowId(ManualRow(records[k]).value.id, k)))
  {
    var records := Records(Trim(raw));
    var rows := ManualRows(records);
    var built := ManualBuilt(raw);
    AllOfSucceedsIffEveryValue(rows);
    forall k | 0 <= k < |built|
      ensures ManualRow(records[k]) == Some(built[k])
    {
      assert rows[k] == Some(built[k]);
    }
  }

  /** An accepted CSV text is its records' transactions, renumbered. */
  lemma ManualBuilt(raw: string) returns (built: seq<Transaction>)
    requires ParseManual(raw).Parsed? && ParseManual(raw).ts != []
    ensures AllOf(ManualRows(Records(Trim(raw)))) == Some(built)
    ensures ParseManual(raw).ts == Renumber(built)
  {
    var text := Trim(raw);
    assert text != "" && text[0] != '[';
    built := AllOf(ManualRows(Records(text))).value;
  }

  /** A CSV text without an `id` column numbers its transactions 1, 2, 3, ... */
  lemma ParseManualNumbersRows(raw: string)
    requires ParseManual(raw).Parsed? && ParseManual(raw).ts != []
    requires "id" !in Split(Split(Trim(raw), '\n')[0], ',')
    ensures var ts := ParseManual(raw).ts;
            forall k :: 0 <= k < |ts| ==> ts[k].id == NatToString(k + 1)
  {
    var records := Records(Trim(raw));
    AllOfSucceedsIffEveryValue(ManualRows(records));
    ParseManualRows(raw);
  }
}

=== FILE: chat.dfy ===
/** The rule-based side of the finance chat: the conversation history, the
    monthly budget, the context window handed to the language model, and the
    questions answered from the transactions without asking the model. */
module Chat {
  import opened Wrappers
  import opened Text
  import opened Entities
  import Analysis

  /** One `{role, content}` entry of the conversation. */
  datatype Message = Message(role: string, content: string)

  /** The state of a `ChatManager` the rule-based answers depend on. */
  datatype Chat = Chat(history: seq<Message>, transactions: seq<Transaction>, monthlyBudget: real)

  /** Construction: a missing history is empty and a missing budget is
      zero; a budget that is given is kept as it is, negative or not. */
  function NewChat(history: Option<seq<Message>>, transactions: seq<Transaction>, monthlyBudget: Option<real>): (c: Chat)
    ensures history.None? ==> c.history == []
    ensures history.Some? ==> c.history == history.value
    ensures monthlyBudget.None? ==> c.monthlyBudget == 0.0
    ensures monthlyBudget.Some? ==> c.monthlyBudget == monthlyBudget.value
    ensures c.transactions == transactions
  {
    Chat(history.GetOr([]), transactions, monthlyBudget.GetOr(0.0))
  }

  /** `set_monthly_budget`: the budget clamped at zero; nothing else changes. */
  function SetMonthlyBudget(c: Chat, amount: real): (r: Chat)
    ensures r.monthlyBudget >= 0.0
    ensures amount >= 0.0 ==> r.monthlyBudget == amount
    ensures amount <= 0.0 ==> r.monthlyBudget == 0.0
    ensures r.history == c.history && r.transactions == c.transactions
  {
    c.(monthlyBudget := Analysis.Max(0.0, amount))
  }

  /** Setting the budget twice keeps only the second amount. */
  lemma SetMonthlyBudgetLastWins(c: Chat, a: real, b: real)
    ensures SetMonthlyBudget(SetMonthlyBudget(c, a), b) == SetMonthlyBudget(c, b)
  {
  }

  /** `add_message`: one entry appended, the earlier ones untouched. */
  function AddMessage(c: Chat, role: string, content: string): (r: Chat)
    ensures |r.history| == |c.history| + 1
    ensures r.history[..|c.history|] == c.history
    ensures r.history[|c.history|] == Message(role, content)
    ensures r.transactions == c.transactions && r.monthlyBudget == c.monthlyBudget
  {
    c.(history := c.history + [Message(role, content)])
  }

  // ---------------------------------------------------------------------
  // The context window
  // ---------------------------------------------------------------------

  const DefaultContextLimit: nat := 10

  /** Python's `xs[start:]`: a negative start counts from the end, and a
      start beyond either end is clamped. */
  function SliceFrom<T>(xs: seq<T>, start: int): (r: seq<T>)
    ensures |r| <= |xs| && r == xs[|xs| - |r|..]
    ensures start >= 0 ==> |r| == if start <= |xs| then |xs| - start else 0
    ensures start < 0 ==> |r| == if -start <= |xs| then -start else |xs|
  {
    if start >= 0 then (if start <= |xs| then xs[start..] else [])
    else if -start <= |xs| then xs[|xs| + start..]
    else xs
  }

  /** `get_context` as written, `history[-limit:]`: for a positive limit
      the last `limit` entries, but a limit of zero gives the whole history
      (since `-0 == 0`) and a negative limit drops entries from the front. */
  function ContextAsWritten(history: seq<Message>, limit: int): (r: seq<Message>)
    ensures |r| <= |history| && r == history[|history| - |r|..]
    ensures limit > 0 ==> |r| == if limit <= |history| then limit else |history|
    ensures limit == 0 ==> r == history
    ensures limit < 0 ==> |r| == if -limit <= |history| then |history| + limit else 0
  {
    SliceFrom(history, -limit)
  }

  /** A zero limit returns every message of a non-empty history rather
      than none. */
  lemma ContextAsWrittenZeroLimit(history: seq<Message>)
    requires |history| > 0
    ensures |ContextAsWritten(history, 0)| == |history| > 0
    ensures ContextAsWritten(history, 0) != Context(history, 0)
  {
  }

  /** The last `limit` messages, or all of them when there are fewer. */
  function Context(history: seq<Message>, limit: nat): (r: seq<Message>)
    ensures |r| == if limit <= |history| then limit else |history|
    ensures r == history[|history| - |r|..]
  {
    if limit <= |history| then history[|history| - limit..] else history
  }

  /** For every positive limit, in particular the default one used when
      the model is asked, the code as written agrees with `Context`. */
  lemma ContextAgreesForPositiveLimits(history: seq<Message>, limit: int)
    requires limit > 0
    ensures ContextAsWritten(history, limit) == Context(history, limit)
  {
    var a := ContextAsWritten(history, limit);
    var b := Context(history, limit);
    assert |a| == |b|;
  }

  /** After a message is added, a window of `limit >= 1` ends with it,
      preceded by the window of `limit - 1` over the history before. */
  lemma ContextAfterAddMessage(c: Chat, role: string, content: string, limit: nat)
    requires limit >= 1
    ensures Context(AddMessage(c, role, content).history, limit)
         == Context(c.history, limit - 1) + [Message(role, content)]
  {
    var h := AddMessage(c, role, content).history;
    assert h == c.history + [Message(role, content)];
    var w := Context(h, limit);
    var v := Context(c.history, limit - 1);
    assert |w| == |v| + 1;
    assert w[..|v|] == v;
  }

  // ---------------------------------------------------------------------
  // Questions answered from the transactions
  // ---------------------------------------------------------------------

  /** A question about what is left of the monthly budget. */
  predicate HasBudgetHint(normalized: string) {
    var lowered := Lower(normalized);
    || Contains(normalized, "还能花") || Contains(normalized, "剩多少")
    || Contains(normalized, "剩余") || Contains(normalized, "预算")
    || (Contains(lowered, "budget") && (Contains(lowered, "left") || Contains(lowered, "remaining")))
    || (Contains(lowered, "how much") && Contains(lowered, "spend") && Contains(lowered, "month"))
  }

  /** A question about the category with the most spending. */
  predicate HasSpendMaxHint(normalized: string) {
    var lowered := Lower(normalized);
    || Contains(normalized, "花钱最多") || Contains(normalized, "消费最多")
    || (Contains(lowered, "spend") && Contains(lowered, "most"))
    || (Contains(lowered, "spending") && Contains(lowered, "most"))
  }

  /** A question about the recent average spending. */
  predicate HasRecentAverageHint(normalized: string) {
    var lowered := Lower(normalized);
    || (Contains(normalized, "平均") && (Contains(normalized, "近") || Contains(normalized, "最近")))
    || (Contains(lowered, "average") && (Contains(lowered, "recent") || Contains(lowered, "last")))
  }

  predicate HasEtfHint(normalized: string) {
    Contains(Lower(normalized), "etf")
  }

  /** Since "spending" contains "spend", the top-spending test reduces to
      its first three alternatives. */
  lemma SpendMaxHintSimplified(normalized: string)
    ensures HasSpendMaxHint(normalized) <==>
      || Contains(normalized, "花钱最多") || Contains(normalized, "消费最多")
      || (Contains(Lower(normalized), "spend") && Contains(Lower(normalized), "most"))
  {
    var lowered := Lower(normalized);
    if Contains(lowered, "spending") {
      assert "spending"[0..|"spend"|] == "spend";
      ContainsAt("spending", "spend", 0);
      ContainsTransitive(lowered, "spending", "spend");
    }
  }

  /** Since "最近" contains "近", the recent-average test only needs "近". */
  lemma RecentAverageHintSimplified(normalized: string)
    ensures HasRecentAverageHint(normalized) <==>
      || (Contains(normalized, "平均") && Contains(normalized, "近"))
      || (Contains(Lower(normalized), "average") && (Contains(Lower(normalized), "recent") || Contains(Lower(normalized), "last")))
  {
    if Contains(normalized, "最近") {
      assert "最近"[1..2] == "近";
      ContainsAt("最近", "近", 1);
      ContainsTransitive(normalized, "最近", "近");
    }
  }

  /** The answers `query_transactions` gives, one per reply template; the
      sentence wording is not modelled. */
  datatype Reply =
    | NoBudget
    | BudgetLeft(remaining: real, spent: real)
    | NoTransactions
    | TopSpending(category: string, amount: real)
    | RecentAverage(average: real)
    | EtfAdvice

  /** The recent window reaches this many days back from the latest date. */
  const RecentWindowDays: int := 2

  /** The latest transaction date, as a day number. */
  function LatestDay(ts: seq<Transaction>): (d: int)
    requires |ts| > 0
    ensures forall t :: t in ts ==> t.date.day <= d
    ensures exists t :: t in ts && t.date.day == d
  {
    if |ts| == 1 then ts[0].date.day
    else
      var m := LatestDay(ts[1..]);
      assert forall t :: t in ts ==> t == ts[0] || t in ts[1..];
      if ts[0].date.day > m then ts[0].date.day else m
  }

  /** The transactions dated on or after day `from`, in order. */
  function OnOrAfter(ts: seq<Transaction>, from: int): (r: seq<Transaction>)
    ensures forall t :: t in r <==> t in ts && t.date.day >= from
    ensures forall t :: multiset(r)[t] == if t.date.day >= from then multiset(ts)[t] else 0
  {
    if |ts| == 0 then []
    else
      assert forall t :: t in ts ==> t == ts[0] || t in ts[1..];
      assert ts == [ts[0]] + ts[1..];
      (if ts[0].date.day >= from then [ts[0]] else []) + OnOrAfter(ts[1..], from)
  }

  /** The rows of the date-sorted table within two days of its latest date.
      The window always holds the latest transaction, so the "nothing
      recent" reply of the source is never reached. */
  function RecentTransactions(ts: seq<Transaction>): (r: seq<Transaction>)
    requires |ts| > 0
    ensures |r| > 0
    ensures forall t :: t in r <==> t in ts && LatestDay(ts) - RecentWindowDays <= t.date.day
    ensures forall t :: multiset(r)[t] == if LatestDay(ts) - RecentWindowDays <= t.date.day then multiset(ts)[t] else 0
  {
    var sorted := Analysis.SortByDate(ts);
    SortedSameMembers(ts);
    LatestDayOfSameMembers(sorted, ts);
    var d := LatestDay(sorted);
    var r := OnOrAfter(sorted, d - RecentWindowDays);
    var u :| u in sorted && u.date.day == d;
    assert u in r;
    r
  }

  /** Sorting by date keeps exactly the same rows. */
  lemma SortedSameMembers(ts: seq<Transaction>)
    ensures forall t :: t in Analysis.SortByDate(ts) <==> t in ts
  {
    var sorted := Analysis.SortByDate(ts);
    forall t ensures t in sorted <==> t in ts {
      assert t in sorted <==> t in multiset(sorted);
      assert t in ts <==> t in multiset(ts);
    }
  }

  /** Tables with the same rows have the same latest day. */
  lemma LatestDayOfSameMembers(a: seq<Transaction>, b: seq<Transaction>)
    requires |a| > 0 && |b| > 0
    requires forall t :: t in a <==> t in b
    ensures LatestDay(a) == LatestDay(b)
  {
    var da, db := LatestDay(a), LatestDay(b);
    var u :| u in a && u.date.day == da;
    var v :| v in b && v.date.day == db;
    assert u in b && v in a;
  }

  /** When every recent amount is the same, the recent average is that
      amount. */
  lemma RecentAverageOfEqualAmounts(ts: seq<Transaction>, c: real)
    requires |ts| > 0
    requires Analysis.AllAmountsAre(RecentTransactions(ts), c)
    ensures Analysis.Mean(RecentTransactions(ts)) == c
  {
    MeanOfEqualAmounts(RecentTransactions(ts), c);
  }

  lemma MeanOfEqualAmounts(ts: seq<Transaction>, c: real)
    requires |ts| > 0 && Analysis.AllAmountsAre(ts, c)
    ensures Analysis.Mean(ts) == c
  {
    Analysis.TotalOfConstant(ts, c);
    var n := |ts| as real;
    assert Analysis.Mean(ts) == Analysis.Total(ts) / n;
    QuotientOfProduct(n, c);
  }

  lemma QuotientOfProduct(n: real, c: real)
    requires n > 0.0
    ensures (n * c) / n == c
  {
  }

  /** `query_transactions`: a blank question gets no answer; otherwise the
      first intent found, in the order budget, top category, recent average
      and ETF, answers. `spent` is this month's spending, which the source
      reads from the clock and the transactions. */
  function QueryTransactions(c: Chat, question: string, spent: real): (r: Option<Reply>)
    ensures AllSpace(question) ==> r == None
    ensures (r.Some? && (r.value.NoBudget? || r.value.BudgetLeft?))
        <==> !AllSpace(question) && HasBudgetHint(Trim(question))
    ensures r == Some(NoBudget) <==> !AllSpace(question) && HasBudgetHint(Trim(question)) && c.monthlyBudget <= 0.0
    ensures r.Some? && r.value.BudgetLeft? ==>
      && r.value.spent == spent
      && r.value.remaining >= 0.0
      && (spent <= c.monthlyBudget ==> r.value.remaining == c.monthlyBudget - spent)
      && (spent >= c.monthlyBudget ==> r.value.remaining == 0.0)
    ensures (r.Some? && r.value.TopSpending?)
        <==> !AllSpace(question) && !HasBudgetHint(Trim(question)) && HasSpendMaxHint(Trim(question)) && |c.transactions| > 0
    ensures r.Some? && r.value.TopSpending? ==>
      var totals := Analysis.CategoryTotals(c.transactions);
      && r.value.category in totals
      && r.value.amount == totals[r.value.category]
      && r.value.amount == Analysis.Total(Analysis.OfCategory(c.transactions, r.value.category))
      && (forall k :: k in totals ==> totals[k] <= r.value.amount)
      && (forall k :: k in totals && Analysis.FirstOfCategory(c.transactions, k) < Analysis.FirstOfCategory(c.transactions, r.value.category)
            ==> totals[k] < r.value.amount)
    ensures r == Some(NoTransactions) <==>
      && !AllSpace(question) && !HasBudgetHint(Trim(question))
      && (HasSpendMaxHint(Trim(question)) || HasRecentAverageHint(Trim(question)))
      && |c.transactions| == 0
    ensures (r.Some? && r.value.RecentAverage?) <==>
      && !AllSpace(question) && !HasBudgetHint(Trim(question)) && !HasSpendMaxHint(Trim(question))
      && HasRecentAverageHint(Trim(question)) && |c.transactions| > 0
    ensures r.Some? && r.value.RecentAverage? ==>
      r.value.average == Analysis.Mean(RecentTransactions(c.transactions))
    ensures r == Some(EtfAdvice) <==>
      && !AllSpace(question) && !HasBudgetHint(Trim(question)) && !HasSpendMaxHint(Trim(question))
      && !HasRecentAverageHint(Trim(question)) && HasEtfHint(Trim(question))
  {
    var normalized := Trim(question);
    if normalized == "" then None
    else if HasBudgetHint(normalized) then
      if c.monthlyBudget <= 0.0 then Some(NoBudget)
      else Some(BudgetLeft(Analysis.Max(0.0, c.monthlyBudget - spent), spent))
    else if HasSpendMaxHint(normalized) then
      match Analysis.TopCategory(c.transactions)
      case None => Some(NoTransactions)
      case Some(top) =>
        Analysis.CategoryTotalsAreSums(c.transactions);
        Some(TopSpending(top, Analysis.CategoryTotals(c.transactions)[top]))
    else if HasRecentAverageHint(normalized) then
      if |c.transactions| == 0 then Some(NoTransactions)
      else Some(RecentAverage(Analysis.Mean(RecentTransactions(c.transactions))))
    else if HasEtfHint(normalized) then Some(EtfAdvice)
    else None
  }

  /** A question without any of the recognised phrases is left to the
      language model. */
  lemma QueryWithoutIntent(c: Chat, question: string, spent: real)
    requires !HasBudgetHint(Trim(question)) && !HasSpendMaxHint(Trim(question))
    requires !HasRecentAverageHint(Trim(question)) && !HasEtfHint(Trim(question))
    ensures QueryTransactions(c, question, spent) == None
  {
  }

  /** The answer does not depend on how much surrounding whitespace the
      question carries. */
  lemma QueryIgnoresSurroundingSpace(c: Chat, question: string, spent: real)
    ensures QueryTransactions(c, Trim(question), spent) == QueryTransactions(c, question, spent)
  {
    TrimIdempotent(question);
  }
}

=== FILE: entities.dfy ===
/** The records shared by every part of the application: calendar dates,
    receipt line items, transactions and the outcome of parsing one
    uploaded file, with the defaults the Python models give to fields a
    caller leaves out. */
module Entities {
  import opened Wrappers
  import opened Text

  /** A calendar date, as its day number counted from 1970-01-01. Dates are
      compared by day number only. */
  datatype Date = Date(day: int)

  predicate IsLeapYear(y: int) {
    (y % 4 == 0 && y % 100 != 0) || y % 400 == 0
  }

  function DaysInMonth(y: int, m: int): int
    requires 1 <= m <= 12
  {
    if m == 2 then (if IsLeapYear(y) then 29 else 28)
    else if m == 4 || m == 6 || m == 9 || m == 11 then 30
    else 31
  }

  /** The day number of year `y`, month `m`, day `d` of the proleptic
      Gregorian calendar (1970-01-01 is day 0). */
  function DaysFromCivil(y: int, m: int, d: int): int
    requires 1 <= m <= 12
  {
    var y' := if m <= 2 then y - 1 else y;
    var era := y' / 400;
    var yoe := y' - era * 400;
    var mp := if m > 2 then m - 3 else m + 9;
    var doy := (153 * mp + 2) / 5 + d - 1;
    var doe := yoe * 365 + yoe / 4 - yoe / 100 + doy;
    era * 146097 + doe - 719468
  }

  /** Day 0 is 1970-01-01 and 2000-03-01 is day 11017. */
  lemma DaysFromCivilAnchors()
    ensures DaysFromCivil(1970, 1, 1) == 0
    ensures DaysFromCivil(2000, 3, 1) == 11017
  {
  }

  /** February has 29 days in 2024 and 28 in 2025. */
  lemma DaysFromCivilLeapYears()
    ensures DaysFromCivil(2024, 2, 28) == 19781 && DaysFromCivil(2024, 3, 1) == 19783
    ensures DaysFromCivil(2025, 2, 28) == 20147 && DaysFromCivil(2025, 3, 1) == 20148
  {
  }

  /** A year, month and day naming a day that exists: years 1 to 9999, as
      `datetime.date` allows. */
  predicate IsCalendarDate(y: int, m: int, d: int) {
    1 <= y <= 9999 && 1 <= m <= 12 && 1 <= d <= DaysInMonth(y, m)
  }

  /** `n` written with exactly `width` digits: zero-padded on the left, or
      its last `width` digits when it is wider. */
  function PadDigits(n: nat, width: nat): (r: string)
    ensures |r| == width && AllDigits(r)
  {
    if width == 0 then [] else PadDigits(n / 10, width - 1) + [('0' as int + n % 10) as char]
  }

  /** Reading back a padded number that fits gives the number. */
  lemma {:induction false} PadDigitsValue(n: nat, width: nat)
    requires n < Pow10(width)
    ensures DigitsValue(PadDigits(n, width)) == n
  {
    if width > 0 {
      PadDigitsValue(n / 10, width - 1);
      var r := PadDigits(n, width);
      assert r[..|r| - 1] == PadDigits(n / 10, width - 1);
    }
  }

  /** Padding the value of a run of digits to its own width gives the run
      back, leading zeros included. */
  lemma {:induction false} PadDigitsOfValue(s: string)
    requires AllDigits(s)
    ensures PadDigits(DigitsValue(s), |s|) == s
  {
    if |s| > 0 {
      var init := s[..|s| - 1];
      PadDigitsOfValue(init);
      var n := DigitsValue(s);
      assert n / 10 == DigitsValue(init) && n % 10 == DigitValue(s[|s| - 1]);
      assert s == init + [s[|s| - 1]];
    }
  }

  /** `date.isoformat()`: `YYYY-MM-DD`, each part zero-padded. */
  function FormatIsoDate(y: nat, m: nat, d: nat): (s: string)
    ensures |s| == 10 && s[4] == '-' && s[7] == '-'
  {
    PadDigits(y, 4) + "-" + PadDigits(m, 2) + "-" + PadDigits(d, 2)
  }

  /** Reading a date from text the way a `datetime.date` field does for
      strings: exactly `YYYY-MM-DD`, year 1 to 9999 and a day that exists
      in that month. Every text it accepts is the ISO form of the date it
      returns. */
  function ParseIsoDate(s: string): (r: Option<Date>)
    ensures r.Some? ==> |s| == 10 && s[4] == '-' && s[7] == '-'
    ensures r.Some? ==> exists y: nat, m: nat, d: nat :: IsCalendarDate(y, m, d) && s == FormatIsoDate(y, m, d)
                                                         && r.value == Date(DaysFromCivil(y, m, d))
  {
    if |s| == 10 && s[4] == '-' && s[7] == '-'
       && AllDigits(s[..4]) && AllDigits(s[5..7]) && AllDigits(s[8..])
    then
      var y := DigitsValue(s[..4]);
      var m := DigitsValue(s[5..7]);
      var d := DigitsValue(s[8..]);
      if 1 <= y && 1 <= m <= 12 && 1 <= d <= DaysInMonth(y, m)
      then
        IsoTextIsFormat(s);
        YearFitsFourDigits(s[..4]);
        Some(Date(DaysFromCivil(y, m, d)))
      else None
    else None
  }

  /** Text of the ISO shape is the ISO form of the numbers written in it. */
  lemma {:induction false} IsoTextIsFormat(s: string)
    requires |s| == 10 && s[4] == '-' && s[7] == '-'
    requires AllDigits(s[..4]) && AllDigits(s[5..7]) && AllDigits(s[8..])
    ensures s == FormatIsoDate(DigitsValue(s[..4]), DigitsValue(s[5..7]), DigitsValue(s[8..]))
  {
    PadDigitsOfValue(s[..4]);
    PadDigitsOfValue(s[5..7]);
    PadDigitsOfValue(s[8..]);
    assert s == s[..4] + "-" + s[5..7] + "-" + s[8..];
  }

  lemma YearFitsFourDigits(s: string)
    requires |s| == 4 && AllDigits(s)
    ensures DigitsValue(s) <= 9999
  {
    assert DigitsValue(s[..1]) <= 9;
    assert DigitsValue(s[..2]) <= 99 by { assert s[..2][..1] == s[..1]; }
    assert DigitsValue(s[..3]) <= 999 by { assert s[..3][..2] == s[..2]; }
    assert s[..4] == s;
    assert s[..4][..3] == s[..3];
  }

  /** The ISO form of a calendar date reads back as that date. */
  lemma {:induction false} ParseFormatIsoDate(y: nat, m: nat, d: nat)
    requires IsCalendarDate(y, m, d)
    ensures ParseIsoDate(FormatIsoDate(y, m, d)) == Some(Date(DaysFromCivil(y, m, d)))
  {
    var s := FormatIsoDate(y, m, d);
    assert s[..4] == PadDigits(y, 4);
    assert s[5..7] == PadDigits(m, 2);
    assert s[8..] == PadDigits(d, 2);
    PadDigitsValue(y, 4);
    PadDigitsValue(m, 2);
    PadDigitsValue(d, 2);
  }

  /** One purchased article on a detailed receipt. */
  datatype LineItem = LineItem(
    description: string,
    quantity: real,
    unitPrice: real,
    amount: real,
    discount: Option<real>)

  /** A line item built from its required fields: one unit and no discount. */
  function NewLineItem(description: string, unitPrice: real, amount: real): (li: LineItem)
    ensures li.quantity == 1.0 && li.discount == None
    ensures li.description == description && li.unitPrice == unitPrice && li.amount == amount
  {
    LineItem(description, 1.0, unitPrice, amount, None)
  }

  /** A normalised transaction; a positive amount is an expense. The exact
      receipt time is kept as its ISO text. */
  datatype Transaction = Transaction(
    id: string,
    date: Date,
    merchant: string,
    category: string,
    amount: real,
    currency: string,
    paymentMethod: Option<string>,
    rawText: Option<string>,
    lineItems: seq<LineItem>,
    subtotal: Option<real>,
    totalDiscount: Option<real>,
    tax: Option<real>,
    receiptNumber: Option<string>,
    receiptTime: Option<string>)

  const DefaultCurrency: string := "CNY"

  /** A transaction built from its five required fields: Chinese yuan, no
      line items, and every optional field absent. */
  function NewTransaction(id: string, date: Date, merchant: string, category: string, amount: real): (t: Transaction)
    ensures t.id == id && t.date == date && t.merchant == merchant
    ensures t.category == category && t.amount == amount
    ensures t.currency == DefaultCurrency && t.lineItems == []
    ensures t.paymentMethod == None && t.rawText == None
    ensures t.subtotal == None && t.totalDiscount == None && t.tax == None
    ensures t.receiptNumber == None && t.receiptTime == None
  {
    Transaction(id, date, merchant, category, amount, DefaultCurrency, None, None, [], None, None, None, None, None)
  }

  /** The outcome of parsing one uploaded file. */
  datatype OcrParseResult = OcrParseResult(filename: string, text: string, transactions: seq<Transaction>)

  /** A parse outcome built without transactions has an empty list. */
  function NewOcrParseResult(filename: string, text: string): (r: OcrParseResult)
    ensures r.transactions == [] && r.filename == filename && r.text == text
  {
    OcrParseResult(filename, text, [])
  }
}

=== FILE: i18n.dfy ===
/** The translation lookup: a locale's messages are a nested JSON object,
    and a dotted key such as `bill_upload.title` walks it one segment at a
    time, falling back to the key itself. Reading the locale file is
    outside this model: the files arrive as a map from locale to the
    decoded JSON value. */
module I18n {
  import opened Wrappers
  import opened Text

  /** A decoded JSON value as the lookup sees it: a string, an object, or
      anything else (a number, a list, ...), carried as the text `str()`
      prints for it. */
  datatype Value = Str(s: string) | Dict(entries: map<string, Value>) | Other(repr: string)

  /** What `t` gives back: a translated or fallback string, or a value that
      is not a string and is printed with `str()`. */
  datatype Shown = Text(s: string) | Printed(v: Value)

  /** The translations currently in use and the locale they belong to. */
  datatype Translator = Translator(locale: string, translations: Value)

  const DefaultLocale: string := "zh_CN"

  /** The decoded locale file, or an empty object when the locale has no file. */
  function Load(files: map<string, Value>, locale: string): (r: Value)
    ensures locale in files ==> r == files[locale]
    ensures locale !in files ==> r == Dict(map[])
  {
    if locale in files then files[locale] else Dict(map[])
  }

  /** A translator for `locale`, reading its file. */
  function New(files: map<string, Value>, locale: string): (r: Translator)
    ensures r.locale == locale && r.translations == Load(files, locale)
  {
    Translator(locale, Load(files, locale))
  }

  /** The value reached by following `path` through nested objects, or
      `None` once a segment is missing or the value in hand is not an
      object. */
  function Walk(v: Value, path: seq<string>): (r: Option<Value>)
    ensures |path| > 0 && !v.Dict? ==> r == None
    ensures |path| > 0 && v.Dict? && path[0] !in v.entries ==> r == None
    decreases |path|
  {
    if |path| == 0 then Some(v)
    else if v.Dict? && path[0] in v.entries then Walk(v.entries[path[0]], path[1..])
    else None
  }

  /** `t(key)` without format arguments: split the key on dots, walk the
      translations, and show what is found; the key itself when the walk
      fails. */
  function T(tr: Translator, key: string): (r: Shown)
    ensures Walk(tr.translations, Split(key, '.')) == None ==> r == Text(key)
    ensures r.Printed? ==> !r.v.Str? && Walk(tr.translations, Split(key, '.')) == Some(r.v)
    ensures var w := Walk(tr.translations, Split(key, '.'));
            w.Some? && !w.value.Str? ==> r == Printed(w.value)
    ensures forall s :: Walk(tr.translations, Split(key, '.')) == Some(Str(s)) ==> r == Text(s)
  {
    match Walk(tr.translations, Split(key, '.'))
    case None => Text(key)
    case Some(Str(s)) => Text(s)
    case Some(v) => Printed(v)
  }

  /** Switching the locale reads the new locale's file and forgets the old
      translations. */
  function SwitchLocale(tr: Translator, files: map<string, Value>, locale: string): (r: Translator)
    ensures r.locale == locale
    ensures locale in files ==> r.translations == files[locale]
    ensures locale !in files ==> r.translations == Dict(map[])
  {
    Translator(locale, Load(files, locale))
  }

  /** The translator after a switch is the one built fresh for that locale,
      whatever it was before: switching twice is switching once. */
  lemma SwitchLocaleForgets(a: Translator, b: Translator, files: map<string, Value>, locale: string)
    ensures SwitchLocale(a, files, locale) == SwitchLocale(b, files, locale) == New(files, locale)
    ensures SwitchLocale(SwitchLocale(a, files, locale), files, locale) == SwitchLocale(a, files, locale)
  {
  }

  /** Walking `p + q` is walking `p`, then `q` from where `p` ended. */
  lemma {:induction false} WalkConcat(v: Value, p: seq<string>, q: seq<string>)
    ensures Walk(v, p + q) == (match Walk(v, p) case None => None case Some(w) => Walk(w, q))
    decreases |p|
  {
    if |p| > 0 {
      assert (p + q)[0] == p[0] && (p + q)[1..] == p[1..] + q;
      if v.Dict? && p[0] in v.entries {
        WalkConcat(v.entries[p[0]], p[1..], q);
      }
    } else {
      assert p + q == q;
    }
  }

  /** With no translations (no file for the locale), every key shows as
      itself. */
  lemma EmptyTranslationsShowKeys(locale: string, key: string)
    ensures T(Translator(locale, Dict(map[])), key) == Text(key)
  {
  }

  /** A locale without a file translates every key to itself. */
  lemma MissingLocaleShowsKeys(files: map<string, Value>, locale: string, key: string)
    requires locale !in files
    ensures T(New(files, locale), key) == Text(key)
  {
    EmptyTranslationsShowKeys(locale, key);
  }

  /** When the walk reaches a value that is not an object, or an object
      without the next segment, the key is shown as it is. */
  lemma MissingSegmentShowsKey(tr: Translator, key: string, i: nat, w: Value)
    requires i < |Split(key, '.')|
    requires Walk(tr.translations, Split(key, '.')[..i]) == Some(w)
    requires !w.Dict? || Split(key, '.')[i] !in w.entries
    ensures T(tr, key) == Text(key)
  {
    var path := Split(key, '.');
    assert path == path[..i] + path[i..];
    WalkConcat(tr.translations, path[..i], path[i..]);
  }

  /** `entries` with `leaf` stored under the nested `path`, creating or
      replacing the objects along the way: the reference for what a lookup
      of `path` finds. */
  function Put(entries: map<string, Value>, path: seq<string>, leaf: Value): (r: map<string, Value>)
    requires |path| > 0
    ensures path[0] in r && r.Keys == entries.Keys + {path[0]}
    decreases |path|
  {
    var inner := if path[0] in entries && entries[path[0]].Dict? then entries[path[0]].entries else map[];
    entries[path[0] := if |path| == 1 then leaf else Dict(Put(inner, path[1..], leaf))]
  }

  /** Walking the path just stored finds its leaf. */
  lemma {:induction false} WalkPut(entries: map<string, Value>, path: seq<string>, leaf: Value)
    requires |path| > 0
    ensures Walk(Dict(Put(entries, path, leaf)), path) == Some(leaf)
    decreases |path|
  {
    if |path| > 1 {
      var inner := if path[0] in entries && entries[path[0]].Dict? then entries[path[0]].entries else map[];
      WalkPut(inner, path[1..], leaf);
    }
  }

  /** Storing under `path` does not change the lookup of a path `q` that
      leaves it at position `i`. */
  lemma {:induction false} WalkPutElsewhere(entries: map<string, Value>, path: seq<string>, leaf: Value, q: seq<string>, i: nat)
    requires i < |path| && i < |q| && path[i] != q[i]
    ensures Walk(Dict(Put(entries, path, leaf)), q) == Walk(Dict(entries), q)
    decreases i
  {
    if path[0] == q[0] {
      var inner := if path[0] in entries && entries[path[0]].Dict? then entries[path[0]].entries else map[];
      WalkPutElsewhere(inner, path[1..], leaf, q[1..], i - 1);
      if q[0] !in entries || !entries[q[0]].Dict? {
        assert Walk(Dict(inner), q[1..]) == None;
      }
    }
  }

  /** A string stored under dot-free segments is what `t` gives for the
      dotted key made of them. */
  lemma TranslatesStoredKey(locale: string, entries: map<string, Value>, path: seq<string>, s: string)
    requires |path| > 0
    requires forall k :: 0 <= k < |path| ==> '.' !in path[k]
    ensures T(Translator(locale, Dict(Put(entries, path, Str(s)))), Join(path, '.')) == Text(s)
  {
    JoinSplit(path, '.');
    WalkPut(entries, path, Str(s));
  }

  /** Storing under one dotted key leaves the translation of a key whose
      segments leave it at some position unchanged. */
  lemma OtherKeysUnchanged(locale: string, entries: map<string, Value>, path: seq<string>, leaf: Value, key: string, i: nat)
    requires |path| > 0
    requires i < |path| && i < |Split(key, '.')| && path[i] != Split(key, '.')[i]
    ensures T(Translator(locale, Dict(Put(entries, path, leaf))), key) == T(Translator(locale, Dict(entries)), key)
  {
    WalkPutElsewhere(entries, path, leaf, Split(key, '.'), i);
  }
}

=== FILE: recommendation.dfy ===
/** The rule-based investment advisor: a risk level from the questionnaire
    score, a fixed allocation table per level, a scanner that reads a target
    amount and a horizon out of the user's goal sentence, and the monthly
    savings hint. */
module Recommendation {
  import opened Wrappers
  import opened Text

  const Conservative: string := "保守型"
  const Balanced: string := "稳健型"
  const Aggressive: string := "激进型"

  predicate IsRiskLabel(level: string) {
    level == Conservative || level == Balanced || level == Aggressive
  }

  /** Position of a level on the cautious-to-bold scale. */
  function Boldness(level: string): nat {
    if level == Conservative then 0 else if level == Balanced then 1 else 2
  }

  function Sum(xs: seq<int>): int {
    if |xs| == 0 then 0 else xs[0] + Sum(xs[1..])
  }

  /** The level for a questionnaire score: at most 4 is cautious, 5 to 7
      balanced, 8 and above bold. */
  function RiskLabelForScore(score: int): (level: string)
    ensures IsRiskLabel(level)
    ensures level == Conservative <==> score <= 4
    ensures level == Balanced <==> 5 <= score <= 7
    ensures level == Aggressive <==> score >= 8
  {
    if score <= 4 then Conservative
    else if score <= 7 then Balanced
    else Aggressive
  }

  /** `conduct_risk_assessment`: the level of the summed answers. */
  function ConductRiskAssessment(answers: seq<int>): (level: string)
    ensures IsRiskLabel(level)
    ensures level == RiskLabelForScore(Sum(answers))
  {
    RiskLabelForScore(Sum(answers))
  }

  /** A higher score never yields a more cautious level. */
  lemma RiskLabelMonotone(low: int, high: int)
    requires low <= high
    ensures Boldness(RiskLabelForScore(low)) <= Boldness(RiskLabelForScore(high))
  {
  }

  /** Raising one answer never yields a more cautious level. */
  lemma {:induction false} RaisingAnAnswerIsBolder(answers: seq<int>, i: int, v: int)
    requires 0 <= i < |answers| && answers[i] <= v
    ensures Sum(answers) <= Sum(answers[i := v])
    ensures Boldness(ConductRiskAssessment(answers)) <= Boldness(ConductRiskAssessment(answers[i := v]))
  {
    if i > 0 {
      RaisingAnAnswerIsBolder(answers[1..], i - 1, v);
      assert answers[i := v][1..] == answers[1..][i - 1 := v];
    }
    RiskLabelMonotone(Sum(answers), Sum(answers[i := v]));
  }

  /** One line of an allocation table: an asset class and its weight. */
  datatype Weight = Weight(asset: string, share: real)

  function TotalShare(ws: seq<Weight>): real {
    if |ws| == 0 then 0.0 else ws[0].share + TotalShare(ws[1..])
  }

  /** `ALLOCATION_RULES`, in the order the dictionaries list their assets. */
  function AllocationTable(level: string): seq<Weight>
    requires IsRiskLabel(level)
  {
    if level == Conservative then [Weight("债券基金", 0.7), Weight("混合理财", 0.3)]
    else if level == Balanced then [Weight("债券基金", 0.5), Weight("股票基金", 0.3), Weight("货币基金", 0.2)]
    else [Weight("股票基金", 0.6), Weight("成长基金", 0.3), Weight("货币基金", 0.1)]
  }

  /** Every table's weights add up to the whole portfolio. */
  lemma AllocationTablesAreComplete(level: string)
    requires IsRiskLabel(level)
    ensures TotalShare(AllocationTable(level)) == 1.0
  {
    var t := AllocationTable(level);
    assert TotalShare(t[2..]) == (if |t| == 3 then t[2].share else 0.0);
    assert TotalShare(t[1..]) == t[1].share + TotalShare(t[2..]);
  }

  /** `generate_allocation`: the table for a known level, the balanced table
      for anything else. */
  function GenerateAllocation(profile: string): (ws: seq<Weight>)
    ensures IsRiskLabel(profile) ==> ws == AllocationTable(profile)
    ensures !IsRiskLabel(profile) ==> ws == AllocationTable(Balanced)
    ensures TotalShare(ws) == 1.0
  {
    var level := if IsRiskLabel(profile) then profile else Balanced;
    AllocationTablesAreComplete(level);
    AllocationTable(level)
  }

  /** `EXPECTED_RETURN` and `MAX_DRAWDOWN`, in percent. */
  datatype Metrics = Metrics(expectedReturn: real, maxDrawdown: real)

  function EstimateMetrics(level: string): (m: Metrics)
    requires IsRiskLabel(level)
    ensures level == Conservative ==> m == Metrics(4.5, 5.0)
    ensures level == Balanced ==> m == Metrics(6.8, 12.0)
    ensures level == Aggressive ==> m == Metrics(9.5, 20.0)
  {
    if level == Conservative then Metrics(4.5, 5.0)
    else if level == Balanced then Metrics(6.8, 12.0)
    else Metrics(9.5, 20.0)
  }

  /** Bolder labels promise more return and warn of a deeper drawdown. */
  lemma MetricsGrowWithBoldness(a: string, b: string)
    requires IsRiskLabel(a) && IsRiskLabel(b) && Boldness(a) < Boldness(b)
    ensures EstimateMetrics(a).expectedReturn < EstimateMetrics(b).expectedReturn
    ensures EstimateMetrics(a).maxDrawdown < EstimateMetrics(b).maxDrawdown
  {
  }

  // ---------------------------------------------------------------------
  // Goal scanning
  // ---------------------------------------------------------------------

  /** Length of the run of digits starting at `i`. */
  function DigitRun(s: string, i: nat): (k: nat)
    requires i <= |s|
    ensures i + k <= |s| && AllDigits(s[i..i + k])
    ensures i + k < |s| ==> !IsDigit(s[i + k])
    decreases |s| - i
  {
    if i < |s| && IsDigit(s[i]) then
      var k := DigitRun(s, i + 1);
      assert s[i..i + 1 + k] == [s[i]] + s[i + 1..i + 1 + k];
      1 + k
    else 0
  }

  /** Length of the run of whitespace starting at `i`. */
  function SpaceRun(s: string, i: nat): (k: nat)
    requires i <= |s|
    ensures i + k <= |s| && AllSpace(s[i..i + k])
    ensures i + k < |s| ==> !IsSpace(s[i + k])
    decreases |s| - i
  {
    if i < |s| && IsSpace(s[i]) then 1 + SpaceRun(s, i + 1) else 0
  }

  predicate HasDigit(s: string) {
    exists i :: 0 <= i < |s| && IsDigit(s[i])
  }

  /** `d` times the unit written at `k`: 万 is ten thousand, 千 a
      thousand, and 元, 块 or no unit leave the number as it is. */
  function ScaleByUnit(d: real, s: string, k: nat): real
    requires k <= |s|
  {
    if k < |s| && s[k] == '万' then 10000.0 * d
    else if k < |s| && s[k] == '千' then 1000.0 * d
    else d
  }

  /** The search `(\d+(?:\.\d+)?)\s*(万|千|元|块)?` from position `i` on:
      the first number found, with its optional fraction and unit applied. */
  function ScanAmountFrom(s: string, i: nat): (r: Option<real>)
    requires i <= |s|
    ensures r.None? <==> !HasDigit(s[i..])
    ensures r.Some? ==> r.value >= 0.0
    decreases |s| - i
  {
    if i == |s| then None
    else if !IsDigit(s[i]) then
      var r := ScanAmountFrom(s, i + 1);
      assert HasDigit(s[i..]) <==> HasDigit(s[i + 1..]) by {
        if HasDigit(s[i..]) {
          var k :| 0 <= k < |s[i..]| && IsDigit(s[i..][k]);
          assert s[i + 1..][k - 1] == s[i..][k];
        }
        if HasDigit(s[i + 1..]) {
          var k :| 0 <= k < |s[i + 1..]| && IsDigit(s[i + 1..][k]);
          assert s[i..][k + 1] == s[i + 1..][k];
        }
      }
      r
    else
      assert IsDigit(s[i..][0]);
      Some(NumberAt(s, i))
  }

  /** The number the amount search reads at a digit: its digits, a
      fraction when a `.` and a digit follow, and the unit after optional
      whitespace. */
  function NumberAt(s: string, i: nat): (v: real)
    requires i < |s| && IsDigit(s[i])
    ensures v >= 0.0
  {
    var j := i + DigitRun(s, i);
    if j + 1 < |s| && s[j] == '.' && IsDigit(s[j + 1]) then FractionAt(s, i, j)
    else WithUnit(DigitsValue(s[i..j]) as real, s, j)
  }

  /** The number whose whole part runs from `i` to the `.` at `j`, with the
      fraction that follows the `.` and the unit after it. */
  function FractionAt(s: string, i: nat, j: nat): (v: real)
    requires i <= j && j + 1 < |s| && AllDigits(s[i..j])
    ensures v >= 0.0
  {
    var e := j + 1 + DigitRun(s, j + 1);
    DecimalValueNonnegative(s[i..j], s[j + 1..e]);
    WithUnit(DecimalValue(s[i..j], s[j + 1..e]), s, e)
  }

  /** `d` scaled by the unit found after optional whitespace at `k`. */
  function WithUnit(d: real, s: string, k: nat): (v: real)
    requires d >= 0.0 && k <= |s|
    ensures v >= d >= 0.0
    ensures SpaceRun(s, k) == 0 ==> v == ScaleByUnit(d, s, k)
  {
    ScaleByUnit(d, s, k + SpaceRun(s, k))
  }

  lemma DecimalValueNonnegative(whole: string, frac: string)
    requires AllDigits(whole) && AllDigits(frac)
    ensures DecimalValue(whole, frac) >= 0.0
  {
    var p := Pow10(|frac|) as real;
    var f := DigitsValue(frac) as real;
    assert f / p >= 0.0;
  }

  /** The factor of the unit at the head of `rest`: 万 is ten thousand, 千 a
      thousand, and 元, 块, any other character or nothing at all leave the
      number as it is. */
  function UnitFactor(rest: string): real {
    if |rest| > 0 && rest[0] == '万' then 10000.0
    else if |rest| > 0 && rest[0] == '千' then 1000.0
    else 1.0
  }

  predicate IsHorizonUnitAt(s: string, k: nat) {
    (k < |s| && (s[k] == '年' || s[k] == '月')) || (k + 1 < |s| && s[k] == '个' && s[k + 1] == '月')
  }

  /** Where the unit of a horizon match starting at `k` stands: after the
      run of digits there and the whitespace behind it. */
  function HorizonUnitPos(s: string, k: nat): (u: nat)
    requires k <= |s|
    ensures k <= u <= |s|
  {
    var j := k + DigitRun(s, k);
    j + SpaceRun(s, j)
  }

  /** `(\d+)\s*(年|个月|月)` matches at `k`. The digit run cannot end early (a
      digit is neither whitespace nor a unit), so the match is the whole run. */
  predicate HorizonMatchAt(s: string, k: nat) {
    k < |s| && IsDigit(s[k]) && IsHorizonUnitAt(s, HorizonUnitPos(s, k))
  }

  /** The months a match at `k` stands for: its number, twelve times over
      when the unit is 年. */
  function HorizonValueAt(s: string, k: nat): nat
    requires HorizonMatchAt(s, k)
  {
    var n := DigitsValue(s[k..k + DigitRun(s, k)]);
    if s[HorizonUnitPos(s, k)] == '年' then n * 12 else n
  }

  /** The search `(\d+)\s*(年|个月|月)` from position `i` on: `re.search`
      reports the leftmost match, counted in months. */
  function ScanHorizonFrom(s: string, i: nat): (r: Option<nat>)
    requires i <= |s|
    ensures r.None? <==> forall k :: i <= k < |s| ==> !HorizonMatchAt(s, k)
    ensures r.Some? ==> exists k :: i <= k < |s| && HorizonMatchAt(s, k) && r.value == HorizonValueAt(s, k)
                                   && forall m :: i <= m < k ==> !HorizonMatchAt(s, m)
    ensures r.Some? ==> HasDigit(s[i..])
    decreases |s| - i
  {
    if i == |s| then None
    else if HorizonMatchAt(s, i) then
      assert IsDigit(s[i..][0]);
      Some(HorizonValueAt(s, i))
    else
      var r := ScanHorizonFrom(s, i + 1);
      assert r.Some? ==> HasDigit(s[i..]) by {
        if r.Some? {
          var k :| 0 <= k < |s[i + 1..]| && IsDigit(s[i + 1..][k]);
          assert s[i..][k + 1] == s[i + 1..][k];
        }
      }
      r
  }

  datatype Goal = Goal(name: string, targetAmount: Option<real>, horizonMonths: Option<nat>)

  const UnspecifiedGoal: string := "未指定"

  /** `_parse_goal`: the stripped sentence with the amount and horizon
      scanned from it; a blank sentence is "unspecified" with neither. */
  function ParseGoal(text: string): (g: Goal)
    ensures AllSpace(text) ==> g == Goal(UnspecifiedGoal, None, None)
    ensures !AllSpace(text) ==> g.name == Trim(text)
    ensures !AllSpace(text) ==> g.targetAmount == ScanAmountFrom(Trim(text), 0)
    ensures !AllSpace(text) ==> g.horizonMonths == ScanHorizonFrom(Trim(text), 0)
    ensures g.targetAmount.None? <==> (AllSpace(text) || !HasDigit(Trim(text)))
    ensures g.horizonMonths.Some? ==> HasDigit(Trim(text))
  {
    var normalized := Trim(text);
    if normalized == "" then Goal(UnspecifiedGoal, None, None)
    else Goal(normalized, ScanAmountFrom(normalized, 0), ScanHorizonFrom(normalized, 0))
  }

  /** A whole number after a sentence start without digits is the amount
      scanned, scaled by the unit written after it (directly or after
      whitespace); with no unit the number is kept as it is. */
  lemma {:induction false} ScanAmountOfWholeNumber(prefix: string, whole: string, gap: string, rest: string)
    requires !HasDigit(prefix)
    requires |whole| > 0 && AllDigits(whole) && AllSpace(gap)
    requires |rest| > 0 ==> !IsSpace(rest[0])
    requires |gap| == 0 && |rest| > 0 ==> !IsDigit(rest[0]) && rest[0] != '.'
    ensures ScanAmountFrom(prefix + whole + gap + rest, 0) == Some(UnitFactor(rest) * DigitsValue(whole) as real)
  {
    var t := whole + gap + rest;
    var s := prefix + t;
    assert s == prefix + whole + gap + rest;
    ScanAmountAfterPrefix(prefix, t);
    WholeNumberAt(s, |prefix|, whole, gap, rest);
  }

  /** A number with a fraction after a sentence start without digits is the
      amount scanned, scaled by the unit written after it (directly or
      after whitespace). */
  lemma {:induction false} ScanAmountOfDecimal(prefix: string, whole: string, frac: string, gap: string, rest: string)
    requires !HasDigit(prefix)
    requires |whole| > 0 && AllDigits(whole) && |frac| > 0 && AllDigits(frac) && AllSpace(gap)
    requires |rest| > 0 ==> !IsSpace(rest[0])
    requires |gap| == 0 && |rest| > 0 ==> !IsDigit(rest[0])
    ensures ScanAmountFrom(prefix + whole + "." + frac + gap + rest, 0) == Some(UnitFactor(rest) * DecimalValue(whole, frac))
  {
    var t := whole + "." + frac + gap + rest;
    var s := prefix + t;
    assert s == prefix + whole + "." + frac + gap + rest;
    ScanAmountAfterPrefix(prefix, t);
    DecimalNumberAt(s, |prefix|, whole, frac, gap, rest);
  }

  /** The amount search skips a digit-free start and reads the number at
      the first digit after it. */
  lemma {:induction false} ScanAmountAfterPrefix(prefix: string, t: string)
    requires !HasDigit(prefix) && |t| > 0 && IsDigit(t[0])
    ensures ScanAmountFrom(prefix + t, 0) == Some(NumberAt(prefix + t, |prefix|))
  {
    var s := prefix + t;
    assert s[..|prefix|] == prefix;
    SkipNonDigits(s, prefix, 0);
    assert s[|prefix|] == t[0];
    ScanAmountAtDigit(s, |prefix|);
  }

  /** Reading a whole number at `i`, followed by whitespace and `rest`. */
  lemma {:induction false} WholeNumberAt(s: string, i: nat, whole: string, gap: string, rest: string)
    requires i <= |s| && s[i..] == whole + gap + rest
    requires |whole| > 0 && AllDigits(whole) && AllSpace(gap)
    requires |rest| > 0 ==> !IsSpace(rest[0])
    requires |gap| == 0 && |rest| > 0 ==> !IsDigit(rest[0]) && rest[0] != '.'
    ensures i < |s| && IsDigit(s[i])
    ensures NumberAt(s, i) == UnitFactor(rest) * DigitsValue(whole) as real
  {
    var j := i + |whole|;
    assert s[i..] == whole + (gap + rest);
    DigitsBeforeGap(s, i, whole, gap, rest);
    assert j < |s| ==> s[j] == (gap + rest)[0];
    WholeOfRuns(s, i, j, whole, gap, rest);
  }

  /** The number read from a measured run of digits `whole` from `i` to `j`
      with no `.` after it, then whitespace and `rest`. */
  lemma {:induction false} WholeOfRuns(s: string, i: nat, j: nat, whole: string, gap: string, rest: string)
    requires i < j <= |s| && IsDigit(s[i]) && DigitRun(s, i) == j - i && s[i..j] == whole
    requires j < |s| ==> s[j] != '.'
    requires s[j..] == gap + rest && AllSpace(gap)
    requires |rest| > 0 ==> !IsSpace(rest[0])
    ensures NumberAt(s, i) == UnitFactor(rest) * DigitsValue(whole) as real
  {
    var d := DigitsValue(whole) as real;
    assert NumberAt(s, i) == WithUnit(d, s, j);
    UnitAfterGap(s, j, gap, rest, d);
  }

  /** Reading a number with a fraction at `i`, followed by whitespace and
      `rest`. */
  lemma {:induction false} DecimalNumberAt(s: string, i: nat, whole: string, frac: string, gap: string, rest: string)
    requires i <= |s| && s[i..] == whole + "." + frac + gap + rest
    requires |whole| > 0 && AllDigits(whole) && |frac| > 0 && AllDigits(frac) && AllSpace(gap)
    requires |rest| > 0 ==> !IsSpace(rest[0])
    requires |gap| == 0 && |rest| > 0 ==> !IsDigit(rest[0])
    ensures i < |s| && IsDigit(s[i])
    ensures NumberAt(s, i) == UnitFactor(rest) * DecimalValue(whole, frac)
  {
    var j := i + |whole|;
    var x := "." + (frac + (gap + rest));
    assert s[i..] == whole + x;
    SliceHead(s, i, whole, x);
    SliceHead(s, j, ".", frac + (gap + rest));
    assert IsDigit(whole[0]);
    DigitRunOfDigits(s, i, whole);
    FractionAfterWhole(s, i, j, whole, frac, gap, rest);
  }

  /** The fraction part of a number whose whole part `whole` runs from `i`
      to the `.` at `j`. */
  lemma {:induction false} FractionAfterWhole(s: string, i: nat, j: nat, whole: string, frac: string, gap: string, rest: string)
    requires j == i + |whole| && |whole| > 0 && j < |s| && s[j..] == "." + (frac + (gap + rest))
    requires IsDigit(s[i]) && DigitRun(s, i) == |whole| && s[i..j] == whole && s[j] == '.'
    requires |frac| > 0 && AllDigits(frac) && AllSpace(gap)
    requires |rest| > 0 ==> !IsSpace(rest[0])
    requires |gap| == 0 && |rest| > 0 ==> !IsDigit(rest[0])
    ensures NumberAt(s, i) == UnitFactor(rest) * DecimalValue(whole, frac)
  {
    SliceHead(s, j, ".", frac + (gap + rest));
    DigitsBeforeGap(s, j + 1, frac, gap, rest);
    DecimalOfRuns(s, i, j, j + 1 + |frac|, whole, frac, gap, rest);
  }

  /** Digits `frac` at `k`, then whitespace and `rest`: the digit run there
      is exactly `frac`. */
  lemma {:induction false} DigitsBeforeGap(s: string, k: nat, frac: string, gap: string, rest: string)
    requires k <= |s| && s[k..] == frac + (gap + rest)
    requires |frac| > 0 && AllDigits(frac) && AllSpace(gap)
    requires |gap| == 0 && |rest| > 0 ==> !IsDigit(rest[0])
    ensures k + |frac| <= |s| && s[k..k + |frac|] == frac && s[k + |frac|..] == gap + rest
    ensures IsDigit(s[k]) && DigitRun(s, k) == |frac|
  {
    var e := k + |frac|;
    SliceHead(s, k, frac, gap + rest);
    assert e < |s| ==> s[e] == (gap + rest)[0];
    assert IsDigit(frac[0]);
    DigitRunOfDigits(s, k, frac);
  }

  /** The number read from runs already measured: digits `whole` up to the
      `.` at `j`, digits `frac` up to `e`, then whitespace and `rest`. */
  lemma {:induction false} DecimalOfRuns(s: string, i: nat, j: nat, e: nat, whole: string, frac: string, gap: string, rest: string)
    requires j == i + |whole| && e == j + 1 + |frac| && |whole| > 0 && |frac| > 0 && e <= |s|
    requires IsDigit(s[i]) && DigitRun(s, i) == |whole|
    requires s[j] == '.' && IsDigit(s[j + 1]) && DigitRun(s, j + 1) == |frac|
    requires s[i..j] == whole && s[j + 1..e] == frac && s[e..] == gap + rest && AllSpace(gap)
    requires |rest| > 0 ==> !IsSpace(rest[0])
    ensures NumberAt(s, i) == UnitFactor(rest) * DecimalValue(whole, frac)
  {
    NumberAtDecimal(s, i, j, e);
    DecimalValueNonnegative(whole, frac);
    UnitAfterGap(s, e, gap, rest, DecimalValue(whole, frac));
  }

  /** Reading a run of digits, a `.` and a second run of digits. */
  lemma {:induction false} NumberAtDecimal(s: string, i: nat, j: nat, e: nat)
    requires i < j && j + 1 < e <= |s| && IsDigit(s[i]) && DigitRun(s, i) == j - i
    requires s[j] == '.' && IsDigit(s[j + 1]) && DigitRun(s, j + 1) == e - j - 1
    ensures AllDigits(s[i..j]) && AllDigits(s[j + 1..e])
    ensures NumberAt(s, i) == WithUnit(DecimalValue(s[i..j], s[j + 1..e]), s, e)
  {
    assert NumberAt(s, i) == FractionAt(s, i, j);
    FractionAtRun(s, i, j, e);
  }

  lemma {:induction false} FractionAtRun(s: string, i: nat, j: nat, e: nat)
    requires i <= j && j + 1 < e <= |s| && AllDigits(s[i..j]) && DigitRun(s, j + 1) == e - j - 1
    ensures AllDigits(s[j + 1..e])
    ensures FractionAt(s, i, j) == WithUnit(DecimalValue(s[i..j], s[j + 1..e]), s, e)
  {
  }

  /** A value read up to `j` and followed by whitespace and then `rest` is
      scaled by the unit at the head of `rest`. */
  lemma {:induction false} UnitAfterGap(s: string, j: nat, gap: string, rest: string, d: real)
    requires j <= |s| && s[j..] == gap + rest && AllSpace(gap) && d >= 0.0
    requires |rest| > 0 ==> !IsSpace(rest[0])
    ensures WithUnit(d, s, j) == UnitFactor(rest) * d
  {
    var k := j + |gap|;
    assert s[j..k] == gap;
    assert s[k..] == rest;
    assert k < |s| ==> s[k] == rest[0];
    SpaceRunOfSpaces(s, j, gap);
  }

  /** At a digit the amount search reads the number there. */
  lemma {:induction false} ScanAmountAtDigit(s: string, i: nat)
    requires i < |s| && IsDigit(s[i])
    ensures ScanAmountFrom(s, i) == Some(NumberAt(s, i))
  {
  }

  /** A whole number followed, after optional whitespace, by 年, 月 or 个月
      is the horizon scanned when no earlier match exists (as with a
      sentence start without digits), years counted as twelve months. */
  lemma {:induction false} ScanHorizonOfNumberWithUnit(prefix: string, digits: string, gap: string, unit: string, rest: string)
    requires forall k :: 0 <= k < |prefix| ==> !HorizonMatchAt(prefix + digits + gap + unit + rest, k)
    requires |digits| > 0 && AllDigits(digits) && AllSpace(gap)
    requires unit == "年" || unit == "月" || unit == "个月"
    ensures ScanHorizonFrom(prefix + digits + gap + unit + rest, 0)
            == Some(if unit == "年" then DigitsValue(digits) * 12 else DigitsValue(digits))
  {
    var t := digits + gap + unit + rest;
    var s := prefix + t;
    assert s == prefix + digits + gap + unit + rest;
    assert s[|prefix|..] == t;
    HorizonAt(s, |prefix|, digits, gap, unit, rest);
    LeftmostHorizon(s, |prefix|);
  }

  /** A match with no match before it is the one the horizon search reports. */
  lemma {:induction false} LeftmostHorizon(s: string, i: nat)
    requires HorizonMatchAt(s, i)
    requires forall k :: 0 <= k < i ==> !HorizonMatchAt(s, k)
    ensures ScanHorizonFrom(s, 0) == Some(HorizonValueAt(s, i))
  {
    var r := ScanHorizonFrom(s, 0);
    var k :| 0 <= k < |s| && HorizonMatchAt(s, k) && r.value == HorizonValueAt(s, k)
             && forall m :: 0 <= m < k ==> !HorizonMatchAt(s, m);
    assert k == i;
  }

  /** Digits at `i` followed by whitespace and a time unit make a match
      there, worth the number in months. */
  lemma {:induction false} HorizonAt(s: string, i: nat, digits: string, gap: string, unit: string, rest: string)
    requires i <= |s| && s[i..] == digits + gap + unit + rest
    requires |digits| > 0 && AllDigits(digits) && AllSpace(gap)
    requires unit == "年" || unit == "月" || unit == "个月"
    ensures HorizonMatchAt(s, i)
    ensures HorizonValueAt(s, i) == if unit == "年" then DigitsValue(digits) * 12 else DigitsValue(digits)
  {
    var j := i + |digits|;
    assert s[i..] == digits + (gap + (unit + rest));
    assert IsDigit(unit[0]) == false;
    DigitsBeforeGap(s, i, digits, gap, unit + rest);
    GapBeforeUnit(s, j, gap, unit, rest);
    HorizonMatchOfRuns(s, i, j, j + |gap|);
    assert s[i..j] == digits;
  }

  /** Whitespace `gap` at `j` followed by a time unit: the whitespace run
      ends at the unit. */
  lemma {:induction false} GapBeforeUnit(s: string, j: nat, gap: string, unit: string, rest: string)
    requires j <= |s| && s[j..] == gap + (unit + rest) && AllSpace(gap)
    requires unit == "年" || unit == "月" || unit == "个月"
    ensures j + |gap| < |s| && SpaceRun(s, j) == |gap| && IsHorizonUnitAt(s, j + |gap|)
    ensures s[j + |gap|] == '年' <==> unit == "年"
  {
    var u := j + |gap|;
    SliceHead(s, j, gap, unit + rest);
    TimeUnitAt(s, u, unit, rest);
    SpaceRunOfSpaces(s, j, gap);
  }

  /** Splitting the tail of `s` at `i` into `a` and `b`. */
  lemma {:induction false} SliceHead(s: string, i: nat, a: string, b: string)
    requires i <= |s| && s[i..] == a + b
    ensures i + |a| <= |s| && s[i..i + |a|] == a && s[i + |a|..] == b
    ensures |a| > 0 ==> s[i] == a[0]
  {
    assert s[i..i + |a|] == s[i..][..|a|];
    assert s[i + |a|..] == s[i..][|a|..];
  }

  /** A time unit at `u`: neither a digit nor whitespace, and 年 exactly
      when the unit is years. */
  lemma {:induction false} TimeUnitAt(s: string, u: nat, unit: string, rest: string)
    requires u <= |s| && s[u..] == unit + rest
    requires unit == "年" || unit == "月" || unit == "个月"
    ensures u < |s| && IsHorizonUnitAt(s, u) && !IsDigit(s[u]) && !IsSpace(s[u])
    ensures s[u] == '年' <==> unit == "年"
  {
    assert s[u] == s[u..][0] == unit[0];
    if unit == "个月" {
      assert s[u + 1] == s[u..][1] == '月';
    }
  }

  /** A run of digits from `i` to `j` and whitespace from `j` to a time unit
      at `u` make a match at `i`. */
  lemma {:induction false} HorizonMatchOfRuns(s: string, i: nat, j: nat, u: nat)
    requires i < j <= u <= |s| && IsDigit(s[i]) && DigitRun(s, i) == j - i && SpaceRun(s, j) == u - j
    requires IsHorizonUnitAt(s, u)
    ensures HorizonMatchAt(s, i)
    ensures HorizonValueAt(s, i) == if s[u] == '年' then DigitsValue(s[i..j]) * 12 else DigitsValue(s[i..j])
  {
    assert HorizonUnitPos(s, i) == u;
  }

  /** `"3万 2年"` aims at thirty thousand over twenty-four months: the 3 has
      no time unit after it, so the horizon is read from the 2. */
  lemma GoalWithAmountAndYears()
    ensures ParseGoal("3万 2年") == Goal("3万 2年", Some(30000.0), Some(24))
  {
    var s := "3万 2年";
    TrimOfTrimmed(s);
    assert ParseGoal(s) == Goal(s, ScanAmountFrom(s, 0), ScanHorizonFrom(s, 0));
    AmountBeforeWan(s);
    HorizonSkipsAmount();
  }

  lemma AmountBeforeWan(s: string)
    requires s == "3万 2年"
    ensures ScanAmountFrom(s, 0) == Some(30000.0)
  {
    assert s == "" + "3" + "" + "万 2年";
    ScanAmountOfWholeNumber("", "3", "", "万 2年");
    assert DigitsValue("3") == 3;
  }

  lemma HorizonSkipsAmount()
    ensures ScanHorizonFrom("3万 2年", 0) == Some(24)
  {
    var s := "3万 2年";
    var prefix := "3万 ";
    assert s == prefix + "2" + "" + "年" + "";
    NoHorizonInAmount();
    ScanHorizonOfNumberWithUnit(prefix, "2", "", "年", "");
    TwoYears();
  }

  lemma TwoYears()
    ensures DigitsValue("2") * 12 == 24
  {
    assert DigitsValue("2") == 2;
  }

  lemma NoHorizonInAmount()
    ensures forall k :: 0 <= k < 3 ==> !HorizonMatchAt("3万 2年", k)
  {
    var s := "3万 2年";
    assert DigitRun(s, 1) == 0;
    assert DigitRun(s, 0) == 1;
    assert SpaceRun(s, 1) == 0;
  }

  /** A sentence without 年 or 月 has no horizon. */
  lemma {:induction false} NoHorizonWithoutTimeUnit(s: string)
    requires '年' !in s && '月' !in s
    ensures ScanHorizonFrom(s, 0) == None
  {
    forall k | 0 <= k < |s|
      ensures !HorizonMatchAt(s, k)
    {
      var u := HorizonUnitPos(s, k);
      if u < |s| {
        assert s[u] != '年' && s[u] != '月';
      }
      if u + 1 < |s| {
        assert s[u + 1] != '月';
      }
    }
  }

  /** `"1.5万"` aims at fifteen thousand, with no horizon. */
  lemma GoalWithDecimalAmount()
    ensures ParseGoal("1.5万") == Goal("1.5万", Some(15000.0), None)
  {
    var s := "1.5万";
    TrimOfTrimmed(s);
    assert ParseGoal(s) == Goal(s, ScanAmountFrom(s, 0), ScanHorizonFrom(s, 0));
    DecimalBeforeWan(s);
    NoHorizonInDecimal();
  }

  lemma DecimalBeforeWan(s: string)
    requires s == "1.5万"
    ensures ScanAmountFrom(s, 0) == Some(15000.0)
  {
    assert s == "" + "1" + "." + "5" + "" + "万";
    ScanAmountOfDecimal("", "1", "5", "", "万");
    OneAndAHalf();
  }

  lemma NoHorizonInDecimal()
    ensures ScanHorizonFrom("1.5万", 0) == None
  {
    var s := "1.5万";
    assert |s| == 4 && s[0] == '1' && s[1] == '.' && s[2] == '5' && s[3] == '万';
    NoHorizonWithoutTimeUnit(s);
  }

  lemma OneAndAHalf()
    ensures DecimalValue("1", "5") == 1.5
  {
    assert DigitsValue("1") == 1;
    assert DigitsValue("5") == 5;
    assert Pow10(1) == 10;
    assert 5.0 / 10.0 == 0.5;
  }

  lemma {:induction false} SkipNonDigits(s: string, prefix: string, i: nat)
    requires i <= |prefix| <= |s| && s[..|prefix|] == prefix && !HasDigit(prefix)
    ensures ScanAmountFrom(s, i) == ScanAmountFrom(s, |prefix|)
    decreases |prefix| - i
  {
    if i < |prefix| {
      assert s[i] == prefix[i];
      assert !IsDigit(prefix[i]);
      SkipNonDigits(s, prefix, i + 1);
    }
  }

  lemma {:induction false} DigitRunOfDigits(s: string, i: nat, digits: string)
    requires i + |digits| <= |s| && s[i..i + |digits|] == digits && AllDigits(digits)
    requires i + |digits| < |s| ==> !IsDigit(s[i + |digits|])
    ensures DigitRun(s, i) == |digits|
    decreases |digits|
  {
    if |digits| > 0 {
      assert s[i] == digits[0];
      assert s[i + 1..i + 1 + |digits[1..]|] == digits[1..];
      DigitRunOfDigits(s, i + 1, digits[1..]);
    }
  }

  lemma {:induction false} SpaceRunOfSpaces(s: string, i: nat, gap: string)
    requires i + |gap| <= |s| && s[i..i + |gap|] == gap && AllSpace(gap)
    requires i + |gap| < |s| ==> !IsSpace(s[i + |gap|])
    ensures SpaceRun(s, i) == |gap|
    decreases |gap|
  {
    if |gap| > 0 {
      assert s[i] == gap[0];
      assert s[i + 1..i + 1 + |gap[1..]|] == gap[1..];
      SpaceRunOfSpaces(s, i + 1, gap[1..]);
    }
  }

  // ---------------------------------------------------------------------
  // The plan
  // ---------------------------------------------------------------------

  /** Python's `math.ceil` on a real. */
  function Ceil(x: real): (c: int)
    ensures c as real - 1.0 < x <= c as real
  {
    -((-x).Floor)
  }

  /** The monthly savings hint of `_build_recommendation_summary`: shown
      when there is a non-zero target and a positive horizon, as the target
      per month rounded up. */
  function MonthlySavings(target: Option<real>, horizon: Option<nat>): (r: Option<int>)
    ensures r.Some? <==> target.Some? && target.value != 0.0 && horizon.Some? && horizon.value > 0
    ensures r.Some? ==> (r.value - 1) as real * horizon.value as real < target.value
    ensures r.Some? ==> target.value <= r.value as real * horizon.value as real
  {
    if target.Some? && target.value != 0.0 && horizon.Some? && horizon.value > 0 then
      var h := horizon.value as real;
      var c := Ceil(target.value / h);
      MultiplyBounds(c, target.value, h);
      Some(c)
    else None
  }

  lemma MultiplyBounds(c: int, t: real, h: real)
    requires h > 0.0 && c as real - 1.0 < t / h <= c as real
    ensures (c - 1) as real * h < t && t <= c as real * h
  {
    assert t == (t / h) * h;
    MulLess((c - 1) as real, t / h, h);
    MulLessEq(t / h, c as real, h);
  }

  lemma MulLess(a: real, b: real, h: real)
    requires a < b && h > 0.0
    ensures a * h < b * h
  {
    assert b * h - a * h == (b - a) * h;
  }

  lemma MulLessEq(a: real, b: real, h: real)
    requires a <= b && h > 0.0
    ensures a * h <= b * h
  {
    assert b * h - a * h == (b - a) * h;
  }

  /** The summary's content: the level, its allocation, the goal and the
      savings hint (the sentence wording is not modelled). */
  datatype Summary = Summary(riskLevel: string, allocation: seq<Weight>, goalName: string, monthlySavings: Option<int>)

  /** `generate`: the plan for a questionnaire and a goal sentence. */
  datatype Plan = Plan(summary: Summary, metrics: Metrics, allocation: seq<Weight>, riskLevel: string)

  function Generate(answers: seq<int>, goalText: string): (p: Plan)
    ensures IsRiskLabel(p.riskLevel)
    ensures p.riskLevel == p.summary.riskLevel == RiskLabelForScore(Sum(answers))
    ensures p.allocation == p.summary.allocation == AllocationTable(p.riskLevel)
    ensures TotalShare(p.allocation) == 1.0
    ensures p.metrics == EstimateMetrics(p.riskLevel)
    ensures p.summary.goalName == ParseGoal(goalText).name
    ensures p.summary.monthlySavings
            == MonthlySavings(ParseGoal(goalText).targetAmount, ParseGoal(goalText).horizonMonths)
  {
    var level := ConductRiskAssessment(answers);
    var allocation := GenerateAllocation(level);
    var goal := ParseGoal(goalText);
    var summary := Summary(level, allocation, goal.name, MonthlySavings(goal.targetAmount, goal.horizonMonths));
    Plan(summary, EstimateMetrics(level), allocation, level)
  }
}

=== FILE: seqs.dfy ===
/** Sequences of optional values: keeping the present ones, and requiring
    all of them. */
module Sequences {
  import opened Wrappers

  /** The present values, in order. */
  function Present<T>(os: seq<Option<T>>): (r: seq<T>)
    ensures |r| <= |os|
    ensures (forall k :: 0 <= k < |os| ==> os[k].None?) ==> r == []
  {
    if |os| == 0 then []
    else (if os[0].Some? then [os[0].value] else []) + Present(os[1..])
  }

  lemma PresentCons<T>(os: seq<Option<T>>)
    requires |os| > 0
    ensures os[0].Some? ==> Present(os) == [os[0].value] + Present(os[1..])
    ensures os[0].None? ==> Present(os) == Present(os[1..])
  {
  }

  /** Nothing is kept exactly when every value is missing. */
  lemma {:induction false} PresentEmptyIffNone<T>(os: seq<Option<T>>)
    ensures Present(os) == [] <==> forall k :: 0 <= k < |os| ==> os[k].None?
    decreases |os|
  {
    if |os| > 0 {
      PresentCons(os);
      PresentEmptyIffNone(os[1..]);
      assert forall k :: 1 <= k < |os| ==> os[k] == os[1..][k - 1];
    }
  }

  /** Every present value is kept. */
  lemma {:induction false} PresentKeeps<T>(os: seq<Option<T>>, k: nat)
    requires k < |os| && os[k].Some?
    ensures os[k].value in Present(os)
    decreases k
  {
    PresentCons(os);
    if k > 0 {
      PresentKeeps(os[1..], k - 1);
      assert os[1..][k - 1] == os[k];
    }
  }

  /** The kept values are exactly the present ones. */
  lemma {:induction false} PresentMembers<T>(os: seq<Option<T>>)
    ensures forall k :: 0 <= k < |os| && os[k].Some? ==> os[k].value in Present(os)
    ensures forall x :: x in Present(os) ==> exists k :: 0 <= k < |os| && os[k] == Some(x)
  {
    forall k | 0 <= k < |os| && os[k].Some?
      ensures os[k].value in Present(os)
    {
      PresentKeeps(os, k);
    }
    var at := PresentOrigins(os);
    forall x | x in Present(os)
      ensures exists k :: 0 <= k < |os| && os[k] == Some(x)
    {
      var j :| 0 <= j < |Present(os)| && Present(os)[j] == x;
      assert os[at[j]] == Some(x);
    }
  }

  /** Every present value has the property `good`. */
  predicate AllPresent<T>(os: seq<Option<T>>, good: T -> bool) {
    forall k :: 0 <= k < |os| && os[k].Some? ==> good(os[k].value)
  }

  /** What holds of every present value holds of every kept one. */
  lemma {:induction false} PresentAll<T>(os: seq<Option<T>>, good: T -> bool)
    requires AllPresent(os, good)
    ensures forall k :: 0 <= k < |Present(os)| ==> good(Present(os)[k])
    decreases |os|
  {
    if |os| > 0 {
      PresentCons(os);
      PresentAll(os[1..], good);
      var rest := Present(os[1..]);
      if os[0].Some? {
        assert forall k :: 1 <= k < |Present(os)| ==> Present(os)[k] == rest[k - 1];
      }
    }
  }

  /** Every position moved one place on. */
  function Shift(at: seq<nat>): (r: seq<nat>)
    ensures |r| == |at| && forall k :: 0 <= k < |at| ==> r[k] == at[k] + 1
  {
    seq(|at|, k requires 0 <= k < |at| => at[k] + 1)
  }

  /** `at` lists, for each of `kept`, a position of `os` holding it, in
      strictly increasing order. */
  ghost predicate Origins<T>(os: seq<Option<T>>, kept: seq<T>, at: seq<nat>) {
    && |at| == |kept|
    && (forall k :: 0 <= k < |at| ==> at[k] < |os| && os[at[k]] == Some(kept[k]))
    && (forall j, k :: 0 <= j < k < |at| ==> at[j] < at[k])
  }

  /** Positions in the tail are positions in the whole one place on. */
  lemma OriginsShift<T>(os: seq<Option<T>>, kept: seq<T>, at: seq<nat>)
    requires |os| > 0 && Origins(os[1..], kept, at)
    ensures Origins(os, kept, Shift(at))
  {
    var shifted := Shift(at);
    forall k | 0 <= k < |shifted|
      ensures shifted[k] < |os| && os[shifted[k]] == Some(kept[k])
    {
      assert os[1..][at[k]] == Some(kept[k]);
    }
  }

  /** A present head goes in front, at position 0. */
  lemma OriginsHead<T>(os: seq<Option<T>>, kept: seq<T>, at: seq<nat>)
    requires |os| > 0 && os[0].Some? && Origins(os, kept, at)
    requires forall k :: 0 <= k < |at| ==> at[k] > 0
    ensures Origins(os, [os[0].value] + kept, [0] + at)
  {
    var all := [0] + at;
    var values := [os[0].value] + kept;
    forall k | 1 <= k < |all|
      ensures all[k] == at[k - 1] && values[k] == kept[k - 1]
    {
    }
  }

  /** Where each kept value comes from: strictly increasing positions
      holding exactly the kept values. */
  lemma {:induction false} PresentOrigins<T>(os: seq<Option<T>>) returns (at: seq<nat>)
    ensures Origins(os, Present(os), at)
    decreases |os|
  {
    if |os| == 0 {
      at := [];
    } else {
      PresentCons(os);
      var rest := PresentOrigins(os[1..]);
      var shifted := Shift(rest);
      OriginsShift(os, Present(os[1..]), rest);
      if os[0].Some? {
        OriginsHead(os, Present(os[1..]), shifted);
        at := [0] + shifted;
      } else {
        at := shifted;
      }
    }
  }

  /** Every value when all are present, in order; nothing as soon as one
      is missing. */
  function AllOf<T>(os: seq<Option<T>>): (r: Option<seq<T>>)
  {
    if |os| == 0 then Some([])
    else
      match os[0]
      case None => None
      case Some(t) =>
        match AllOf(os[1..])
        case None => None
        case Some(ts) => Some([t] + ts)
  }

  /** `AllOf` succeeds exactly when every value is present, and then lists
      them in order. */
  lemma {:induction false} AllOfSucceedsIffEveryValue<T>(os: seq<Option<T>>)
    ensures AllOf(os).Some? <==> forall k :: 0 <= k < |os| ==> os[k].Some?
    ensures AllOf(os).Some? ==> |AllOf(os).value| == |os|
    ensures AllOf(os).Some? ==> forall k :: 0 <= k < |os| ==> os[k] == Some(AllOf(os).value[k])
    decreases |os|
  {
    if |os| > 0 {
      AllOfSucceedsIffEveryValue(os[1..]);
      assert forall k :: 1 <= k < |os| ==> os[1..][k - 1] == os[k];
    }
  }

  /** When every value is present, all of them are kept. */
  lemma AllOfIsPresent<T>(os: seq<Option<T>>)
    requires AllOf(os).Some?
    ensures Present(os) == AllOf(os).value
    decreases |os|
  {
    if |os| > 0 {
      AllOfIsPresent(os[1..]);
    }
  }
}

=== FILE: session.dfy ===
/** The anomaly workflow's part of the Streamlit session, as an explicit
    record: the active flags, the feedback history, the detector's message
    and the trusted-merchant whitelist. Every session helper is a function
    from one state to the next. */
module Session {
  import opened Wrappers
  import opened Text
  import opened Analysis

  datatype SessionState = SessionState(
    anomalyFlags: seq<AnomalyItem>,
    anomalyHistory: seq<AnomalyItem>,
    anomalyMessage: string,
    trustedMerchants: seq<string>)

  /** The defaults `init_session_state` installs for these four keys. */
  function InitialState(): (s: SessionState)
    ensures s.anomalyFlags == [] && s.anomalyHistory == []
    ensures s.anomalyMessage == "" && s.trustedMerchants == []
  {
    SessionState([], [], "", [])
  }

  // ---------------------------------------------------------------------
  // Generic sequence helpers
  // ---------------------------------------------------------------------

  /** `a` can be obtained from `b` by deleting elements. */
  predicate Subsequence<T(==)>(a: seq<T>, b: seq<T>)
    decreases |b|
  {
    |a| == 0 || (|b| > 0 && ((a[0] == b[0] && Subsequence(a[1..], b[1..])) || Subsequence(a, b[1..])))
  }

  lemma {:induction false} SubsequenceSelf<T>(a: seq<T>)
    ensures Subsequence(a, a)
    decreases |a|
  {
    if |a| > 0 {
      SubsequenceSelf(a[1..]);
    }
  }

  predicate NoDuplicates<T(==)>(xs: seq<T>) {
    forall i, j :: 0 <= i < j < |xs| ==> xs[i] != xs[j]
  }

  /** The transaction ids of a list of records, in order. */
  function Ids(items: seq<AnomalyItem>): (r: seq<string>)
    ensures |r| == |items|
    ensures forall i :: 0 <= i < |items| ==> r[i] == items[i].transactionId
  {
    if |items| == 0 then [] else [items[0].transactionId] + Ids(items[1..])
  }

  // ---------------------------------------------------------------------
  // Reading and writing the anomaly keys
  // ---------------------------------------------------------------------

  /** `get_active_anomalies`: a copy of the stored flags. */
  function ActiveAnomalies(s: SessionState): (r: seq<AnomalyItem>)
    ensures r == s.anomalyFlags
  {
    s.anomalyFlags
  }

  /** `get_anomaly_history`: a copy of the stored feedback records. */
  function AnomalyHistory(s: SessionState): (r: seq<AnomalyItem>)
    ensures r == s.anomalyHistory
  {
    s.anomalyHistory
  }

  /** `update_anomaly_state`: each argument that is present replaces its
      key; the others, and the whitelist, are left as they were. */
  function UpdateAnomalyState(s: SessionState, active: Option<seq<AnomalyItem>>,
                              history: Option<seq<AnomalyItem>>, message: Option<string>): (r: SessionState)
    ensures r.trustedMerchants == s.trustedMerchants
    ensures r.anomalyFlags == active.GetOr(s.anomalyFlags)
    ensures r.anomalyHistory == history.GetOr(s.anomalyHistory)
    ensures r.anomalyMessage == message.GetOr(s.anomalyMessage)
  {
    SessionState(
      if active.Some? then active.value else s.anomalyFlags,
      if history.Some? then history.value else s.anomalyHistory,
      if message.Some? then message.value else s.anomalyMessage,
      s.trustedMerchants)
  }

  /** An update that mentions nothing changes nothing. */
  lemma UpdateNothingIsIdentity(s: SessionState)
    ensures UpdateAnomalyState(s, None, None, None) == s
  {
  }

  /** Two updates in a row act as one in which the second update's present
      arguments win. */
  lemma UpdateTwice(s: SessionState, a1: Option<seq<AnomalyItem>>, h1: Option<seq<AnomalyItem>>, m1: Option<string>,
                    a2: Option<seq<AnomalyItem>>, h2: Option<seq<AnomalyItem>>, m2: Option<string>)
    ensures UpdateAnomalyState(UpdateAnomalyState(s, a1, h1, m1), a2, h2, m2)
      == UpdateAnomalyState(s, if a2.Some? then a2 else a1, if h2.Some? then h2 else h1, if m2.Some? then m2 else m1)
  {
  }

  // ---------------------------------------------------------------------
  // Feedback history
  // ---------------------------------------------------------------------

  /** The dictionary `{item["transaction_id"]: item for item in history}`:
      built front to back, so a later record for an id replaces an earlier one. */
  function HistoryMap(history: seq<AnomalyItem>): (m: map<string, AnomalyItem>)
    ensures forall id :: id in m <==> id in Ids(history)
  {
    if |history| == 0 then map[]
    else
      var init := history[..|history| - 1];
      var last := history[|history| - 1];
      assert Ids(history) == Ids(init) + [last.transactionId] by {
        assert forall i :: 0 <= i < |init| ==> Ids(history)[i] == Ids(init)[i];
      }
      HistoryMap(init)[last.transactionId := last]
  }

  /** `history[i]` is the last record carrying `id`. */
  predicate IsLastRecord(history: seq<AnomalyItem>, i: int, id: string) {
    && 0 <= i < |history| && history[i].transactionId == id
    && forall j :: i < j < |history| ==> history[j].transactionId != id
  }

  /** When the history holds several records for one id, the lookup sees
      the last of them. */
  lemma {:induction false} HistoryMapIsLastRecord(history: seq<AnomalyItem>, id: string)
    requires id in HistoryMap(history)
    ensures exists i :: IsLastRecord(history, i, id) && HistoryMap(history)[id] == history[i]
  {
    var n := |history|;
    var init := history[..n - 1];
    var last := history[n - 1];
    assert history == init + [last];
    HistoryMapSnoc(init, last);
    if last.transactionId == id {
      assert IsLastRecord(history, n - 1, id);
    } else {
      assert id in HistoryMap(init);
      HistoryMapIsLastRecord(init, id);
      var i :| IsLastRecord(init, i, id) && HistoryMap(init)[id] == init[i];
      assert history[i] == init[i];
      forall j | i < j < n
        ensures history[j].transactionId != id
      {
        if j < n - 1 {
          assert history[j] == init[j];
        }
      }
      assert IsLastRecord(history, i, id);
    }
  }

  /** The records whose id is not `id`, in their original order. */
  function WithoutId(history: seq<AnomalyItem>, id: string): (r: seq<AnomalyItem>)
    ensures forall x :: x in r <==> x in history && x.transactionId != id
    ensures Subsequence(r, history)
  {
    if |history| == 0 then []
    else
      var rest := WithoutId(history[1..], id);
      assert forall x :: x in history <==> x == history[0] || x in history[1..];
      if history[0].transactionId != id then [history[0]] + rest else rest
  }

  /** `record_anomaly_feedback`: every earlier record for the anomaly's id
      is dropped and the anomaly, relabelled with `status`, is appended. */
  function RecordFeedback(s: SessionState, anomaly: AnomalyItem, status: string): (r: SessionState)
    ensures r.anomalyFlags == s.anomalyFlags && r.anomalyMessage == s.anomalyMessage
    ensures r.trustedMerchants == s.trustedMerchants
    ensures |r.anomalyHistory| > 0
    ensures r.anomalyHistory[|r.anomalyHistory| - 1] == anomaly.(status := status)
    ensures forall i :: 0 <= i < |r.anomalyHistory| - 1 ==>
      r.anomalyHistory[i].transactionId != anomaly.transactionId
    ensures Subsequence(r.anomalyHistory[..|r.anomalyHistory| - 1], s.anomalyHistory)
    ensures forall x :: x in s.anomalyHistory && x.transactionId != anomaly.transactionId ==>
      x in r.anomalyHistory
  {
    var existing := WithoutId(s.anomalyHistory, anomaly.transactionId);
    var h := existing + [anomaly.(status := status)];
    assert h[..|h| - 1] == existing;
    assert forall i :: 0 <= i < |existing| ==> existing[i] in existing;
    UpdateAnomalyState(s, None, Some(h), None)
  }

  /** After feedback, looking the anomaly's id up finds the new record, and
      every other id finds what it found before. */
  lemma FeedbackLastWriteWins(s: SessionState, anomaly: AnomalyItem, status: string, other: string)
    requires other != anomaly.transactionId
    ensures var m := HistoryMap(RecordFeedback(s, anomaly, status).anomalyHistory);
            && anomaly.transactionId in m && m[anomaly.transactionId] == anomaly.(status := status)
            && (other in m <==> other in HistoryMap(s.anomalyHistory))
            && (other in m ==> m[other] == HistoryMap(s.anomalyHistory)[other])
  {
    var h := s.anomalyHistory;
    var h' := RecordFeedback(s, anomaly, status).anomalyHistory;
    var existing := WithoutId(h, anomaly.transactionId);
    assert h'[..|h'| - 1] == existing;
    HistoryMapOfFiltered(h, anomaly.transactionId, other);
  }

  /** Removing the records of one id does not change any other id's lookup. */
  lemma {:induction false} HistoryMapOfFiltered(history: seq<AnomalyItem>, id: string, other: string)
    requires other != id
    ensures (other in HistoryMap(WithoutId(history, id))) <==> (other in HistoryMap(history))
    ensures other in HistoryMap(history) ==> HistoryMap(WithoutId(history, id))[other] == HistoryMap(history)[other]
    decreases |history|
  {
    if |history| > 0 {
      var init := history[..|history| - 1];
      var last := history[|history| - 1];
      assert history == init + [last];
      HistoryMapOfFiltered(init, id, other);
      HistoryMapSnocAt(init, last, other);
      WithoutIdSnoc(init, last, id);
      var filtered := WithoutId(init, id);
      if last.transactionId != id {
        assert WithoutId(history, id) == filtered + [last];
        HistoryMapSnocAt(filtered, last, other);
      } else {
        assert WithoutId(history, id) == filtered;
      }
    }
  }

  /** One more record changes only the lookup of its own id. */
  lemma HistoryMapSnocAt(history: seq<AnomalyItem>, last: AnomalyItem, key: string)
    ensures key in HistoryMap(history + [last]) <==> key == last.transactionId || key in HistoryMap(history)
    ensures key in HistoryMap(history + [last]) ==>
      HistoryMap(history + [last])[key] == if key == last.transactionId then last else HistoryMap(history)[key]
  {
    HistoryMapSnoc(history, last);
  }

  lemma HistoryMapSnoc(history: seq<AnomalyItem>, last: AnomalyItem)
    ensures HistoryMap(history + [last]) == HistoryMap(history)[last.transactionId := last]
  {
    assert (history + [last])[..|history|] == history;
  }

  lemma {:induction false} WithoutIdSnoc(init: seq<AnomalyItem>, last: AnomalyItem, id: string)
    ensures WithoutId(init + [last], id)
      == WithoutId(init, id) + (if last.transactionId != id then [last] else [])
    decreases |init|
  {
    if |init| == 0 {
      assert init + [last] == [last];
    } else {
      assert (init + [last])[1..] == init[1..] + [last];
      WithoutIdSnoc(init[1..], last, id);
    }
  }

  // ---------------------------------------------------------------------
  // Reconciliation
  // ---------------------------------------------------------------------

  /** The user resolved this id as their own spending or as fraud. */
  predicate Resolved(hm: map<string, AnomalyItem>, id: string) {
    id in hm && (hm[id].status == StatusConfirmed || hm[id].status == StatusFraud)
  }

  /** A report item as it is shown again: with the status of its feedback
      record, when it has one. */
  function Overlay(item: AnomalyItem, hm: map<string, AnomalyItem>): (a: AnomalyItem)
    ensures a.transactionId == item.transactionId
    ensures a == item.(status := a.status)
    ensures item.transactionId !in hm ==> a == item
  {
    if item.transactionId in hm then item.(status := hm[item.transactionId].status) else item
  }

  /** Every report item relabelled from its feedback, in report order. */
  function Overlays(items: seq<AnomalyItem>, hm: map<string, AnomalyItem>): (r: seq<AnomalyItem>)
    ensures |r| == |items|
    ensures forall i :: 0 <= i < |items| ==> r[i] == Overlay(items[i], hm)
  {
    seq(|items|, i requires 0 <= i < |items| => Overlay(items[i], hm))
  }

  /** How many of the items have a resolved id. */
  function ResolvedCount(items: seq<AnomalyItem>, hm: map<string, AnomalyItem>): (n: nat)
    ensures n <= |items|
  {
    if |items| == 0 then 0
    else (if Resolved(hm, items[0].transactionId) then 1 else 0) + ResolvedCount(items[1..], hm)
  }

  /** The reconciliation loop of `sync_anomaly_state`. The result is a
      subsequence of the relabelled report items, all unresolved, and as
      long as the number of unresolved items: so it is exactly the
      unresolved ones, in report order. */
  function ReconcileItems(items: seq<AnomalyItem>, hm: map<string, AnomalyItem>): (r: seq<AnomalyItem>)
    ensures |r| == |items| - ResolvedCount(items, hm)
    ensures forall a :: a in r ==> !Resolved(hm, a.transactionId)
    ensures forall a :: a in r ==> exists x :: x in items && a == Overlay(x, hm)
    ensures forall x :: x in items && !Resolved(hm, x.transactionId) ==> Overlay(x, hm) in r
    ensures Subsequence(r, Overlays(items, hm))
    ensures Subsequence(Ids(r), Ids(items))
  {
    if |items| == 0 then []
    else
      var x := items[0];
      var rest := ReconcileItems(items[1..], hm);
      assert forall y :: y in items <==> y == x || y in items[1..];
      OverlaysTail(items, hm);
      assert Ids(items)[1..] == Ids(items[1..]);
      if Resolved(hm, x.transactionId) then
        SubsequenceDropHead(Ids(rest), Ids(items));
        SubsequenceDropHead(rest, Overlays(items, hm));
        rest
      else
        var r := [Overlay(x, hm)] + rest;
        SubsequenceKeepHead(rest, Overlays(items, hm));
        assert Ids(r)[1..] == Ids(rest);
        r
  }

  lemma OverlaysTail(items: seq<AnomalyItem>, hm: map<string, AnomalyItem>)
    requires |items| > 0
    ensures Overlays(items, hm)[1..] == Overlays(items[1..], hm)
    ensures Overlays(items, hm)[0] == Overlay(items[0], hm)
  {
  }

  lemma SubsequenceKeepHead<T>(a: seq<T>, b: seq<T>)
    requires |b| > 0 && Subsequence(a, b[1..])
    ensures Subsequence([b[0]] + a, b)
  {
    assert ([b[0]] + a)[1..] == a;
  }

  lemma SubsequenceDropHead<T>(a: seq<T>, b: seq<T>)
    requires |b| > 0 && Subsequence(a, b[1..])
    ensures Subsequence(a, b)
  {
  }

  /** `sync_anomaly_state`: the report's items minus those resolved as
      confirmed or fraud, the rest relabelled from their feedback, stored as
      the active flags together with the report's message. */
  function SyncAnomalyState(s: SessionState, report: Report): (r: (SessionState, seq<AnomalyItem>))
    ensures r.0.anomalyFlags == r.1
    ensures r.0.anomalyHistory == s.anomalyHistory
    ensures r.0.trustedMerchants == s.trustedMerchants
    ensures r.0.anomalyMessage == report.message.GetOr(s.anomalyMessage)
    ensures forall a :: a in r.1 ==> !Resolved(HistoryMap(s.anomalyHistory), a.transactionId)
    ensures |r.1| == |report.items| - ResolvedCount(report.items, HistoryMap(s.anomalyHistory))
    ensures Subsequence(r.1, Overlays(report.items, HistoryMap(s.anomalyHistory)))
    ensures Subsequence(Ids(r.1), Ids(report.items))
  {
    var active := ReconcileItems(report.items, HistoryMap(s.anomalyHistory));
    (UpdateAnomalyState(s, Some(active), None, report.message), active)
  }

  /** Which report items come back, and with which status: an item returns
      exactly when its id is not resolved, carrying its feedback's status. */
  lemma SyncKeepsExactlyUnresolved(s: SessionState, report: Report, x: AnomalyItem)
    requires x in report.items
    ensures var hm := HistoryMap(s.anomalyHistory);
            Overlay(x, hm) in SyncAnomalyState(s, report).1 <==> !Resolved(hm, x.transactionId)
  {
  }

  /** Items without a feedback record come back unchanged; items with one
      take its status. */
  lemma SyncRelabels(s: SessionState, report: Report, a: AnomalyItem)
    requires a in SyncAnomalyState(s, report).1
    ensures var hm := HistoryMap(s.anomalyHistory);
            exists x :: x in report.items && x.transactionId == a.transactionId
              && (a.transactionId !in hm ==> a == x)
              && (a.transactionId in hm ==> a == x.(status := hm[a.transactionId].status))
  {
    var hm := HistoryMap(s.anomalyHistory);
    assert a in ReconcileItems(report.items, hm);
    var x :| x in report.items && a == Overlay(x, hm);
    assert x.transactionId == a.transactionId;
    if x.transactionId in hm {
      assert a == x.(status := hm[x.transactionId].status);
    }
  }

  /** Syncing the same report again changes nothing: the history a sync
      reads is one it never writes. */
  lemma SyncTwice(s: SessionState, report: Report)
    ensures var (s1, a1) := SyncAnomalyState(s, report);
            SyncAnomalyState(s1, report) == (s1, a1)
  {
  }

  /** Once an anomaly is resolved as confirmed or fraud, no later report
      brings it back. */
  lemma ResolvedNeverReturns(s: SessionState, anomaly: AnomalyItem, status: string, report: Report)
    requires status == StatusConfirmed || status == StatusFraud
    ensures var s1 := RecordFeedback(s, anomaly, status);
            forall a :: a in SyncAnomalyState(s1, report).1 ==> a.transactionId != anomaly.transactionId
  {
    var s1 := RecordFeedback(s, anomaly, status);
    var other := if anomaly.transactionId == "" then "x" else "";
    FeedbackLastWriteWins(s, anomaly, status, other);
  }

  /** Feedback with any other label keeps the anomaly visible under that
      label in every later report that flags it. */
  lemma OtherFeedbackRelabels(s: SessionState, anomaly: AnomalyItem, status: string, report: Report, x: AnomalyItem)
    requires status != StatusConfirmed && status != StatusFraud
    requires x in report.items && x.transactionId == anomaly.transactionId
    ensures var s1 := RecordFeedback(s, anomaly, status);
            x.(status := status) in SyncAnomalyState(s1, report).1
  {
    var other := if anomaly.transactionId == "" then "x" else "";
    FeedbackLastWriteWins(s, anomaly, status, other);
  }

  // ---------------------------------------------------------------------
  // Trusted merchants
  // ---------------------------------------------------------------------

  /** `m.strip() for m in merchants if m`: empty entries are dropped before
      stripping, so a whitespace-only entry becomes "". */
  function StrippedEntries(merchants: seq<string>): (r: seq<string>)
    ensures forall x :: x in r <==> exists m :: m in merchants && m != "" && Trim(m) == x
    ensures |r| <= |merchants|
  {
    if |merchants| == 0 then []
    else
      var rest := StrippedEntries(merchants[1..]);
      assert forall m :: m in merchants <==> m == merchants[0] || m in merchants[1..];
      if merchants[0] != "" then [Trim(merchants[0])] + rest else rest
  }

  /** The stripped entries are the non-empty entries, each stripped, in
      their order. */
  lemma {:induction false} StrippedEntriesInOrder(merchants: seq<string>)
    ensures |StrippedEntries(merchants)| == |Without(merchants, "")|
    ensures forall k :: 0 <= k < |StrippedEntries(merchants)| ==>
              StrippedEntries(merchants)[k] == Trim(Without(merchants, "")[k])
    decreases |merchants|
  {
    if |merchants| > 0 {
      StrippedEntriesInOrder(merchants[1..]);
      var rest := StrippedEntries(merchants[1..]);
      if merchants[0] != "" {
        assert StrippedEntries(merchants) == [Trim(merchants[0])] + rest;
        assert Without(merchants, "") == [merchants[0]] + Without(merchants[1..], "");
      } else {
        assert StrippedEntries(merchants) == rest;
        assert Without(merchants, "") == Without(merchants[1..], "");
      }
    }
  }

  /** `list(dict.fromkeys(xs))`: the distinct entries, each where it first
      occurs. */
  function Dedup(xs: seq<string>): (r: seq<string>)
    ensures forall x :: x in r <==> x in xs
    ensures NoDuplicates(r)
  {
    if |xs| == 0 then []
    else
      var init := Dedup(xs[..|xs| - 1]);
      var x := xs[|xs| - 1];
      assert forall y :: y in xs <==> y in xs[..|xs| - 1] || y == x by {
        assert xs == xs[..|xs| - 1] + [x];
      }
      if x in init then init else init + [x]
  }

  /** Position of the first occurrence of `x`. */
  function FirstIndex(xs: seq<string>, x: string): (i: nat)
    requires x in xs
    ensures i < |xs| && xs[i] == x && x !in xs[..i]
  {
    if xs[0] == x then 0
    else
      assert x in xs[1..];
      var k := FirstIndex(xs[1..], x);
      assert xs[..k + 1] == [xs[0]] + xs[1..][..k];
      k + 1
  }

  /** `Dedup` lists the distinct entries in order of first occurrence. */
  lemma {:induction false} DedupFirstOccurrenceOrder(xs: seq<string>)
    ensures forall i, j :: 0 <= i < j < |Dedup(xs)| ==>
      FirstIndex(xs, Dedup(xs)[i]) < FirstIndex(xs, Dedup(xs)[j])
  {
    if |xs| > 0 {
      var n := |xs|;
      var init := xs[..n - 1];
      var x := xs[n - 1];
      DedupFirstOccurrenceOrder(init);
      var d := Dedup(init);
      forall y | y in init ensures FirstIndex(xs, y) == FirstIndex(init, y) {
        FirstIndexPrefix(xs, init, y);
      }
      if x !in d {
        assert x !in init;
        assert FirstIndex(xs, x) == n - 1 by {
          assert xs[..n - 1] == init;
        }
        forall y | y in d ensures FirstIndex(xs, y) < n - 1 {
          assert FirstIndex(init, y) < |init|;
        }
        assert Dedup(xs) == d + [x];
      }
    }
  }

  lemma FirstIndexPrefix(xs: seq<string>, init: seq<string>, y: string)
    requires |init| <= |xs| && init == xs[..|init|] && y in init
    ensures FirstIndex(xs, y) == FirstIndex(init, y)
  {
    var k := FirstIndex(init, y);
    var j := FirstIndex(xs, y);
    assert xs[k] == y;
    assert init[..k] == xs[..k];
  }

  /** A list without duplicates is its own `Dedup`. */
  lemma {:induction false} DedupOfDistinct(xs: seq<string>)
    requires NoDuplicates(xs)
    ensures Dedup(xs) == xs
  {
    if |xs| > 0 {
      var init := xs[..|xs| - 1];
      DedupOfDistinct(init);
      assert xs[|xs| - 1] !in init;
      assert xs == init + [xs[|xs| - 1]];
    }
  }

  /** The entries of `xs` other than `x`, in order. */
  function Without(xs: seq<string>, x: string): (r: seq<string>)
    ensures forall y :: y in r <==> y in xs && y != x
    ensures Subsequence(r, xs)
    ensures NoDuplicates(xs) ==> NoDuplicates(r)
  {
    if |xs| == 0 then []
    else
      var rest := Without(xs[1..], x);
      assert forall y :: y in xs <==> y == xs[0] || y in xs[1..];
      assert NoDuplicates(xs) ==> NoDuplicates(xs[1..]) && xs[0] !in xs[1..];
      if xs[0] != x then [xs[0]] + rest else rest
  }

  /** `get_trusted_merchants`. */
  function TrustedMerchants(s: SessionState): (r: seq<string>)
    ensures NoDuplicates(r)
    ensures forall x :: x in r <==> exists m :: m in s.trustedMerchants && m != "" && Trim(m) == x
    ensures forall x :: x in r <==> x in StrippedEntries(s.trustedMerchants)
    ensures forall i, j :: 0 <= i < j < |r| ==>
      FirstIndex(StrippedEntries(s.trustedMerchants), r[i]) < FirstIndex(StrippedEntries(s.trustedMerchants), r[j])
  {
    var entries := StrippedEntries(s.trustedMerchants);
    DedupFirstOccurrenceOrder(entries);
    Dedup(entries)
  }

  /** The entries of `get_trusted_merchants` are stripped. */
  lemma TrustedMerchantsAreStripped(s: SessionState)
    ensures forall x :: x in TrustedMerchants(s) ==> Trim(x) == x
  {
    forall x | x in TrustedMerchants(s) ensures Trim(x) == x {
      var m :| m in s.trustedMerchants && m != "" && Trim(m) == x;
      TrimIdempotent(m);
    }
  }

  /** `add_trusted_merchant`: a blank name, or one already listed, changes
      nothing; otherwise the normalised list with the name appended is
      stored. */
  function AddTrustedMerchant(s: SessionState, name: string): (r: SessionState)
    ensures r.anomalyFlags == s.anomalyFlags && r.anomalyHistory == s.anomalyHistory
    ensures r.anomalyMessage == s.anomalyMessage
    ensures Trim(name) == "" || Trim(name) in TrustedMerchants(s) ==> r == s
    ensures Trim(name) != "" && Trim(name) !in TrustedMerchants(s) ==>
      r.trustedMerchants == TrustedMerchants(s) + [Trim(name)]
  {
    var n := Trim(name);
    if n == "" then s
    else
      var merchants := TrustedMerchants(s);
      if n in merchants then s else s.(trustedMerchants := merchants + [n])
  }

  /** `remove_trusted_merchant`: the normalised list without the entries
      equal to `name` (compared as given, not stripped). */
  function RemoveTrustedMerchant(s: SessionState, name: string): (r: SessionState)
    ensures r.anomalyFlags == s.anomalyFlags && r.anomalyHistory == s.anomalyHistory
    ensures r.anomalyMessage == s.anomalyMessage
    ensures forall m :: m in r.trustedMerchants <==> m in TrustedMerchants(s) && m != name
    ensures Subsequence(r.trustedMerchants, TrustedMerchants(s))
  {
    s.(trustedMerchants := Without(TrustedMerchants(s), name))
  }

  /** Reading back a stored normalised list only drops its "" entry. */
  lemma {:induction false} StrippedEntriesOfStripped(xs: seq<string>)
    requires forall x :: x in xs ==> Trim(x) == x
    ensures StrippedEntries(xs) == Without(xs, "")
  {
    if |xs| > 0 {
      assert forall x :: x in xs[1..] ==> x in xs;
      StrippedEntriesOfStripped(xs[1..]);
      assert xs[0] in xs;
    }
  }

  /** After adding a new name, the whitelist reads back as before (minus a
      blank entry) with the name at the end. */
  lemma AddThenRead(s: SessionState, name: string)
    requires Trim(name) != "" && Trim(name) !in TrustedMerchants(s)
    ensures TrustedMerchants(AddTrustedMerchant(s, name)) == Without(TrustedMerchants(s), "") + [Trim(name)]
  {
    var n := Trim(name);
    var ms := TrustedMerchants(s);
    var stored := ms + [n];
    TrustedMerchantsAreStripped(s);
    TrimIdempotent(name);
    assert forall x :: x in stored ==> Trim(x) == x;
    StrippedEntriesOfStripped(stored);
    WithoutAppend(ms, n, "");
    var w := Without(ms, "");
    assert NoDuplicates(w + [n]);
    DedupOfDistinct(w + [n]);
  }

  lemma {:induction false} WithoutAppend(xs: seq<string>, y: string, x: string)
    requires y != x
    ensures Without(xs + [y], x) == Without(xs, x) + [y]
  {
    if |xs| == 0 {
      assert xs + [y] == [y];
    } else {
      assert (xs + [y])[1..] == xs[1..] + [y];
      WithoutAppend(xs[1..], y, x);
    }
  }

  /** Only the entries equal to `x` are dropped: together with the
      membership and order `Without` keeps, this fixes its result. */
  lemma {:induction false} WithoutCount(xs: seq<string>, x: string)
    ensures |Without(xs, x)| == |xs| - multiset(xs)[x]
    decreases |xs|
  {
    if |xs| > 0 {
      WithoutCount(xs[1..], x);
      assert xs == [xs[0]] + xs[1..];
    }
  }

  /** Adding the same name twice adds it once. */
  lemma AddTwice(s: SessionState, name: string)
    ensures AddTrustedMerchant(AddTrustedMerchant(s, name), name) == AddTrustedMerchant(s, name)
  {
    var n := Trim(name);
    if n != "" && n !in TrustedMerchants(s) {
      AddThenRead(s, name);
      assert n in TrustedMerchants(AddTrustedMerchant(s, name));
    }
  }

  /** After removing a name, the whitelist reads back without it and
      otherwise as before (minus a blank entry). */
  lemma RemoveThenRead(s: SessionState, name: string)
    ensures TrustedMerchants(RemoveTrustedMerchant(s, name)) == Without(Without(TrustedMerchants(s), name), "")
    ensures name !in TrustedMerchants(RemoveTrustedMerchant(s, name))
  {
    var ms := TrustedMerchants(s);
    var stored := Without(ms, name);
    TrustedMerchantsAreStripped(s);
    assert forall x :: x in stored ==> Trim(x) == x;
    StrippedEntriesOfStripped(stored);
    DedupOfDistinct(Without(stored, ""));
  }
}

=== FILE: text.dfy ===
/** String primitives with Python's semantics: `str.isspace`, `str.strip`,
    `startswith`/`endswith`, substring `in`, `str.split` on one separator,
    ASCII `lower()`, decimal digits, `str(n)` for naturals and `float(s)` on
    plain decimal text. */
module Text {
  import opened Wrappers

  /** The characters Python's `str.isspace` accepts; `\s` in a `str` regular
      expression matches the same set. */
  predicate IsSpace(c: char) {
    || c == ' '
    || ('\t' <= c <= '\r')
    || ('\U{1c}' <= c <= '\U{1f}')
    || c == '\U{85}' || c == '\U{a0}' || c == '\U{1680}'
    || ('\U{2000}' <= c <= '\U{200a}')
    || c == '\U{2028}' || c == '\U{2029}' || c == '\U{202f}'
    || c == '\U{205f}' || c == '\U{3000}'
  }

  /** Every character is whitespace: what Python's `not s.strip()` tests. */
  predicate AllSpace(s: string) {
    forall i :: 0 <= i < |s| ==> IsSpace(s[i])
  }

  /** Number of whitespace characters at the start of `s`. */
  function LeadingSpaces(s: string): (k: nat)
    ensures k <= |s|
    ensures forall i :: 0 <= i < k ==> IsSpace(s[i])
    ensures k < |s| ==> !IsSpace(s[k])
  {
    if |s| == 0 || !IsSpace(s[0]) then 0 else 1 + LeadingSpaces(s[1..])
  }

  /** Number of whitespace characters at the end of `s`. */
  function TrailingSpaces(s: string): (k: nat)
    ensures k <= |s|
    ensures forall i :: |s| - k <= i < |s| ==> IsSpace(s[i])
    ensures k < |s| ==> !IsSpace(s[|s| - 1 - k])
  {
    if |s| == 0 || !IsSpace(s[|s| - 1]) then 0 else 1 + TrailingSpaces(s[..|s| - 1])
  }

  /** Neither end of `s` is whitespace. */
  predicate Trimmed(s: string) {
    |s| == 0 || (!IsSpace(s[0]) && !IsSpace(s[|s| - 1]))
  }

  /** Python's `s.strip()`. */
  function Trim(s: string): (r: string)
    ensures |r| <= |s|
    ensures Trimmed(r)
    ensures AllSpace(s) <==> r == ""
  {
    var t := s[LeadingSpaces(s)..];
    t[..|t| - TrailingSpaces(t)]
  }

  /** Stripping twice strips nothing more. */
  lemma TrimIdempotent(s: string)
    ensures Trim(Trim(s)) == Trim(s)
  {
    var r := Trim(s);
    assert LeadingSpaces(r) == 0;
    assert TrailingSpaces(r) == 0;
  }

  /** A string with no surrounding whitespace is its own strip. */
  lemma TrimOfTrimmed(s: string)
    requires Trimmed(s)
    ensures Trim(s) == s
  {
    assert LeadingSpaces(s) == 0;
    assert TrailingSpaces(s) == 0;
  }

  /** Stripping removes exactly the whitespace around a trimmed core. */
  lemma TrimSurrounded(lead: string, core: string, trail: string)
    requires AllSpace(lead) && AllSpace(trail) && Trimmed(core)
    ensures Trim(lead + core + trail) == core
  {
    var s := lead + core + trail;
    if |core| > 0 {
      assert s[|lead|] == core[0];
      assert LeadingSpaces(s) == |lead|;
      var t := s[|lead|..];
      assert t == core + trail;
      assert t[|core| - 1] == core[|core| - 1];
      assert TrailingSpaces(t) == |trail|;
      assert t[..|t| - |trail|] == core;
    } else {
      assert AllSpace(s);
    }
  }

  predicate StartsWith(s: string, prefix: string) {
    |prefix| <= |s| && s[..|prefix|] == prefix
  }

  predicate EndsWith(s: string, suffix: string) {
    |suffix| <= |s| && s[|s| - |suffix|..] == suffix
  }

  /** Python's `sub in s` on strings. */
  predicate Contains(s: string, sub: string)
    decreases |s|
  {
    StartsWith(s, sub) || (|s| > 0 && Contains(s[1..], sub))
  }

  /** `Contains` holds exactly when `sub` occurs at some position of `s`. */
  lemma {:induction false} ContainsAt(s: string, sub: string, i: nat)
    requires i + |sub| <= |s| && s[i..i + |sub|] == sub
    ensures Contains(s, sub)
    decreases i
  {
    if i > 0 {
      assert s[1..][i - 1..i - 1 + |sub|] == s[i..i + |sub|];
      ContainsAt(s[1..], sub, i - 1);
    }
  }

  /** Where `Contains` finds `sub`. */
  lemma {:induction false} ContainsWitness(s: string, sub: string) returns (i: nat)
    requires Contains(s, sub)
    ensures i + |sub| <= |s| && s[i..i + |sub|] == sub
    decreases |s|
  {
    if StartsWith(s, sub) {
      i := 0;
    } else {
      var j := ContainsWitness(s[1..], sub);
      i := j + 1;
      assert s[i..i + |sub|] == s[1..][j..j + |sub|];
    }
  }

  /** Text containing `mid` contains everything `mid` contains. */
  lemma ContainsTransitive(s: string, mid: string, sub: string)
    requires Contains(s, mid) && Contains(mid, sub)
    ensures Contains(s, sub)
  {
    var i := ContainsWitness(s, mid);
    var j := ContainsWitness(mid, sub);
    forall q | 0 <= q < |sub|
      ensures s[i + j + q] == sub[q]
    {
      assert s[i..i + |mid|][j + q] == mid[j + q];
      assert mid[j..j + |sub|][q] == sub[q];
    }
    assert s[i + j..i + j + |sub|] == sub;
    ContainsAt(s, sub, i + j);
  }

  function LowerChar(c: char): char {
    if 'A' <= c <= 'Z' then (c as int + 32) as char else c
  }

  /** Python's `s.lower()` on ASCII letters. */
  function Lower(s: string): (r: string)
    ensures |r| == |s|
    ensures forall i :: 0 <= i < |s| ==> r[i] == LowerChar(s[i])
  {
    seq(|s|, i requires 0 <= i < |s| => LowerChar(s[i]))
  }

  /** Position of the first `c` in `s`. */
  function IndexOf(s: string, c: char): (i: nat)
    requires c in s
    ensures i < |s| && s[i] == c && c !in s[..i]
  {
    if s[0] == c then 0 else 1 + IndexOf(s[1..], c)
  }

  /** Python's `s.split(sep)` for a one-character separator: always at
      least one part, and empty parts are kept. */
  function Split(s: string, sep: char): (parts: seq<string>)
    ensures |parts| >= 1
    ensures forall k :: 0 <= k < |parts| ==> sep !in parts[k]
    decreases |s|
  {
    if sep !in s then [s]
    else
      var i := IndexOf(s, sep);
      [s[..i]] + Split(s[i + 1..], sep)
  }

  /** Python's `sep.join(parts)`. */
  function Join(parts: seq<string>, sep: char): string
    requires |parts| >= 1
  {
    if |parts| == 1 then parts[0] else parts[0] + [sep] + Join(parts[1..], sep)
  }

  /** Splitting and joining again gives back the original text. */
  lemma {:induction false} SplitJoin(s: string, sep: char)
    ensures Join(Split(s, sep), sep) == s
    decreases |s|
  {
    if sep in s {
      var i := IndexOf(s, sep);
      var parts := Split(s, sep);
      var rest := Split(s[i + 1..], sep);
      assert parts == [s[..i]] + rest;
      assert parts[1..] == rest;
      SplitJoin(s[i + 1..], sep);
      assert Join(parts, sep) == s[..i] + [sep] + Join(rest, sep);
      assert s == s[..i] + [sep] + s[i + 1..];
    }
  }

  /** Joining parts free of the separator and splitting again gives back the parts. */
  lemma {:induction false} JoinSplit(parts: seq<string>, sep: char)
    requires |parts| >= 1
    requires forall k :: 0 <= k < |parts| ==> sep !in parts[k]
    ensures Split(Join(parts, sep), sep) == parts
    decreases |parts|
  {
    if |parts| > 1 {
      var s := Join(parts, sep);
      var p := parts[0];
      assert s == p + [sep] + Join(parts[1..], sep);
      assert s[|p|] == sep;
      assert s[..|p|] == p;
      assert sep in s;
      assert IndexOf(s, sep) == |p|;
      assert s[|p| + 1..] == Join(parts[1..], sep);
      JoinSplit(parts[1..], sep);
    } else {
      assert Join(parts, sep) == parts[0];
    }
  }

  /** ASCII decimal digits, which is what `\d` matches in the modelled inputs. */
  predicate IsDigit(c: char) {
    '0' <= c <= '9'
  }

  predicate AllDigits(s: string) {
    forall i :: 0 <= i < |s| ==> IsDigit(s[i])
  }

  function DigitValue(c: char): nat
    requires IsDigit(c)
  {
    c as int - '0' as int
  }

  /** Python's `int(s)` on a string of decimal digits. */
  function DigitsValue(s: string): nat
    requires AllDigits(s)
  {
    if |s| == 0 then 0 else 10 * DigitsValue(s[..|s| - 1]) + DigitValue(s[|s| - 1])
  }

  /** Python's `str(n)` for a natural number. */
  function NatToString(n: nat): (r: string)
    ensures |r| >= 1 && AllDigits(r)
    ensures |r| > 1 ==> r[0] != '0'
  {
    if n < 10 then [('0' as int + n) as char]
    else NatToString(n / 10) + [('0' as int + n % 10) as char]
  }

  /** `int(str(n)) == n`. */
  lemma {:induction false} NatToStringRoundTrip(n: nat)
    ensures DigitsValue(NatToString(n)) == n
  {
    if n >= 10 {
      NatToStringRoundTrip(n / 10);
      var r := NatToString(n);
      assert r[..|r| - 1] == NatToString(n / 10);
    }
  }

  /** Different numbers print differently. */
  lemma NatToStringInjective(m: nat, n: nat)
    requires m != n
    ensures NatToString(m) != NatToString(n)
  {
    NatToStringRoundTrip(m);
    NatToStringRoundTrip(n);
  }

  function Pow10(k: nat): (r: nat)
    ensures r >= 1
  {
    if k == 0 then 1 else 10 * Pow10(k - 1)
  }

  /** Value of `whole.frac` written in decimal. */
  function DecimalValue(whole: string, frac: string): real
    requires AllDigits(whole) && AllDigits(frac)
  {
    DigitsValue(whole) as real + DigitsValue(frac) as real / Pow10(|frac|) as real
  }

  /** Python's `float(s)` on plain decimal text: surrounding whitespace, an
      optional sign, digits with at most one `.`, at least one digit.
      Anything else is a `ValueError`, reported as `None`. */
  function ParseDecimal(s: string): (r: Option<real>)
    ensures AllSpace(s) ==> r == None
  {
    var t := Trim(s);
    if |t| == 0 then None
    else if t[0] == '-' || t[0] == '+' then
      match UnsignedDecimal(t[1..])
      case Some(v) => Some(if t[0] == '-' then -v else v)
      case None => None
    else UnsignedDecimal(t)
  }

  /** The unsigned part of `float`'s input: digits split by at most one
      `.`, with at least one digit on either side. */
  function UnsignedDecimal(body: string): Option<real> {
    var (whole, frac) :=
      if '.' in body then
        var i := IndexOf(body, '.');
        (body[..i], body[i + 1..])
      else (body, "");
    if |whole| + |frac| > 0 && AllDigits(whole) && AllDigits(frac) then Some(DecimalValue(whole, frac))
    else None
  }

  /** `sign` negates for `-` and keeps the value for `+` or no sign. */
  function Signed(sign: string, v: real): real {
    if sign == "-" then -v else v
  }

  /** `float` of a signed whole number, with whitespace around it, is its
      value. */
  lemma {:induction false} ParseDecimalOfWhole(lead: string, sign: string, whole: string, trail: string)
    requires AllSpace(lead) && AllSpace(trail) && (sign == "" || sign == "+" || sign == "-")
    requires |whole| > 0 && AllDigits(whole)
    ensures ParseDecimal(lead + sign + whole + trail) == Some(Signed(sign, DigitsValue(whole) as real))
  {
    assert '.' !in whole;
    assert DecimalValue(whole, "") == DigitsValue(whole) as real;
    ParseSigned(lead, sign, whole, trail);
  }

  /** `float` of a signed number with a `.`, with whitespace around it, is
      its value; either side of the `.` may be empty, but not both. */
  lemma {:induction false} ParseDecimalOfFraction(lead: string, sign: string, whole: string, frac: string, trail: string)
    requires AllSpace(lead) && AllSpace(trail) && (sign == "" || sign == "+" || sign == "-")
    requires AllDigits(whole) && AllDigits(frac) && |whole| + |frac| > 0
    ensures ParseDecimal(lead + sign + whole + "." + frac + trail) == Some(Signed(sign, DecimalValue(whole, frac)))
  {
    var body := whole + "." + frac;
    assert body[|whole|] == '.';
    assert body[..|whole|] == whole;
    assert body[|whole| + 1..] == frac;
    assert body[|body| - 1] == if |frac| > 0 then frac[|frac| - 1] else '.';
    assert '.' !in whole;
    IndexOfFirst(body, '.', |whole|);
    assert lead + sign + whole + "." + frac + trail == lead + sign + body + trail;
    ParseSigned(lead, sign, body, trail);
  }

  /** `float(str(n)) == n`. */
  lemma ParseDecimalOfNat(n: nat)
    ensures ParseDecimal(NatToString(n)) == Some(n as real)
  {
    ParseDecimalOfWhole("", "", NatToString(n), "");
    assert "" + "" + NatToString(n) + "" == NatToString(n);
    NatToStringRoundTrip(n);
  }

  /** A character other than a digit or `.` after the sign makes `float`
      fail. */
  lemma {:induction false} ParseDecimalRejectsStray(lead: string, sign: string, body: string, trail: string, k: nat)
    requires AllSpace(lead) && AllSpace(trail) && (sign == "" || sign == "+" || sign == "-")
    requires |body| > 0 && !IsSpace(body[|body| - 1])
    requires sign == "" ==> !IsSpace(body[0]) && body[0] != '-' && body[0] != '+'
    requires k < |body| && !IsDigit(body[k]) && body[k] != '.'
    ensures ParseDecimal(lead + sign + body + trail) == None
  {
    ParseSigned(lead, sign, body, trail);
    if '.' in body {
      var i := IndexOf(body, '.');
      if k < i {
        assert body[..i][k] == body[k];
      } else {
        assert body[i + 1..][k - i - 1] == body[k];
      }
    }
  }

  /** A second `.` makes `float` fail. */
  lemma {:induction false} ParseDecimalRejectsTwoDots(lead: string, sign: string, body: string, trail: string, j: nat, k: nat)
    requires AllSpace(lead) && AllSpace(trail) && (sign == "" || sign == "+" || sign == "-")
    requires |body| > 0 && !IsSpace(body[|body| - 1])
    requires sign == "" ==> !IsSpace(body[0]) && body[0] != '-' && body[0] != '+'
    requires j < k < |body| && body[j] == '.' && body[k] == '.'
    ensures ParseDecimal(lead + sign + body + trail) == None
  {
    ParseSigned(lead, sign, body, trail);
    var i := IndexOf(body, '.');
    assert i <= j;
    assert body[i + 1..][k - i - 1] == '.';
  }

  /** `float` strips the whitespace, reads the sign and hands the rest to
      the unsigned reading. */
  lemma {:induction false} ParseSigned(lead: string, sign: string, body: string, trail: string)
    requires AllSpace(lead) && AllSpace(trail) && (sign == "" || sign == "+" || sign == "-")
    requires |body| > 0 && !IsSpace(body[|body| - 1])
    requires sign == "" ==> !IsSpace(body[0]) && body[0] != '-' && body[0] != '+'
    ensures ParseDecimal(lead + sign + body + trail)
            == match UnsignedDecimal(body) case Some(v) => Some(Signed(sign, v)) case None => None
  {
    var core := sign + body;
    assert core[|core| - 1] == body[|body| - 1];
    assert core[0] == if sign == "" then body[0] else sign[0];
    assert lead + sign + body + trail == lead + core + trail;
    TrimSurrounded(lead, core, trail);
    ParseDecimalOfTrimmed(lead + core + trail);
    ParseSignedCore(sign, body);
  }

  /** A stripped text is read as its sign applied to its unsigned part. */
  lemma {:induction false} ParseSignedCore(sign: string, body: string)
    requires Trimmed(sign + body) && (sign == "" || sign == "+" || sign == "-")
    requires |body| > 0 && (sign == "" ==> body[0] != '-' && body[0] != '+')
    ensures ParseDecimal(sign + body)
            == match UnsignedDecimal(body) case Some(v) => Some(Signed(sign, v)) case None => None
  {
    var core := sign + body;
    TrimOfTrimmed(core);
    assert core[0] == if sign == "" then body[0] else sign[0];
    assert sign != "" ==> core[1..] == body;
  }

  /** `float` looks only at the stripped text. */
  lemma ParseDecimalOfTrimmed(s: string)
    ensures ParseDecimal(s) == ParseDecimal(Trim(s))
  {
    TrimIdempotent(s);
  }

  /** The first `c` in `s` is at `i` when `s[i]` is `c` and none comes
      before it. */
  lemma {:induction false} IndexOfFirst(s: string, c: char, i: nat)
    requires i < |s| && s[i] == c && c !in s[..i]
    ensures IndexOf(s, c) == i
  {
    var k := IndexOf(s, c);
    assert s[..k + 1][k] == c;
    assert s[..i + 1][i] == c;
  }
}

=== FILE: vision_ocr.dfy ===
/** What the vision OCR service does with the model's reply: strip the
    Markdown fence around the JSON, then turn each decoded entry into a
    transaction numbered by its position in the reply. The model call and
    the JSON decoder are outside this model: the reply arrives as text and
    its entries arrive already decoded. */
module VisionOcr {
  import opened Wrappers
  import opened Text
  import opened Entities
  import opened Sequences

  // ---------------------------------------------------------------------
  // Reply cleanup
  // ---------------------------------------------------------------------

  const Fence: string := "```"
  const JsonFence: string := "```json"

  /** A leading "```json" removed, then a leading "```", then a trailing
      "```". */
  function StripFences(c: string): (r: string)
    ensures |r| <= |c|
  {
    var c1 := if StartsWith(c, JsonFence) then c[|JsonFence|..] else c;
    var c2 := if StartsWith(c1, Fence) then c1[|Fence|..] else c1;
    if EndsWith(c2, Fence) then c2[..|c2| - |Fence|] else c2
  }

  /** The reply with surrounding whitespace stripped, its fences removed,
      and whitespace stripped again. */
  function CleanReply(content: string): (r: string)
    ensures |r| <= |content| && Trimmed(r)
  {
    Trim(StripFences(Trim(content)))
  }

  /** A reply without a fence at either end is only stripped. */
  lemma CleanUnfencedReply(content: string)
    requires !StartsWith(Trim(content), Fence) && !EndsWith(Trim(content), Fence)
    ensures CleanReply(content) == Trim(content)
  {
    StripFencesOfUnfenced(Trim(content));
    TrimIdempotent(content);
  }

  /** Text that neither opens nor closes with a fence passes unchanged. */
  lemma StripFencesOfUnfenced(c: string)
    requires !StartsWith(c, Fence) && !EndsWith(c, Fence)
    ensures StripFences(c) == c
  {
    if |c| >= |JsonFence| {
      assert c[..|JsonFence|][..|Fence|] == c[..|Fence|];
    }
  }

  /** The fences around `inner` come off, with or without the `json` tag,
      when `inner` opens with whitespace. */
  lemma StripFencesOfFenced(tag: string, inner: string)
    requires tag == "json" || tag == ""
    requires |inner| > 0 && IsSpace(inner[0])
    ensures StripFences(Fence + tag + inner + Fence) == inner
  {
    var rest := inner + Fence;
    assert rest[0] == inner[0];
    assert rest[|rest| - |Fence|..] == Fence;
    assert rest[..|rest| - |Fence|] == inner;
    if tag == "json" {
      assert Fence + tag + inner + Fence == JsonFence + rest;
      StripJsonFence(rest, inner[0]);
    } else {
      assert Fence + tag + inner + Fence == Fence + rest;
      StripPlainFence(rest, inner[0]);
    }
  }

  /** After "```json", the rest is kept as long as it does not open with
      another fence. */
  lemma StripJsonFence(rest: string, c: char)
    requires |rest| > 0 && rest[0] == c && c != '`'
    ensures StripFences(JsonFence + rest) == if EndsWith(rest, Fence) then rest[..|rest| - |Fence|] else rest
  {
    var s := JsonFence + rest;
    assert s[|JsonFence|..] == rest;
    assert !StartsWith(rest, Fence);
  }

  /** After a bare "```", the rest is kept as long as it does not open
      with "json" or another fence. */
  lemma StripPlainFence(rest: string, c: char)
    requires |rest| > 0 && rest[0] == c && c != '`' && c != 'j'
    ensures StripFences(Fence + rest) == if EndsWith(rest, Fence) then rest[..|rest| - |Fence|] else rest
  {
    var s := Fence + rest;
    assert s[|Fence|] == c;
    assert !StartsWith(s, JsonFence);
    assert s[|Fence|..] == rest;
  }

  /** A JSON body inside a fence, with or without the `json` tag, a line
      break (or other whitespace) after the opening fence, and whitespace
      around the whole reply, comes back exactly. */
  lemma CleanFencedReply(outerLead: string, tag: string, lead: string, body: string, trail: string, outerTrail: string)
    requires tag == "json" || tag == ""
    requires |lead| > 0 && AllSpace(lead) && AllSpace(trail) && Trimmed(body)
    requires AllSpace(outerLead) && AllSpace(outerTrail)
    ensures CleanReply(outerLead + (Fence + tag + (lead + body + trail) + Fence) + outerTrail) == body
  {
    var fenced := Fence + tag + (lead + body + trail) + Fence;
    assert fenced[0] == '`' && fenced[|fenced| - 1] == '`';
    TrimSurrounded(outerLead, fenced, outerTrail);
    StripFencesOfFenced(tag, lead + body + trail);
    TrimSurrounded(lead, body, trail);
  }

  // ---------------------------------------------------------------------
  // Entries
  // ---------------------------------------------------------------------

  /** A JSON value as the decoder hands it over; arrays and objects are not
      told apart further. */
  datatype Json = JNull | JBool(b: bool) | JNumber(n: real) | JString(s: string) | JArray | JObject

  /** What `LineItem(**li)` makes of one element of `line_items`: a line
      item; a validation error, which is a `ValueError`; or a `TypeError`
      when the element is not a mapping. */
  datatype ItemReading = Item(li: LineItem) | Invalid | NotMapping

  /** The list comprehension over `line_items`: every line item, or the
      error of the first element that does not read. */
  datatype Items = AllRead(items: seq<LineItem>) | SkipsEntry | RaisesTypeError

  function ReadItems(xs: seq<ItemReading>): (r: Items)
    ensures r.AllRead? <==> forall k :: 0 <= k < |xs| ==> xs[k].Item?
    ensures r.AllRead? ==> |r.items| == |xs| && forall k :: 0 <= k < |xs| ==> xs[k] == Item(r.items[k])
    ensures !r.AllRead? ==> exists k :: 0 <= k < |xs| && !xs[k].Item? && (forall j :: 0 <= j < k ==> xs[j].Item?)
                                       && (r.RaisesTypeError? <==> xs[k].NotMapping?)
    decreases |xs|
  {
    if |xs| == 0 then AllRead([])
    else
      match xs[0]
      case Invalid => SkipsEntry
      case NotMapping => RaisesTypeError
      case Item(li) =>
        var rest := ReadItems(xs[1..]);
        assert forall k :: 1 <= k < |xs| ==> xs[k] == xs[1..][k - 1];
        if rest.AllRead? then AllRead([li] + rest.items)
        else
          var k :| 0 <= k < |xs[1..]| && !xs[1..][k].Item? && (forall j :: 0 <= j < k ==> xs[1..][j].Item?)
                   && (rest.RaisesTypeError? <==> xs[1..][k].NotMapping?);
          assert forall j :: 0 <= j < k + 1 ==> xs[j].Item?;
          rest
  }

  /** One entry of the decoded reply. A JSON object has its scalar fields
      by name, its line items as `LineItem(**li)` reads them, and the
      optional receipt fields, already decoded. Any other JSON value has no
      `get`, so reading it raises `AttributeError`. */
  datatype Entry =
    | Entry(
        fields: map<string, Json>,
        lineItems: seq<ItemReading>,
        subtotal: Option<real>,
        totalDiscount: Option<real>,
        tax: Option<real>,
        receiptNumber: Option<string>,
        receiptTime: Option<string>)
    | NotObject

  /** What `float()` makes of a JSON value: a number, a `ValueError`, or a
      `TypeError`. */
  datatype Float = Value(v: real) | BadValue | BadType

  function FloatOf(j: Json): (r: Float)
    ensures r.BadType? <==> j.JNull? || j.JArray? || j.JObject?
  {
    match j
    case JNumber(n) => Value(n)
    case JBool(b) => Value(if b then 1.0 else 0.0)
    case JString(s) => (match ParseDecimal(s) case Some(v) => Value(v) case None => BadValue)
    case _ => BadType
  }

  const TypeErrorName: string := "TypeError"
  const AttributeErrorName: string := "AttributeError"

  /** What happens to one entry: a transaction, skipped (a `KeyError` or a
      `ValueError`, which the loop catches), or an exception the loop does
      not catch. */
  datatype Outcome = Built(t: Transaction) | Skipped | Raised(exception: string)

  /** The loop body for the entry at position `index`: the entry must be an
      object, every line item must read, `date`, `merchant`, `category` and
      `amount` must be present, the amount must convert, and the date,
      merchant, category and currency must have the types `Transaction`
      demands. The id is the 1-based position; a missing currency is
      Chinese yuan. */
  function EntryOutcome(e: Entry, index: nat): (r: Outcome)
    ensures r == Raised(AttributeErrorName) <==> e.NotObject?
    ensures r == Raised(TypeErrorName) <==>
              e.Entry? && (ReadItems(e.lineItems).RaisesTypeError?
                           || (ReadItems(e.lineItems).AllRead? && "date" in e.fields && "merchant" in e.fields
                               && "category" in e.fields && "amount" in e.fields && FloatOf(e.fields["amount"]).BadType?))
    ensures r.Raised? ==> r.exception == AttributeErrorName || r.exception == TypeErrorName
    ensures r.Built? ==> e.Entry? && r.t.id == NatToString(index + 1)
    ensures r.Built? ==> ReadItems(e.lineItems) == AllRead(r.t.lineItems) && |r.t.lineItems| == |e.lineItems|
    ensures r.Built? ==> "date" in e.fields && "merchant" in e.fields && "category" in e.fields && "amount" in e.fields
    ensures r.Built? && "currency" !in e.fields ==> r.t.currency == DefaultCurrency
    ensures r.Built? ==> FloatOf(e.fields["amount"]) == Value(r.t.amount)
    ensures r.Built? ==> e.fields["merchant"] == JString(r.t.merchant) && e.fields["category"] == JString(r.t.category)
    ensures r.Built? <==>
              && e.Entry?
              && ReadItems(e.lineItems).AllRead?
              && "date" in e.fields && "merchant" in e.fields && "category" in e.fields && "amount" in e.fields
              && FloatOf(e.fields["amount"]).Value?
              && e.fields["date"].JString? && ParseIsoDate(e.fields["date"].s).Some?
              && e.fields["merchant"].JString? && e.fields["category"].JString?
              && ("currency" in e.fields ==> e.fields["currency"].JString?)
    ensures r.Built? ==> e.fields["date"].JString? && ParseIsoDate(e.fields["date"].s) == Some(r.t.date)
    ensures r.Built? && "currency" in e.fields ==> e.fields["currency"] == JString(r.t.currency)
    ensures r.Built? ==> r.t.paymentMethod.None? && r.t.rawText.None?
    ensures r.Built? ==> r.t.subtotal == e.subtotal && r.t.totalDiscount == e.totalDiscount && r.t.tax == e.tax
    ensures r.Built? ==> r.t.receiptNumber == e.receiptNumber && r.t.receiptTime == e.receiptTime
  {
    if e.NotObject? then Raised(AttributeErrorName)
    else
      match ReadItems(e.lineItems)
      case SkipsEntry => Skipped
      case RaisesTypeError => Raised(TypeErrorName)
      case AllRead(items) =>
        if "date" !in e.fields || "merchant" !in e.fields || "category" !in e.fields || "amount" !in e.fields then Skipped
        else
          match FloatOf(e.fields["amount"])
          case BadType => Raised(TypeErrorName)
          case BadValue => Skipped
          case Value(amount) =>
            var date := match e.fields["date"] case JString(s) => ParseIsoDate(s) case _ => None;
            var currency := if "currency" !in e.fields then JString(DefaultCurrency) else e.fields["currency"];
            if date.None? || !e.fields["merchant"].JString? || !e.fields["category"].JString? || !currency.JString? then Skipped
            else
              Built(Transaction(NatToString(index + 1), date.value, e.fields["merchant"].s, e.fields["category"].s,
                                amount, currency.s, None, None, items, e.subtotal, e.totalDiscount, e.tax,
                                e.receiptNumber, e.receiptTime))
  }

  /** The transaction each entry builds, if any; an entry that raises
      counts as not built. */
  function Results(entries: seq<Entry>): (r: seq<Option<Transaction>>)
    ensures |r| == |entries|
    ensures forall i :: 0 <= i < |entries| ==> r[i] == (match EntryOutcome(entries[i], i) case Built(t) => Some(t) case _ => None)
  {
    seq(|entries|, i requires 0 <= i < |entries| => match EntryOutcome(entries[i], i) case Built(t) => Some(t) case _ => None)
  }

  /** The first position at or after `from` whose entry raises. */
  function FirstRaised(entries: seq<Entry>, from: nat): (i: nat)
    requires exists i :: from <= i < |entries| && EntryOutcome(entries[i], i).Raised?
    ensures from <= i < |entries| && EntryOutcome(entries[i], i).Raised?
    ensures forall j :: from <= j < i ==> !EntryOutcome(entries[j], j).Raised?
    decreases |entries| - from
  {
    if EntryOutcome(entries[from], from).Raised? then from else FirstRaised(entries, from + 1)
  }

  /** The loop as written: the transactions of the entries that build, in
      order, unless some entry raises, which fails the whole reply with the
      first exception raised. */
  function ExtractAsWritten(entries: seq<Entry>): (r: Result<seq<Transaction>>)
    ensures r.Err? <==> exists i :: 0 <= i < |entries| && EntryOutcome(entries[i], i).Raised?
    ensures r.Err? ==> exists i :: 0 <= i < |entries| && EntryOutcome(entries[i], i) == Raised(r.message)
                                   && forall j :: 0 <= j < i ==> !EntryOutcome(entries[j], j).Raised?
    ensures r.Ok? ==> r.value == Present(Results(entries))
  {
    if exists i :: 0 <= i < |entries| && EntryOutcome(entries[i], i).Raised? then
      var i := FirstRaised(entries, 0);
      Err(EntryOutcome(entries[i], i).exception)
    else Ok(Present(Results(entries)))
  }

  /** The loop as its `except` clause intends: an entry that raises is
      skipped like any other invalid entry. */
  function Extract(entries: seq<Entry>): (r: seq<Transaction>)
    ensures |r| <= |entries|
    ensures ExtractAsWritten(entries).Ok? ==> r == ExtractAsWritten(entries).value
    ensures forall i :: 0 <= i < |entries| && EntryOutcome(entries[i], i).Built? ==> EntryOutcome(entries[i], i).t in r
    ensures forall t :: t in r ==> exists i :: 0 <= i < |entries| && EntryOutcome(entries[i], i) == Built(t)
  {
    var os := Results(entries);
    PresentMembers(os);
    Present(os)
  }

  /** Each extracted transaction comes from an entry at a strictly later
      position than the one before it, and its id is that position plus
      one: ids are increasing positions, with a gap for every entry skipped. */
  lemma ExtractIdsArePositions(entries: seq<Entry>) returns (at: seq<nat>)
    ensures var ts := Extract(entries);
            |at| == |ts|
            && (forall k :: 0 <= k < |ts| ==> at[k] < |entries| && EntryOutcome(entries[at[k]], at[k]) == Built(ts[k]))
            && (forall k :: 0 <= k < |ts| ==> ts[k].id == NatToString(at[k] + 1))
            && (forall j, k :: 0 <= j < k < |ts| ==> at[j] < at[k])
  {
    at := PresentOrigins(Results(entries));
  }

  /** No two extracted transactions share an id. */
  lemma ExtractIdsDistinct(entries: seq<Entry>)
    ensures var ts := Extract(entries);
            forall j, k :: 0 <= j < k < |ts| ==> ts[j].id != ts[k].id
  {
    var at := ExtractIdsArePositions(entries);
    var ts := Extract(entries);
    forall j, k | 0 <= j < k < |ts|
      ensures ts[j].id != ts[k].id
    {
      NatToStringInjective(at[j] + 1, at[k] + 1);
    }
  }

  /** When every entry builds, every entry is extracted, with ids 1, 2, 3, ... */
  lemma ExtractAllBuilt(entries: seq<Entry>)
    requires forall i :: 0 <= i < |entries| ==> EntryOutcome(entries[i], i).Built?
    ensures |Extract(entries)| == |entries|
    ensures forall k :: 0 <= k < |entries| ==> Extract(entries)[k] == EntryOutcome(entries[k], k).t
  {
    var os := Results(entries);
    AllOfSucceedsIffEveryValue(os);
    AllOfIsPresent(os);
  }

  /** An entry without the required keys. */
  const EmptyEntry: Entry := Entry(map[], [], None, None, None, None, None)

  /** Skipping the first entry leaves its id unused: the next one is "2". */
  lemma SkippedEntryLeavesGap(good: Entry)
    requires EntryOutcome(good, 1).Built?
    ensures Extract([EmptyEntry, good]) == [EntryOutcome(good, 1).t]
    ensures Extract([EmptyEntry, good])[0].id == "2"
  {
    var os := Results([EmptyEntry, good]);
    assert os[0] == None && os[1] == Some(EntryOutcome(good, 1).t);
    PresentCons(os);
    PresentCons(os[1..]);
    assert os[1..][1..] == [];
  }

  /** An entry whose amount is JSON `null`, with everything else in place. */
  function NullAmountEntry(date: string, merchant: string, category: string): Entry {
    Entry(map["date" := JString(date), "merchant" := JString(merchant), "category" := JString(category), "amount" := JNull],
          [], None, None, None, None, None)
  }

  /** As written, one entry with a `null` amount fails the whole reply,
      losing the valid entries around it; skipped as intended, the other
      entries are kept. */
  lemma NullAmountFailsReply(date: string, merchant: string, category: string, good: Entry)
    requires EntryOutcome(good, 1).Built?
    ensures ExtractAsWritten([NullAmountEntry(date, merchant, category), good]) == Err(TypeErrorName)
    ensures Extract([NullAmountEntry(date, merchant, category), good]) == [EntryOutcome(good, 1).t]
  {
    var bad := NullAmountEntry(date, merchant, category);
    assert ReadItems(bad.lineItems) == AllRead([]);
    assert EntryOutcome(bad, 0) == Raised(TypeErrorName);
    FirstOfTwoRaises(bad, good);
  }

  /** As written, an entry that is not a JSON object fails the whole reply
      with `AttributeError`; skipped as intended, the other entries are
      kept. */
  lemma NonObjectFailsReply(good: Entry)
    requires EntryOutcome(good, 1).Built?
    ensures ExtractAsWritten([NotObject, good]) == Err(AttributeErrorName)
    ensures Extract([NotObject, good]) == [EntryOutcome(good, 1).t]
  {
    FirstOfTwoRaises(NotObject, good);
  }

  /** Of two entries, a first that raises fails the reply as written with
      its exception, and is skipped as intended. */
  lemma FirstOfTwoRaises(bad: Entry, good: Entry)
    requires EntryOutcome(bad, 0).Raised? && EntryOutcome(good, 1).Built?
    ensures ExtractAsWritten([bad, good]) == Err(EntryOutcome(bad, 0).exception)
    ensures Extract([bad, good]) == [EntryOutcome(good, 1).t]
  {
    var os := Results([bad, good]);
    assert os[0] == None && os[1] == Some(EntryOutcome(good, 1).t);
    PresentCons(os);
    PresentCons(os[1..]);
    assert os[1..][1..] == [];
  }

  /** The line items are read in order and the first one that fails
      decides: a non-mapping before an invalid item raises, an invalid
      item before a non-mapping skips the entry. */
  lemma FirstItemFailureDecides(fields: map<string, Json>)
    ensures EntryOutcome(Entry(fields, [NotMapping, Invalid], None, None, None, None, None), 0) == Raised(TypeErrorName)
    ensures EntryOutcome(Entry(fields, [Invalid, NotMapping], None, None, None, None, None), 0) == Skipped
  {
    assert ReadItems([NotMapping, Invalid]) == RaisesTypeError;
    assert ReadItems([Invalid, NotMapping]) == SkipsEntry;
  }
}

=== FILE: wrappers.dfy ===
/** Optional values and error-carrying results, used wherever the Python code
    returns `None` or raises instead of producing a value. */
module Wrappers {

  /** A Python `Optional[T]`: `None` or a present value. */
  datatype Option<+T> = None | Some(value: T) {

    /** The present value, or `default` when absent (Python's `x or default`
        when only `None` is falsy). */
    function GetOr(default: T): T {
      match this
      case Some(v) => v
      case None => default
    }
  }

  /** The outcome of an operation that raises `ValueError` on bad input:
      either a value or the error's message. */
  datatype Result<+T> = Ok(value: T) | Err(message: string)
}
